=== FILE: README.md ===
# NBTJam core, modelled in Dafny

NBTJam is a desktop editor for Minecraft NBT files. This project models its core:

- **The structured tree.** Every file is shown to the editor as a "structured NBT" tree. This is a tagged union of twelve tag types. Each tag carries a numeric `tag` id, a `type` name, an optional `key` and a value.
- **The main process.**
  - **Open.** It loads a file with the NBT library. It tries a plain load first, then a zlib-compressed one. It then converts the library's tag objects into the structured tree.
  - **Save.** It builds library tags back from the tree and writes the encoded buffer.
- **The renderer.**
  - **The Bus.** It holds the structured root, the open file's identity and a modification counter. The counter is bumped after every applied edit.
  - **The display tree.** It is built from the root. The builder supports a cap on shown children, with a "no more" dummy leaf for the rest; the editor sets the cap to -1, so every child is built and no dummy appears. The display tree also carries the keys, titles and prefixes the editor tree draws.
  - **The node-data panels.** These edit the selected tag:
    - the scalar panel, with its byte/short/int/float/double/long/string inputs;
    - the byte- and int-array panel;
    - the list panel;
    - the compound panel.

The source mutates the shared tag objects in place. The model gives every panel a path into the Bus's root instead. A submit rewrites the root at that path. The rewrite functions state that every tag apart from the rewritten one keeps its path and its value (`StructedNbt.ReplaceAtElsewhere`). The tags above the rewritten one differ only in the rewritten child.

Modules:

- **Data and library types.**
  - `Wrappers`: Option and Result.
  - `JsText`: the JavaScript string and number operations the source relies on.
  - `StructedNbt`: the tree, its tag ids and type names, and paths.
  - `Mcnbt`: the library's tag objects and JavaScript property assignment.
- **Main process.**
  - `Loader`: library tag to structured tag.
  - `OpenNbt`, `SaveNbt`, `SaveProperties`: open, save and the save/reload round trip.
- **Renderer.**
  - `DataNodes`: the display tree.
  - `RendererBus`: the Bus.
  - `EditorTree`: the editor tree component.
- **Panels.**
  - `ValueInputs`: the scalar inputs and their filters.
  - `PanelNodes`: what the panels share.
  - `MetaTypePanel`, `XArrayPanel`, `ListPanel`, `CompoundPanel`.

The modelled files come from different revisions of the editor, and the model follows the code as written in each:

- **The display tree and the panels disagree.** `createDataNode` never sets the `structedTag` or `parentNode` that the panels read. The panels are therefore modelled on the tag the node was built from (`PanelNodes.PanelNode`), and on the display siblings a caller passes in.
- **Compound children.** The display tree keys a compound's children by position ("0", "1", …). As a result the scalar panel's lookup of a compound child by its key finds nothing (`MetaTypePanel.CompoundChildShowsUndefined`).
- **The opened file is never recorded.** The open request never records the opened file (`openedInfo`). A save therefore fails on reading its filename; the model keeps that record as an `Option` that starts empty.

## Model

| member | source | states |
|---|---|---|
| StructedNbt.TagNumberBijective | types/structed_nbt.d.ts:8-79 | the tag ids 0..11 and the twelve tag types correspond one to one |
| StructedNbt.TypeNameBijective | types/structed_nbt.d.ts:8-79 | each tag type has exactly one `type` name and each name names exactly one type |
| StructedNbt.TagFieldsAgree | types/structed_nbt.d.ts:81-85 | every tag's `tag` number and `type` name denote the same variant |
| StructedNbt.TagAtReplaceAt | src/renderer/Component/NodeDataPanel/MetaTypePanel.tsx:116-122 | after writing a tag at a path, reading that path gives the written tag |
| StructedNbt.ReplaceSibling | src/renderer/Component/NodeDataPanel/ListPanel.tsx:99-108 | replacing the i-th child of a container changes that child among its siblings, and every tag apart from it stays at its path unchanged |
| StructedNbt.ReplaceAtElsewhere | src/renderer/Component/NodeDataPanel/MetaTypePanel.tsx:116-122 | writing a tag at a path leaves every tag at a path apart from it (neither path a prefix of the other) where it was and as it was |
| Mcnbt.SetPropLookup | src/main/ipc/handler/save_nbt.ts:122-130 | after `obj[name] = t`, `name` reads as `t` and every other name reads as before |
| Mcnbt.SetPropNames | src/main/ipc/handler/save_nbt.ts:122-130 | an existing property keeps its place, while a new name is appended last |
| Mcnbt.SetPropNew | src/main/ipc/handler/save_nbt.ts:122-130 | assigning an absent name adds exactly one property at the end |
| Mcnbt.SetPropEntries | src/main/ipc/handler/save_nbt.ts:122-130 | every property after an assignment was there before or is the assigned one |
| Mcnbt.SetPropDistinct | src/main/ipc/handler/save_nbt.ts:146-149 | property names stay pairwise distinct under assignment |
| Mcnbt.LookupDistinct | src/main/lib/utils.ts:127-139 | with distinct names, every property reads back by its own name |
| Loader.ListChildTypeName | src/main/lib/utils.ts:123 | a list's child type is the library name with four characters dropped, lower-cased |
| Loader.LibraryNamesBecomeTypeNames | src/main/lib/utils.ts:123 | for each library child type name, the conversion gives the editor's `type` name of that type |
| Loader.NbtNodeToStructed | src/main/lib/utils.ts:52-158 | the recursive conversion method returns what the conversion function specifies, error included |
| Loader.NbtToStructedRoot | src/main/lib/utils.ts:160-170 | the converting method returns what the root conversion specifies, error included |
| Loader.ToStructedKeyAndType | src/main/lib/utils.ts:32-50 | a converted tag carries the given key (absent when none) and the tag id of its library type |
| Loader.ToStructedLeaves | src/main/lib/utils.ts:54-108 | scalars, strings and arrays carry over unchanged; a long becomes the decimal text of its value |
| Loader.ListConversion | src/main/lib/utils.ts:110-125 | list items convert in order, without keys, under the lower-cased child type |
| Loader.CompoundConversion | src/main/lib/utils.ts:127-139 | compound children convert in property order, each keyed by its name |
| Loader.RootConversion | src/main/lib/utils.ts:160-170 | the root holds one converted tag per root property, in order, keyed by its name |
| Loader.ToStructedOkIffRecognised | src/main/lib/utils.ts:52-157 | conversion succeeds exactly when every nested tag has a type id in 0..11 (a failure's id lies outside 0..11 by the type of the error) |
| OpenNbt.ParseFile | src/main/ipc/handler/open_nbt.ts:43-81 | a plain load is tried first and a zlib load only after it fails; the result records which one succeeded, and when both fail the plain load's error is reported after "[Broken File] " |
| OpenNbt.OpenHandle | src/main/ipc/handler/open_nbt.ts:21-41 | a cancelled dialog answers "cancelled" without loading; otherwise the file loaded plainly, or else through zlib, is converted and answered with the chosen paths, a conversion failure is answered with the load error message, and when both loads fail the answer is the prefixed plain-load error |
| SaveNbt.BuildTag | src/main/ipc/handler/save_nbt.ts:53-142 | the build method returns what the build function specifies for every tag, error included |
| SaveNbt.BuildNbtBuffer | src/main/ipc/handler/save_nbt.ts:144-174 | root tags are assigned under their keys, and the recorded compression flag picks the encoder |
| SaveNbt.MainBus.constructor | src/main/ipc/handler/save_nbt.ts:43-44 | no opened file is recorded at start |
| SaveNbt.MainBus.SaveHandle | src/main/ipc/handler/save_nbt.ts:21-51 | with no recorded file the save fails; a cancelled save-as writes nothing; otherwise the chosen or recorded file gets the built buffer, the record follows it, and the root read back from it is returned |
| SaveProperties.BuildKeepsKeyAndType | src/main/ipc/handler/save_nbt.ts:53-142 | a built tag has the node's key as its name and the library type id of the node's type |
| SaveProperties.BuildOkIffBuildable | src/main/ipc/handler/save_nbt.ts:53-142 | building succeeds exactly when the tree holds no end tag and every long text is a decimal literal |
| SaveProperties.ListBuild | src/main/ipc/handler/save_nbt.ts:111-120 | a built list keeps its declared child type verbatim and holds one built element per item, in order |
| SaveProperties.LaterChildWins | src/main/ipc/handler/save_nbt.ts:122-130 | in a built compound, a child's key reads as the last child with that key |
| SaveProperties.LastRootTagWins | src/main/ipc/handler/save_nbt.ts:146-149 | in the built document, a root key reads as the last root tag with that key |
| SaveProperties.EncoderFollowsFlag | src/main/ipc/handler/save_nbt.ts:151-173 | the encoder the recorded flag does not select is never called (replacing it changes nothing), and the selected encoder's bytes are the buffer |
| SaveProperties.BuiltRecognised | src/main/ipc/handler/save_nbt.ts:53-142 | every tag the build produces converts back without error |
| SaveProperties.ReloadAfterBuildSucceeds | src/main/ipc/handler/save_nbt.ts:46-50 | reading back a built document never fails, whatever the keys |
| SaveProperties.SaveableBuildable | src/main/ipc/handler/save_nbt.ts:53-142 | a tree with no end tag, decimal longs and distinct compound keys builds successfully |
| SaveProperties.SaveThenReload | src/main/ipc/handler/save_nbt.ts:53-142 | saving a saveable tag and converting it back gives `Reloaded` of the tag: the same tree, except that list child types go through the loader's renaming, long texts are re-printed in canonical decimal ("007" as "7", "-0" as "0"), and a keyless compound child is named "undefined" |
| SaveProperties.ListRoundTrip | src/main/ipc/handler/save_nbt.ts:111-120 | a saved list reads back item by item |
| SaveProperties.CompoundRoundTrip | src/main/ipc/handler/save_nbt.ts:122-130 | a saved compound with distinct keys reads back child by child |
| SaveProperties.SaveThenReloadRoot | src/main/ipc/handler/save_nbt.ts:144-149 | saving a root with distinct keys and reading it back gives `Reloaded` of each root tag, in order: list child types renamed, long texts re-printed in canonical decimal |
| SaveProperties.DeclaredChildTypeLost | src/main/lib/utils.ts:123 | a list saved with any of the twelve declared child types never reads back with the same child type |
| DataNodes.ElementTypeName | src/renderer/lib/NBTDataNode.tsx:61 | the element type name holds no underscore, since everything from the first one is dropped |
| DataNodes.ListKeys | src/renderer/lib/NBTDataNode.tsx:38-53 | list children are keyed by their indices 0..n-1 |
| DataNodes.CompoundKeys | src/renderer/lib/NBTDataNode.tsx:86-102 | compound children are keyed by the index strings "0".."n-1" |
| DataNodes.BuildTreeData | src/renderer/lib/NBTDataNode.tsx:137-200 | the building method returns what the tree specification gives, error included |
| DataNodes.CreateListChildrenNodes | src/renderer/lib/NBTDataNode.tsx:38-53 | the loop builds the children of a list, capped when a cap is given, failing on the first failed child |
| DataNodes.CreateCompoundChildrenNodes | src/renderer/lib/NBTDataNode.tsx:86-102 | the loop builds the children of a compound, capped when a cap is given, failing on the first failed child |
| DataNodes.CreateXArrayChildrenNodes | src/renderer/lib/NBTDataNode.tsx:55-84 | the loop builds one leaf per element, capped when a cap is given, then the dummy node for the hidden ones |
| DataNodes.TreeDataShape | src/renderer/lib/NBTDataNode.tsx:104-135 | every built node carries the path-derived key, its key in the parent, its type name and its leafness |
| DataNodes.LeafTitles | src/renderer/lib/NBTDataNode.tsx:144-158 | a leaf is titled by its printed value; an end tag cannot be built |
| DataNodes.XArrayComplete | src/renderer/lib/NBTDataNode.tsx:55-84 | without a cap, an array shows every element in order, titled by its number |
| DataNodes.XArrayCapped | src/renderer/lib/NBTDataNode.tsx:55-84 | with a cap, an array shows min(count, max) children, the last a dummy when elements are hidden |
| DataNodes.CollectOk | src/renderer/lib/NBTDataNode.tsx:38-53 | without a cap, the children are built exactly when every child is |
| DataNodes.CollectValues | src/renderer/lib/NBTDataNode.tsx:38-53 | without a cap, the built children are all the children, in order |
| DataNodes.CollectCapped | src/renderer/lib/NBTDataNode.tsx:86-102 | with a cap, successful children number min(count, max), ending in a dummy when some are hidden |
| DataNodes.TreeDataOkIffNoEnd | src/renderer/lib/NBTDataNode.tsx:137-200 | without a cap, a tree is built exactly when no end tag occurs in it |
| DataNodes.ChildKeysDiffer | src/renderer/lib/NBTDataNode.tsx:104-135 | two keys built on one path differ when their last parts differ |
| DataNodes.SiblingKeysDistinct | src/renderer/lib/NBTDataNode.tsx:137-200 | the children of a built node have pairwise distinct keys |
| DataNodes.ChildrenKeys | src/renderer/lib/NBTDataNode.tsx:104-135 | built children are keyed by their own keys under the parent's path |
| DataNodes.ChildKeyIs | src/renderer/lib/NBTDataNode.tsx:137-200 | child j of a built container or array is keyed by j under the node's path |
| DataNodes.TreeDataCapped | src/renderer/lib/NBTDataNode.tsx:137-200 | with a cap, a built node shows min(count, max) children, with a dummy last when some are hidden |
| DataNodes.NoDummyResults | src/renderer/lib/NBTDataNode.tsx:19-36 | no built child is itself a dummy node |
| RendererBus.FindErrorTag | src/renderer/bus.ts:95-99 | the lazy scan finds the first occurrence of "Error: " at or after the start |
| RendererBus.MatchEnd | src/renderer/bus.ts:95-99 | a match starting at p ends just after the first "Error: " after the fixed prefix |
| RendererBus.FirstMatch | src/renderer/bus.ts:95-99 | the leftmost match of the pattern, if any |
| RendererBus.StripRemotePrefix | src/renderer/bus.ts:95-99 | a message holding no match of the pattern is returned unchanged |
| RendererBus.StripInvokeErrorMessage | src/renderer/bus.ts:95-99 | for a plain channel name, stripping the remote-call wrapper gives back the handler's own message |
| RendererBus.Bus.constructor | src/renderer/bus.ts:17-23 | a new Bus holds an empty root, no file, version 0 and no selection |
| RendererBus.Bus.SetRoot | src/renderer/bus.ts:65-71 | the getter returns what the setter stored; nothing else changes |
| RendererBus.Bus.OpenFile | src/renderer/bus.ts:81-100 | cancel changes nothing; success installs root, uuid, filename and version 0; failure shows the stripped message |
| RendererBus.OpenFailureMessage | src/renderer/bus.ts:95-99 | a failed open shows "Failed to open file: " followed by the handler's own message |
| EditorTree.Pad3Digits | src/renderer/Component/NBTEditorTree.tsx:13-15 | indices below 1000 are drawn as exactly three digits that read back as the index |
| EditorTree.EllipsisMiddle | src/renderer/Component/NBTEditorTree.tsx:17-31 | short text is kept; longer text keeps a head and a tail of the text around "..." |
| EditorTree.EllipsisEven | src/renderer/Component/NBTEditorTree.tsx:17-31 | for an even limit the kept head and tail are equally long |
| EditorTree.KeyPrefix | src/renderer/Component/NBTEditorTree.tsx:33-41 | the dummy node shows "...", a string key is drawn shortened to 20 characters by `ellipsisMiddle`, an index is padded by `pad3`, and drawing fails exactly for a non-dummy node without a key |
| EditorTree.IndexPrefix | src/renderer/Component/NBTEditorTree.tsx:33-41 | an index below 1000 is drawn as its three-digit form |
| EditorTree.EntryUnit | src/renderer/Component/NBTEditorTree.tsx:64-66 | "entry" for exactly one child and "entries" otherwise |
| EditorTree.ElementUnit | src/renderer/Component/NBTEditorTree.tsx:78 | "element" for exactly one child and "elements" otherwise |
| EditorTree.TreeRows | src/renderer/Component/NBTEditorTree.tsx:117-119 | one row per root tag, or the first failure |
| EditorTree.TreeRowsValues | src/renderer/Component/NBTEditorTree.tsx:117-119 | row i is the display tree of root tag i |
| EditorTree.FindByKeyIsFirst | src/renderer/Component/NBTEditorTree.tsx:121-133 | the search finds exactly the first node with the key in pre-order |
| EditorTree.ReselectFinds | src/renderer/Component/NBTEditorTree.tsx:121-133 | a re-selected node is a node of the new tree with the old key |
| EditorTree.FindInAllIsFirst | src/renderer/Component/NBTEditorTree.tsx:121-133 | the search over a sequence of nodes (the children, or the rows) finds the first node with the key in pre-order over all of them |
| EditorTree.Rebuild | src/renderer/Component/NBTEditorTree.tsx:114-136 | the rebuild returns the rows of the current root and re-selects by key, touching only the selection |
| ValueInputs.MetaTypePanelOptions | src/renderer/Component/NodeDataPanel/MetaTypePanels.tsx:40-78 | byte, short and int get their signed ranges; float and double get a float input; any other type gets a plain input |
| ValueInputs.ScalarPanel | src/renderer/Component/NodeDataPanel/MetaTypePanels.tsx:80-84 | exactly the seven scalar types have a panel; long and string have their own inputs |
| ValueInputs.IntegerRangesAreSigned | src/renderer/Component/NodeDataPanel/MetaTypePanels.tsx:42-58 | the byte, short and int bounds are the signed 8-, 16- and 32-bit ranges |
| ValueInputs.FormatInteger | src/renderer/Component/NodeDataPanel/MetaTypePanels.tsx:20-22 | text holding no '.' is displayed unchanged |
| ValueInputs.FormatParseRoundTrip | src/renderer/Component/NodeDataPanel/MetaTypePanels.tsx:20-25 | formatting an integer and parsing the display gives the integer back |
| ValueInputs.FormatDropsFraction | src/renderer/Component/NodeDataPanel/MetaTypePanels.tsx:20-22 | a typed fraction is dropped from the display |
| ValueInputs.LongVerdictAccepts | src/renderer/Component/NodeDataPanel/MetaTypePanels.tsx:98-128 | "" and "-" are unfinished input, and exactly the decimal literals of signed 64-bit integers are accepted |
| ValueInputs.LongVerdictOfPrinted | src/renderer/Component/NodeDataPanel/MetaTypePanels.tsx:98-128 | every printed 64-bit integer passes the filter |
| ValueInputs.LongVerdictBounds | src/renderer/Component/NodeDataPanel/MetaTypePanels.tsx:98-128 | the 64-bit bounds are accepted and one past either bound is reverted |
| ValueInputs.LongInput.OnChange | src/renderer/Component/NodeDataPanel/MetaTypePanels.tsx:96-129 | a reverted text restores the last accepted one; otherwise the text is kept; the field always holds filtered text |
| ValueInputs.StringInput.OnChange | src/renderer/Component/NodeDataPanel/MetaTypePanels.tsx:150-158 | text over 65535 UTF-8 bytes is reverted to the last accepted text; the field never exceeds the limit |
| ValueInputs.AsciiStringLimit | src/renderer/Component/NodeDataPanel/MetaTypePanels.tsx:150-158 | for ASCII text the limit is 65535 characters |
| ValueInputs.ShortStringsFit | src/renderer/Component/NodeDataPanel/MetaTypePanels.tsx:150-158 | any text of at most 16383 characters is accepted |
| PanelNodes.WithElements | src/renderer/Component/NodeDataPanel/XArrayPanel.tsx:134-139 | the array tag holds the new numbers, with its key and type unchanged |
| PanelNodes.ReplaceOwn | src/renderer/Component/NodeDataPanel/ListPanel.tsx:99-108 | the node's own tag becomes the new tag, its siblings stay in place, and every tag apart from it stays at its path unchanged |
| PanelNodes.ReplaceOwnSame | src/renderer/Component/NodeDataPanel/CompoundPanel.tsx:72-76 | writing the node's own tag back changes nothing |
| PanelNodes.ReplaceElements | src/renderer/Component/NodeDataPanel/MetaTypePanel.tsx:116-122 | the array holds the new numbers under its key, and every tag apart from the array stays at its path unchanged |
| PanelNodes.ScanForKey | src/renderer/Component/NodeDataPanel/MetaTypePanel.tsx:106-111 | the scan reports a duplicate exactly when some tag in the parent carries the key |
| PanelNodes.ValidateSiblingKey | src/renderer/Component/NodeDataPanel/ListPanel.tsx:75-90 | a complaint comes exactly when another sibling prints its key as the entered key |
| PanelNodes.ChecksFreeKey | src/renderer/Component/NodeDataPanel/CompoundPanel.tsx:48-63 | passing either duplicate check leaves the new key free among the other siblings |
| PanelNodes.RenameKeepsUnique | src/renderer/Component/NodeDataPanel/MetaTypePanel.tsx:100-114 | renaming one tag to a free key keeps sibling keys unique |
| MetaTypePanel.WithEntry | src/renderer/Component/NodeDataPanel/MetaTypePanel.tsx:116-122 | writing an entry keeps the value's type |
| MetaTypePanel.EntryTextOfWrite | src/renderer/Component/NodeDataPanel/MetaTypePanel.tsx:83 | an entry prints as the value it writes |
| MetaTypePanel.EqualTextSameValue | src/renderer/Component/NodeDataPanel/MetaTypePanel.tsx:83 | an entry prints as the current value exactly when writing it changes nothing |
| MetaTypePanel.FirstKeyed | src/renderer/Component/NodeDataPanel/MetaTypePanel.tsx:51-81 | the index of the first sibling with the key, or none when no sibling has it |
| MetaTypePanel.InitialValueIsOwn | src/renderer/Component/NodeDataPanel/MetaTypePanel.tsx:51-81 | the panel starts from the node's own value for an array element, for a list item keyed by its index, and for a uniquely keyed tag |
| MetaTypePanel.CompoundChildShowsUndefined | src/renderer/Component/NodeDataPanel/MetaTypePanel.tsx:51-81 | a compound child keyed by its display position, whose siblings carry no such key, starts from undefined |
| MetaTypePanel.SubmitMeta | src/renderer/Component/NodeDataPanel/MetaTypePanel.tsx:94-131 | the root and outcome are those the submit specification gives; the version goes up exactly when applied |
| MetaTypePanel.MetaRejectsDuplicate | src/renderer/Component/NodeDataPanel/MetaTypePanel.tsx:106-111 | a submit is refused, with the root untouched, exactly on a rename to a key a sibling holds |
| MetaTypePanel.MetaAppliedTag | src/renderer/Component/NodeDataPanel/MetaTypePanel.tsx:100-122 | an applied submit replaces only the node's tag, renamed if asked and holding the new value; its siblings and every tag apart from it stay unchanged, and unique keys stay unique |
| MetaTypePanel.MetaAppliedElement | src/renderer/Component/NodeDataPanel/MetaTypePanel.tsx:116-122 | for an array element, submit applies and sets only that element; every tag apart from the array stays unchanged |
| MetaTypePanel.MetaUnmodified | src/renderer/Component/NodeDataPanel/MetaTypePanel.tsx:83-124 | an unmodified form applies and leaves the root as it was |
| XArrayPanel.ArrayBounds | src/renderer/Component/NodeDataPanel/XArrayPanel.tsx:58-65 | byte arrays take -128..127 and int arrays the signed 32-bit range |
| XArrayPanel.LineError | src/renderer/Component/NodeDataPanel/XArrayPanel.tsx:178-201 | a line draws a complaint exactly when it is not a decimal literal within the bounds |
| XArrayPanel.FirstLineError | src/renderer/Component/NodeDataPanel/XArrayPanel.tsx:178-201 | none exactly when every line passes, and otherwise the complaint about the first failing line |
| XArrayPanel.ValidateArrayText | src/renderer/Component/NodeDataPanel/XArrayPanel.tsx:178-201 | the validator loop reports the first failing line's complaint |
| XArrayPanel.ParseArrayText | src/renderer/Component/NodeDataPanel/XArrayPanel.tsx:134-139 | one number per line of the trimmed text, given that every line is a decimal literal |
| XArrayPanel.ParsedWithinBounds | src/renderer/Component/NodeDataPanel/XArrayPanel.tsx:134-139 | text that passes the validator parses to numbers within the bounds, one per line |
| XArrayPanel.ArrayTextRoundTrip | src/renderer/Component/NodeDataPanel/XArrayPanel.tsx:49-66 | the initial text of a non-empty, in-range array passes the validator and parses back to the array |
| XArrayPanel.EmptyArrayRefused | src/renderer/Component/NodeDataPanel/XArrayPanel.tsx:52 | an empty array's initial text is refused with a complaint about line 1 |
| XArrayPanel.ValidateKey | src/renderer/Component/NodeDataPanel/XArrayPanel.tsx:90-106 | an index key passes; a text key is refused exactly when another display sibling has it |
| XArrayPanel.SubmitXArray | src/renderer/Component/NodeDataPanel/XArrayPanel.tsx:112-156 | the root and outcome are those the submit specification gives; the version goes up exactly when applied |
| XArrayPanel.XArrayRejects | src/renderer/Component/NodeDataPanel/XArrayPanel.tsx:145-155 | a refused submit names the first complaint (key, then text, then duplicate) and leaves the root |
| XArrayPanel.XArrayApplied | src/renderer/Component/NodeDataPanel/XArrayPanel.tsx:118-139 | an applied submit replaces only the node's tag, renamed if asked; when the text changed it holds exactly the parsed numbers, each within the bounds, and its old numbers otherwise; every tag apart from it stays unchanged |
| XArrayPanel.XArrayUnmodified | src/renderer/Component/NodeDataPanel/XArrayPanel.tsx:47-141 | an unmodified non-empty in-range array with a free key applies without changing the root |
| ListPanel.ChildTypesAreTheTagTypes | src/renderer/Component/NodeDataPanel/ListPanel.tsx:17 | the select offers each of the twelve type names exactly once |
| ListPanel.ChildrenTypeError | src/renderer/Component/NodeDataPanel/ListPanel.tsx:141-153 | a complaint comes exactly when the type changes on a list that has items, and it says the list must be empty |
| ListPanel.SubmitList | src/renderer/Component/NodeDataPanel/ListPanel.tsx:96-123 | for a selected node showing the list's children type, root and outcome follow the submit specification, the version goes up exactly when applied, and the selected node takes the new key and type |
| ListPanel.ListRejects | src/renderer/Component/NodeDataPanel/ListPanel.tsx:96-123 | a submit is refused exactly on a key clash or a type complaint, in that order, leaving the root |
| ListPanel.ListApplied | src/renderer/Component/NodeDataPanel/ListPanel.tsx:99-108 | an applied submit replaces only the list and keeps its items; it is renamed if asked, and it takes the chosen children type exactly when that changed and the list is empty, keeping its own otherwise; every tag apart from it stays unchanged |
| ListPanel.ListUnmodified | src/renderer/Component/NodeDataPanel/ListPanel.tsx:57-110 | an unmodified form with a free key applies without changing the root |
| CompoundPanel.SubmitCompound | src/renderer/Component/NodeDataPanel/CompoundPanel.tsx:69-89 | root and outcome follow the submit specification, the version goes up exactly when applied, and the selected node takes the new key |
| CompoundPanel.CompoundRename | src/renderer/Component/NodeDataPanel/CompoundPanel.tsx:69-89 | refused, with the root untouched, exactly on a clash; otherwise only the compound is renamed and its children are kept, and every tag apart from it stays unchanged |
| CompoundPanel.CompoundUnmodified | src/renderer/Component/NodeDataPanel/CompoundPanel.tsx:31-89 | an unmodified submit of a compound keyed by its own key applies without changing the root |

## Left out

- The NBT library's binary codec and zlib handling: file loaders and buffer encoders are parameters, and their outcomes are inputs.
- Electron dialogs, inter-process messaging, file system access and the message toasts: each appears only as the value it yields or shows.
- Promises and asynchrony: each request is modelled as one atomic step, so interleavings are not captured.
- React rendering, tree widths, `updateHeight`, `delete node.width` and `useState` staleness between renders are not modelled.
- Floating-point numbers are kept as the text the runtime prints for them. Float ranges and float arithmetic are not modelled.
- The file UUID is a parameter of `RendererBus.Bus.OpenFile` rather than generated.
- `EditorTree.EllipsisMiddle`: strings are modelled as sequences of Unicode code points, while JavaScript's `.length` and `substr` offsets count UTF-16 code units; the two differ on astral characters (outside the Basic Multilingual Plane), so for such text the model's lengths, the 20-character key limit and the cut positions (`JsText.Substr`, `JsText.SubstrFrom`) are not those of the editor, and a `substr` that splits a surrogate pair cannot be represented, since lone surrogates are not characters here. `JsText.Utf8Length` counts UTF-8 bytes per code point, as `TextEncoder` does.
- `JsText.LowerAscii` lower-cases only ASCII letters; library type names are ASCII.
- JavaScript's ordering of integer-like property names ahead of other names is not modelled; properties keep insertion order.
- A library long is an unbounded integer; a long text that is not a decimal literal is modelled as a build failure.
- The scalar panel's number input can hand back null when cleared. The model's entries always match the value's type (`MetaTypePanel.FormFits`).
- The text area's maxLength is not modelled.
- Aliasing of shared tag objects is replaced by paths into the root. Two display nodes sharing one tag object cannot be expressed.
- `findDataNodeByKey` is not part of this model's sources; it is modelled as the first node with the key in pre-order.
- In the modelled revision, `createDataNode` never sets `structedTag`. The panels assume it is the tag the node was built from.
- `node.parentNode` is modelled as the display siblings the caller passes to `XArrayPanel.SubmitXArray`.
- The editor tree calls `buildTreeData` with five arguments; `EditorTree.TreeRows` uses the evident roles (key, tag, empty path, cap).
- The save request's handler is not registered with the IPC layer; `SaveNbt.MainBus.SaveHandle` models the handler itself.
- `buildTag`'s "Unknown tag type" default is unreachable for structured tags other than an end tag, and only the end tag is modelled reaching it.
- XArrayPanel's "Unknown value type" message is not modelled; the panel is only shown for byte and int arrays.
- `ellipsisMiddle` on non-string titles passes them through unchanged; `EditorTree.EllipsisMiddle` models strings only.
- `EditorTree.KeyPrefix`: for a node without a key that is not the dummy, `renderNode` throws (`pad3(undefined)` calls `toString` on `undefined`); the model answers `None` there and does not model the exception reaching the tree component.

=== FILE: bus.dfy ===
/** The renderer's shared state (src/renderer/bus.ts): the structured root
    being edited, the open file's name and identity, the modification
    counter, and the selected display node. */
module RendererBus {
  import opened Wrappers
  import opened JsText
  import opened StructedNbt
  import opened OpenNbt
  import opened DataNodes

  /** The start of the message Electron gives a rejected remote call. */
  const InvokePrefix: string := "Error invoking remote method "

  /** What `String(error)` puts before an `Error`'s message. */
  const ErrorTag: string := "Error: "

  /** The rejection message the renderer sees when the main-process handler
      of `channel` rejects with an `Error` carrying `message`. */
  function InvokeErrorMessage(channel: string, message: string): string
  {
    InvokePrefix + "'" + channel + "': " + ErrorTag + message
  }

  /** `s` holds `w` at index q. */
  predicate HasAt(s: string, w: string, q: nat)
  {
    q + |w| <= |s| && s[q..q + |w|] == w
  }

  /** The lazy `.*?Error: ` from index q: the first index at or after q where
      "Error: " starts with no line terminator before it. */
  function FindErrorTag(m: string, q: nat): (r: Option<nat>)
    requires q <= |m|
    ensures r.Some? ==> q <= r.value && HasAt(m, ErrorTag, r.value)
    ensures r.Some? ==> forall k | q <= k < r.value :: !IsLineTerminator(m[k]) && !HasAt(m, ErrorTag, k)
    decreases |m| - q
  {
    if HasAt(m, ErrorTag, q) then Some(q)
    else if q < |m| && !IsLineTerminator(m[q]) then FindErrorTag(m, q + 1)
    else None
  }

  /** The end of a match of `Error invoking remote method .*?Error: ` that starts at p. */
  function MatchEnd(m: string, p: nat): (e: Option<nat>)
    requires p <= |m|
    ensures e.Some? ==> p + |InvokePrefix| + |ErrorTag| <= e.value <= |m|
  {
    if HasAt(m, InvokePrefix, p) then
      match FindErrorTag(m, p + |InvokePrefix|)
      case Some(q) => Some(q + |ErrorTag|)
      case None => None
    else None
  }

  /** The leftmost match at or after p, as (start, end). */
  function FirstMatch(m: string, p: nat): (r: Option<(nat, nat)>)
    requires p <= |m|
    ensures r.Some? ==> p <= r.value.0 < r.value.1 <= |m| && MatchEnd(m, r.value.0) == Some(r.value.1)
    ensures r.Some? ==> forall k | p <= k < r.value.0 :: MatchEnd(m, k).None?
    ensures r.None? ==> forall k | p <= k <= |m| :: MatchEnd(m, k).None?
    decreases |m| - p
  {
    match MatchEnd(m, p)
    case Some(e) => Some((p, e))
    case None => if p == |m| then None else FirstMatch(m, p + 1)
  }

  /** `m.replace(/Error invoking remote method .*?Error: /, '')` */
  function StripRemotePrefix(m: string): (r: string)
    ensures (forall k | 0 <= k <= |m| :: MatchEnd(m, k).None?) ==> r == m
  {
    match FirstMatch(m, 0)
    case None => m
    case Some((p, e)) => m[..p] + m[e..]
  }

  /** A channel name with no line terminator and no "Error: " inside. */
  predicate PlainChannel(channel: string)
  {
    && (forall k | 0 <= k < |channel| :: !IsLineTerminator(channel[k]))
    && (forall k | 0 <= k <= |channel| :: !HasAt(channel, ErrorTag, k))
  }

  /** Stripping the remote-call wrapper gives back the handler's own message. */
  lemma StripInvokeErrorMessage(channel: string, message: string)
    requires PlainChannel(channel)
    ensures StripRemotePrefix(InvokeErrorMessage(channel, message)) == message
  {
    var m := InvokeErrorMessage(channel, message);
    var p := |InvokePrefix|;
    var q := p + 1 + |channel| + 3;
    assert m[..p] == InvokePrefix;
    assert HasAt(m, InvokePrefix, 0);
    assert m[q..q + |ErrorTag|] == ErrorTag;
    // no earlier "Error: " and no line terminator between the prefix and q
    forall k | p <= k < q
      ensures !IsLineTerminator(m[k]) && !HasAt(m, ErrorTag, k)
    {
      if k == p || k >= p + 1 + |channel| {
        assert m[k] == '\'' || m[k] == ':' || m[k] == ' ';
      } else {
        assert m[k] == channel[k - p - 1];
        if HasAt(m, ErrorTag, k) {
          NoTagInChannel(channel, m, p + 1, k);
        }
      }
    }
    FindFrom(m, p, q);
    assert FirstMatch(m, 0) == Some((0, q + |ErrorTag|));
    assert m[q + |ErrorTag|..] == message;
  }

  /** A match of "Error: " starting inside the channel of a wrapped message
      would have to fit in the channel, as the quote after it is not in "Error: ". */
  lemma NoTagInChannel(channel: string, m: string, base: nat, k: nat)
    requires PlainChannel(channel)
    requires base + |channel| < |m| && m[base..base + |channel|] == channel && m[base + |channel|] == '\''
    requires base <= k < base + |channel|
    ensures !HasAt(m, ErrorTag, k)
  {
    if HasAt(m, ErrorTag, k) {
      if k + |ErrorTag| <= base + |channel| {
        var a := m[k..k + |ErrorTag|];
        var b := channel[k - base..k - base + |ErrorTag|];
        forall i | 0 <= i < |ErrorTag|
          ensures a[i] == b[i]
        {
          assert b[i] == m[base..base + |channel|][k - base + i];
        }
        assert a == b;
        assert HasAt(channel, ErrorTag, k - base);
      }
    }
  }

  /** The lazy scan from `from` stops at q when nothing before q stops it. */
  lemma {:induction false} FindFrom(m: string, from: nat, q: nat)
    requires from <= q && q + |ErrorTag| <= |m| && HasAt(m, ErrorTag, q)
    requires forall k | from <= k < q :: !IsLineTerminator(m[k]) && !HasAt(m, ErrorTag, k)
    ensures FindErrorTag(m, from) == Some(q)
    decreases q - from
  {
    if from < q {
      FindFrom(m, from + 1, q);
    }
  }

  /** The renderer's Bus. */
  class Bus {
    var root: Root
    var currentFileUUID: string
    var currentFilename: string
    var currentModifyVersion: int
    var selectedNode: Option<DataNode>

    /** A new Bus holds an empty root, no file, version 0 and no selection. */
    constructor()
      ensures root == [] && currentFileUUID == "" && currentFilename == ""
      ensures currentModifyVersion == 0 && selectedNode == None
    {
      root := [];
      currentFileUUID := "";
      currentFilename := "";
      currentModifyVersion := 0;
      selectedNode := None;
    }

    /** The `root` setter: the getter then returns exactly what was set. */
    method SetRoot(r: Root)
      modifies this
      ensures root == r
      ensures currentFileUUID == old(currentFileUUID) && currentFilename == old(currentFilename)
      ensures currentModifyVersion == old(currentModifyVersion) && selectedNode == old(selectedNode)
    {
      root := r;
    }

    /** `openFile`, given the open request's answer (its rejection message as
        `Err`) and the fresh identifier the UUID generator would give.
        Returns the error message shown, if any. */
    method OpenFile(reply: Result<OpenReply, string>, freshUuid: string) returns (shown: Option<string>)
      modifies this
      ensures reply.Err? ==> shown == Some("Failed to open file: " + StripRemotePrefix(reply.error))
      ensures reply.Ok? ==> shown == None
      ensures reply.Err? || reply.value.Canceled? ==>
        && root == old(root) && currentFileUUID == old(currentFileUUID)
        && currentFilename == old(currentFilename)
        && currentModifyVersion == old(currentModifyVersion) && selectedNode == old(selectedNode)
      ensures reply.Ok? && reply.value.Opened? ==>
        && currentModifyVersion == 0 && currentFilename == reply.value.filePath
        && root == reply.value.root && currentFileUUID == freshUuid && selectedNode == None
    {
      if reply.Err? {
        var msg := StripRemotePrefix(reply.error);
        return Some("Failed to open file: " + msg);
      }
      if reply.value.Canceled? {
        return None;
      }
      currentModifyVersion := 0;
      currentFilename := reply.value.filePath;
      SetRoot(reply.value.root);
      currentFileUUID := freshUuid;
      selectedNode := None;
      shown := None;
    }
  }

  /** A failed open shows "Failed to open file: " and the handler's own message. */
  lemma OpenFailureMessage(message: string)
    ensures StripRemotePrefix(InvokeErrorMessage("open-nbt", message)) == message
  {
    forall k | 0 <= k <= |"open-nbt"|
      ensures !HasAt("open-nbt", ErrorTag, k)
    {
      if k + |ErrorTag| <= |"open-nbt"| {
        assert "open-nbt"[k..k + |ErrorTag|][0] != 'E';
      }
    }
    StripInvokeErrorMessage("open-nbt", message);
  }
}

=== FILE: compoundpanel.dfy ===
/** The compound panel (src/renderer/Component/NodeDataPanel/CompoundPanel.tsx):
    a compound can only be renamed, and only when its key is text. */
module CompoundPanel {
  import opened Wrappers
  import opened JsText
  import opened StructedNbt
  import opened DataNodes
  import opened RendererBus
  import opened PanelNodes

  /** Apply is offered only for a text key; an indexed compound is edited
      child by child. */
  predicate ApplyOffered(n: PanelNode)
  {
    n.keyInParent.StrKey?
  }

  /** What a submit needs: a compound tag whose Apply button is offered. */
  predicate FormFits(root: Root, n: PanelNode)
  {
    ValidNode(root, n) && n.own.Some? && OwnTag(root, n).value.CompoundValue? && ApplyOffered(n)
  }

  /** `modified`: the key differs from the initial one. */
  predicate Modified(n: PanelNode, formKey: string)
  {
    StrKey(formKey) != n.keyInParent
  }

  /** `submit`: refused when another sibling prints its key as the new key;
      otherwise the tag takes the new key, whatever it was before. */
  function CompoundSubmit(root: Root, n: PanelNode, formKey: string): (r: (Outcome, Root))
    requires FormFits(root, n)
  {
    if KeyClash(ChildrenAt(root, n.parent), n.own.value, StrKey(formKey)) then (Rejected(KeyExistsMessage), root)
    else (Applied, ReplaceOwn(root, n, Tag(Some(formKey), OwnTag(root, n).value)))
  }

  method SubmitCompound(bus: Bus, n: PanelNode, formKey: string) returns (outcome: Outcome)
    requires FormFits(bus.root, n)
    requires bus.selectedNode.Some? && bus.selectedNode.value.keyInParent == n.keyInParent
    modifies bus
    ensures (outcome, bus.root) == CompoundSubmit(old(bus.root), n, formKey)
    ensures bus.currentModifyVersion == old(bus.currentModifyVersion) + (if outcome.Applied? then 1 else 0)
    ensures bus.currentFileUUID == old(bus.currentFileUUID) && bus.currentFilename == old(bus.currentFilename)
    ensures outcome.Rejected? ==> bus.selectedNode == old(bus.selectedNode)
    ensures outcome.Applied? ==> bus.selectedNode == Some(old(bus.selectedNode).value.(keyInParent := StrKey(formKey)))
  {
    var keyError := ValidateSiblingKey(ChildrenAt(bus.root, n.parent), n.own.value, StrKey(formKey));
    if keyError.Some? {
      return Rejected(keyError.value);
    }
    bus.root := ReplaceOwn(bus.root, n, Tag(Some(formKey), OwnTag(bus.root, n).value));
    // the panel's node is the selected tree node
    bus.selectedNode := Some(bus.selectedNode.value.(keyInParent := StrKey(formKey)));
    bus.currentModifyVersion := bus.currentModifyVersion + 1;
    return Applied;
  }

  /** The outcome of a submit: refused, with the root untouched, exactly on a
      clash; otherwise only the compound's key changes, to the new one, its
      entries stay, every sibling and every tag apart from it stays, and
      unique keys stay unique. */
  lemma CompoundRename(root: Root, n: PanelNode, formKey: string)
    requires FormFits(root, n)
    ensures var r := CompoundSubmit(root, n, formKey);
      && (r.0.Rejected? <==> KeyClash(ChildrenAt(root, n.parent), n.own.value, StrKey(formKey)))
      && (r.0.Rejected? ==> r == (Rejected(KeyExistsMessage), root))
      && (r.0.Applied? ==>
            && ValidNode(r.1, n)
            && ChildrenAt(r.1, n.parent) ==
                 ChildrenAt(root, n.parent)[n.own.value := Tag(Some(formKey), OwnTag(root, n).value)]
            && (UniqueKeys(ChildrenAt(root, n.parent)) ==> UniqueKeys(ChildrenAt(r.1, n.parent)))
            && (forall q | ValidPath(root, q) && Apart(n.parent + [n.own.value], q) ::
                  ValidPath(r.1, q) && TagAt(r.1, q) == TagAt(root, q)))
  {
    var tags := ChildrenAt(root, n.parent);
    var i := n.own.value;
    if !KeyClash(tags, i, StrKey(formKey)) {
      ChecksFreeKey(tags, i, formKey);
      if UniqueKeys(tags) {
        RenameKeepsUnique(tags, i, Tag(Some(formKey), tags[i].value));
      }
    }
  }

  /** A compound whose node key is its own key, submitted unmodified and
      without a clash, is left as it was. */
  lemma CompoundUnmodified(root: Root, n: PanelNode, formKey: string)
    requires FormFits(root, n) && !Modified(n, formKey)
    requires OwnTag(root, n).key == Some(n.keyInParent.s)
    requires !KeyClash(ChildrenAt(root, n.parent), n.own.value, StrKey(formKey))
    ensures CompoundSubmit(root, n, formKey) == (Applied, root)
  {
    ReplaceOwnSame(root, n);
  }
}

=== FILE: datanode.dfy ===
/** The display tree the editor shows (src/renderer/lib/NBTDataNode.tsx):
    each structured tag becomes a node keyed by its path, with leaf titles,
    array elements as leaf children, and list and compound children built
    recursively. The cap on shown children is a parameter: the editor
    passes -1, meaning no cap. */
module DataNodes {
  import opened Wrappers
  import opened JsText
  import opened StructedNbt

  /** A node's `keyInParent`: a property key, an index, or absent. */
  datatype Key = StrKey(s: string) | IdxKey(i: int) | NoKey

  /** `${key}` */
  function KeyText(k: Key): string
  {
    match k
    case StrKey(s) => s
    case IdxKey(i) => IntToString(i)
    case NoKey => "undefined"
  }

  /** A node title: the source passes strings, and array elements' numbers as they are. */
  datatype Title = TextTitle(s: string) | NumberTitle(n: int)

  datatype DataNode = DataNode(
    key: string,
    title: Title,
    isLeaf: bool,
    keyInParent: Key,
    valueType: string,
    childrenType: Option<string>,
    children: NodeChildren,
    realChildrenCount: Option<int>,
    dummyMoreNode: bool)

  /** A node's `children`: absent on leaves. */
  datatype NodeChildren = NoChildren | ChildNodes(nodes: seq<DataNode>)

  /** The path string of the children of the node at `path` keyed `key`. */
  function ChildPath(path: string, key: Key): string
  {
    path + "-" + KeyText(key)
  }

  /** `createDataNode`: the child type only when non-empty, the child count
      only together with children. */
  function CreateDataNode(path: string, key: Key, valueType: string, content: string, isLeaf: bool,
                          children: NodeChildren, realChildrenCount: int,
                          childType: Option<string>): DataNode
  {
    DataNode(
      "t-" + ChildPath(path, key), TextTitle(content), isLeaf, key, valueType,
      if childType.Some? && childType.value != "" then childType else None,
      children,
      if children.ChildNodes? then Some(realChildrenCount) else None,
      false)
  }

  /** `createDummyNoMoreNode`: the leaf standing for children not shown. */
  function DummyNode(path: string, key: Key, leafKey: Key): DataNode
  {
    DataNode("t-" + ChildPath(path, key) + "-" + KeyText(leafKey), TextTitle(""), true, NoKey, "end",
             None, NoChildren, None, true)
  }

  /** Whether child i is built rather than replaced by the dummy node. */
  predicate Shown(i: int, max: int) { max == -1 || i < max - 1 }

  /** `type.replace(/_.*$/, '')` on a type name: everything from the first '_' is dropped. */
  function ElementTypeName(arrayType: string): (s: string)
    ensures '_' !in s
  {
    var u := IndexOf(arrayType, '_');
    if u < 0 then arrayType else arrayType[..u]
  }

  /** The text of a leaf: `value.toString()`; an end tag's null value has none. */
  function LeafText(v: Value): Option<string>
  {
    match v
    case ByteValue(n) => Some(IntToString(n))
    case ShortValue(n) => Some(IntToString(n))
    case IntValue(n) => Some(IntToString(n))
    case LongValue(text) => Some(text)
    case FloatValue(f) => Some(f.text)
    case DoubleValue(f) => Some(f.text)
    case StringValue(s) => Some(s)
    case _ => None
  }

  /** The error `null.toString()` throws for an end tag. */
  const NullTitleError: string := "Cannot read properties of null (reading 'toString')"

  // ------------------------------------------------------- specification

  /** `buildTreeData(key, parent, node, path)` */
  function TreeData(key: Key, t: Tag, path: string, max: int): Result<DataNode, string>
    decreases t, 1
  {
    match t.value
    case ByteArrayValue(elems) =>
      Ok(CreateDataNode(path, key, TypeNameOf(t), "", false,
        ChildNodes(XArrayChildrenFrom(path, key, elems, ElementTypeName(TypeNameOf(t)), 0, max)), |elems|, None))
    case IntArrayValue(elems) =>
      Ok(CreateDataNode(path, key, TypeNameOf(t), "", false,
        ChildNodes(XArrayChildrenFrom(path, key, elems, ElementTypeName(TypeNameOf(t)), 0, max)), |elems|, None))
    case CompoundValue(es) =>
      (match Collect(path, key, CompoundKeys(|es|), ChildResults(path, key, CompoundKeys(|es|), es, max), 0, max)
       case Ok(children) => Ok(CreateDataNode(path, key, TypeNameOf(t), "", false, ChildNodes(children), |es|, None))
       case Err(e) => Err(e))
    case ListValue(ct, items) =>
      (match Collect(path, key, ListKeys(|items|), ChildResults(path, key, ListKeys(|items|), items, max), 0, max)
       case Ok(children) => Ok(CreateDataNode(path, key, TypeNameOf(t), "", false, ChildNodes(children), |items|, Some(ct)))
       case Err(e) => Err(e))
    case _ =>
      (match LeafText(t.value)
       case Some(text) => Ok(CreateDataNode(path, key, TypeNameOf(t), text, true, NoChildren, 0, None))
       case None => Err(NullTitleError))
  }

  /** List children are keyed by their index. */
  function ListKeys(n: nat): (ks: seq<Key>)
    ensures |ks| == n && forall j :: 0 <= j < n ==> ks[j] == IdxKey(j)
  {
    seq(n, j => IdxKey(j))
  }

  /** `Object.entries` of a compound's entry array yields the index strings as keys. */
  function CompoundKeys(n: nat): (ks: seq<Key>)
    ensures |ks| == n && forall j :: 0 <= j < n ==> ks[j] == StrKey(IntToString(j))
  {
    seq(n, j => StrKey(IntToString(j)))
  }

  /** What building each child under its key would give. */
  function ChildResults(path: string, key: Key, keys: seq<Key>, tags: seq<Tag>, max: int): (rs: seq<Result<DataNode, string>>)
    requires |keys| == |tags|
    ensures |rs| == |tags|
    decreases tags, 0
  {
    seq(|tags|, j requires 0 <= j < |tags| => TreeData(keys[j], tags[j], ChildPath(path, key), max))
  }

  /** The children loop from child i on: built children in order until the
      cap, where the dummy node ends the list; the first failure ends it all. */
  function Collect(path: string, key: Key, keys: seq<Key>, results: seq<Result<DataNode, string>>, i: nat, max: int)
    : Result<seq<DataNode>, string>
    requires |keys| == |results|
    decreases |results| - i
  {
    if i >= |results| then Ok([])
    else if !Shown(i, max) then Ok([DummyNode(path, key, keys[i])])
    else match results[i]
      case Err(e) => Err(e)
      case Ok(c) => Prepend([c], Collect(path, key, keys, results, i + 1, max))
  }

  /** The leaf shown for element i of a byte or int array. */
  function ElementNode(path: string, key: Key, elems: seq<int>, valueType: string, i: nat): DataNode
    requires i < |elems|
  {
    DataNode("t-" + ChildPath(path, key) + "-" + IntToString(i), NumberTitle(elems[i]), true, IdxKey(i),
             valueType, None, NoChildren, None, false)
  }

  /** The children of a byte or int array from element i on. */
  function XArrayChildrenFrom(path: string, key: Key, elems: seq<int>, valueType: string, i: nat, max: int): seq<DataNode>
    decreases |elems| - i
  {
    if i >= |elems| then []
    else if !Shown(i, max) then [DummyNode(path, key, IdxKey(i))]
    else [ElementNode(path, key, elems, valueType, i)] + XArrayChildrenFrom(path, key, elems, valueType, i + 1, max)
  }

  // --------------------------------------------------------------- methods

  /** `buildTreeData`: a switch on the type. */
  method BuildTreeData(key: Key, t: Tag, path: string, max: int) returns (r: Result<DataNode, string>)
    ensures r == TreeData(key, t, path, max)
    decreases t, 1
  {
    match t.value {
      case ByteArrayValue(elems) =>
        var children := CreateXArrayChildrenNodes(path, key, elems, TypeNameOf(t), max);
        r := Ok(CreateDataNode(path, key, TypeNameOf(t), "", false, ChildNodes(children), |elems|, None));
      case IntArrayValue(elems) =>
        var children := CreateXArrayChildrenNodes(path, key, elems, TypeNameOf(t), max);
        r := Ok(CreateDataNode(path, key, TypeNameOf(t), "", false, ChildNodes(children), |elems|, None));
      case CompoundValue(es) =>
        var children := CreateCompoundChildrenNodes(path, key, t, max);
        if children.Err? {
          return Err(children.error);
        }
        r := Ok(CreateDataNode(path, key, TypeNameOf(t), "", false, ChildNodes(children.value), |es|, None));
      case ListValue(ct, items) =>
        var children := CreateListChildrenNodes(path, key, t, max);
        if children.Err? {
          return Err(children.error);
        }
        r := Ok(CreateDataNode(path, key, TypeNameOf(t), "", false, ChildNodes(children.value), |items|, Some(ct)));
      case _ =>
        match LeafText(t.value) {
          case None =>
            r := Err(NullTitleError);
          case Some(text) =>
            r := Ok(CreateDataNode(path, key, TypeNameOf(t), text, true, NoChildren, 0, None));
        }
    }
  }

  /** `createListChildrenNodes` */
  method CreateListChildrenNodes(path: string, key: Key, t: Tag, max: int) returns (r: Result<seq<DataNode>, string>)
    requires t.value.ListValue?
    ensures var items := t.value.items;
      r == Collect(path, key, ListKeys(|items|), ChildResults(path, key, ListKeys(|items|), items, max), 0, max)
    decreases t, 0
  {
    var items := t.value.items;
    ghost var keys := ListKeys(|items|);
    ghost var results := ChildResults(path, key, keys, items, max);
    var children: seq<DataNode> := [];
    var i := 0;
    while i < |items|
      invariant 0 <= i <= |items|
      invariant Collect(path, key, keys, results, 0, max) == Prepend(children, Collect(path, key, keys, results, i, max))
    {
      if Shown(i, max) {
        var c := BuildTreeData(IdxKey(i), items[i], ChildPath(path, key), max);
        assert c == results[i];
        if c.Err? {
          return Err(c.error);
        }
        PrependTwice(children, [c.value], Collect(path, key, keys, results, i + 1, max));
        children := children + [c.value];
      } else {
        children := children + [DummyNode(path, key, IdxKey(i))];
        break;
      }
      i := i + 1;
    }
    r := Ok(children);
  }

  /** `createCompoundChildrenNodes` */
  method CreateCompoundChildrenNodes(path: string, key: Key, t: Tag, max: int) returns (r: Result<seq<DataNode>, string>)
    requires t.value.CompoundValue?
    ensures var es := t.value.entries;
      r == Collect(path, key, CompoundKeys(|es|), ChildResults(path, key, CompoundKeys(|es|), es, max), 0, max)
    decreases t, 0
  {
    var es := t.value.entries;
    ghost var keys := CompoundKeys(|es|);
    ghost var results := ChildResults(path, key, keys, es, max);
    var children: seq<DataNode> := [];
    var i := 0;
    while i < |es|
      invariant 0 <= i <= |es| && |children| == i
      invariant Collect(path, key, keys, results, 0, max) == Prepend(children, Collect(path, key, keys, results, i, max))
    {
      var k := IntToString(i);
      if Shown(|children|, max) {
        var c := BuildTreeData(StrKey(k), es[i], ChildPath(path, key), max);
        assert c == results[i];
        if c.Err? {
          return Err(c.error);
        }
        PrependTwice(children, [c.value], Collect(path, key, keys, results, i + 1, max));
        children := children + [c.value];
      } else {
        children := children + [DummyNode(path, key, StrKey(k))];
        break;
      }
      i := i + 1;
    }
    r := Ok(children);
  }

  /** `createXArrayChildrenNodes` */
  method CreateXArrayChildrenNodes(path: string, key: Key, elems: seq<int>, arrayType: string, max: int)
    returns (children: seq<DataNode>)
    ensures children == XArrayChildrenFrom(path, key, elems, ElementTypeName(arrayType), 0, max)
  {
    var valueType := ElementTypeName(arrayType);
    children := [];
    var i := 0;
    while i < |elems|
      invariant 0 <= i <= |elems|
      invariant XArrayChildrenFrom(path, key, elems, valueType, 0, max)
             == children + XArrayChildrenFrom(path, key, elems, valueType, i, max)
    {
      ghost var rest := XArrayChildrenFrom(path, key, elems, valueType, i, max);
      if Shown(i, max) {
        var e := ElementNode(path, key, elems, valueType, i);
        ghost var tail := XArrayChildrenFrom(path, key, elems, valueType, i + 1, max);
        assert rest == [e] + tail;
        assert children + rest == (children + [e]) + tail;
        children := children + [e];
      } else {
        assert rest == [DummyNode(path, key, IdxKey(i))];
        children := children + [DummyNode(path, key, IdxKey(i))];
        break;
      }
      i := i + 1;
    }
  }

  // ---------------------------------------------------------------- lemmas

  /** A tag holds no end tag at any depth. */
  predicate NoEnd(t: Tag)
    decreases t
  {
    match t.value
    case EndValue => false
    case ListValue(_, items) => forall j :: 0 <= j < |items| ==> NoEnd(items[j])
    case CompoundValue(es) => forall j :: 0 <= j < |es| ==> NoEnd(es[j])
    case _ => true
  }

  function Min(a: int, b: int): int { if a <= b then a else b }

  /** Every built node carries the path-derived key, its key in the parent,
      its own type name, and is a leaf exactly when the tag is not an array,
      list or compound. */
  lemma TreeDataShape(key: Key, t: Tag, path: string, max: int)
    requires TreeData(key, t, path, max).Ok?
    ensures var n := TreeData(key, t, path, max).value;
      && n.key == "t-" + ChildPath(path, key)
      && n.keyInParent == key
      && n.valueType == TypeNameOf(t)
      && !n.dummyMoreNode
      && (n.isLeaf <==> !(IsContainer(t) || t.value.ByteArrayValue? || t.value.IntArrayValue?))
      && (n.children.ChildNodes? <==> !n.isLeaf)
      && (t.value.ListValue? && t.value.childrenType != "" <==> n.childrenType.Some?)
  {
  }

  /** A leaf's title is the printed value; an end tag cannot be shown. */
  lemma LeafTitles(key: Key, t: Tag, path: string, max: int)
    ensures t.value.EndValue? <==> TreeData(key, t, path, max).Err? && !IsContainer(t)
    ensures t.value.IntValue? ==> TreeData(key, t, path, max).value.title == TextTitle(IntToString(t.value.n))
    ensures t.value.LongValue? ==> TreeData(key, t, path, max).value.title == TextTitle(t.value.text)
    ensures t.value.StringValue? ==> TreeData(key, t, path, max).value.title == TextTitle(t.value.s)
    ensures t.value.FloatValue? ==> TreeData(key, t, path, max).value.title == TextTitle(t.value.f.text)
  {
  }

  /** Without a cap, an array shows every element in order, titled by its
      number and typed by the element type. */
  lemma XArrayComplete(path: string, key: Key, elems: seq<int>, valueType: string, i: nat)
    requires i <= |elems|
    ensures var r := XArrayChildrenFrom(path, key, elems, valueType, i, -1);
      && |r| == |elems| - i
      && forall j :: 0 <= j < |r| ==> r[j] == ElementNode(path, key, elems, valueType, i + j)
  {
    XArrayLength(path, key, elems, valueType, i);
    var r := XArrayChildrenFrom(path, key, elems, valueType, i, -1);
    forall j | 0 <= j < |r|
      ensures r[j] == ElementNode(path, key, elems, valueType, i + j)
    {
      XArrayAt(path, key, elems, valueType, i, i + j);
    }
  }

  lemma {:induction false} XArrayLength(path: string, key: Key, elems: seq<int>, valueType: string, i: nat)
    requires i <= |elems|
    ensures |XArrayChildrenFrom(path, key, elems, valueType, i, -1)| == |elems| - i
    decreases |elems| - i
  {
    if i < |elems| {
      XArrayLength(path, key, elems, valueType, i + 1);
    }
  }

  lemma XArrayAt(path: string, key: Key, elems: seq<int>, valueType: string, i: nat, k: nat)
    requires i <= k < |elems|
    ensures |XArrayChildrenFrom(path, key, elems, valueType, i, -1)| > k - i
    ensures XArrayChildrenFrom(path, key, elems, valueType, i, -1)[k - i] == ElementNode(path, key, elems, valueType, k)
  {
    XArrayShift(path, key, elems, valueType, i, k);
    var r := XArrayChildrenFrom(path, key, elems, valueType, k, -1);
    assert r == [ElementNode(path, key, elems, valueType, k)] + XArrayChildrenFrom(path, key, elems, valueType, k + 1, -1);
  }

  lemma {:induction false} XArrayShift(path: string, key: Key, elems: seq<int>, valueType: string, i: nat, k: nat)
    requires i <= k < |elems|
    ensures |XArrayChildrenFrom(path, key, elems, valueType, k, -1)| > 0
    ensures |XArrayChildrenFrom(path, key, elems, valueType, i, -1)| > k - i
    ensures XArrayChildrenFrom(path, key, elems, valueType, i, -1)[k - i] == XArrayChildrenFrom(path, key, elems, valueType, k, -1)[0]
    decreases k - i
  {
    XArrayLength(path, key, elems, valueType, i);
    XArrayLength(path, key, elems, valueType, k);
    if k > i {
      XArrayShift(path, key, elems, valueType, i + 1, k);
      var r := XArrayChildrenFrom(path, key, elems, valueType, i, -1);
      var rest := XArrayChildrenFrom(path, key, elems, valueType, i + 1, -1);
      assert r[1..] == rest;
    }
  }

  /** With a cap of `max` >= 1, an array shows `min(count, max)` children
      and the one at index max - 1, if any, is the dummy node. */
  lemma {:induction false} XArrayCapped(path: string, key: Key, elems: seq<int>, valueType: string, i: nat, max: int)
    requires i <= |elems| && 1 <= max && i <= max - 1
    ensures var r := XArrayChildrenFrom(path, key, elems, valueType, i, max);
      && |r| == Min(|elems|, max) - i
      && forall j :: 0 <= j < |r| ==> (r[j].dummyMoreNode <==> i + j == max - 1)
    decreases |elems| - i
  {
    if i < |elems| && i < max - 1 {
      XArrayCapped(path, key, elems, valueType, i + 1, max);
    }
  }

  /** Without a cap, the children are built exactly when every child is. */
  lemma {:induction false} CollectOk(path: string, key: Key, keys: seq<Key>, results: seq<Result<DataNode, string>>, i: nat)
    requires |keys| == |results| && i <= |results|
    ensures Collect(path, key, keys, results, i, -1).Ok? <==> forall j :: i <= j < |results| ==> results[j].Ok?
    decreases |results| - i
  {
    if i < |results| {
      CollectOk(path, key, keys, results, i + 1);
    }
  }

  /** Without a cap, the built children are all the children, in order. */
  lemma {:induction false} CollectValues(path: string, key: Key, keys: seq<Key>, results: seq<Result<DataNode, string>>, i: nat)
    requires |keys| == |results| && i <= |results| && Collect(path, key, keys, results, i, -1).Ok?
    ensures var r := Collect(path, key, keys, results, i, -1).value;
      && |r| == |results| - i
      && forall j :: 0 <= j < |r| ==> results[i + j] == Ok(r[j])
    decreases |results| - i
  {
    if i < |results| {
      var rest := Collect(path, key, keys, results, i + 1, -1);
      CollectValues(path, key, keys, results, i + 1);
      var r := Collect(path, key, keys, results, i, -1).value;
      assert r == [results[i].value] + rest.value;
      forall j | 0 < j < |r|
        ensures results[i + j] == Ok(r[j])
      {
        assert r[j] == rest.value[j - 1];
        assert i + 1 + (j - 1) == i + j;
      }
    }
  }

  /** With a cap of `max` >= 1, successful children number min(count, max)
      and the one at index max - 1, if any, is the dummy node. */
  lemma {:induction false} CollectCapped(path: string, key: Key, keys: seq<Key>, results: seq<Result<DataNode, string>>, i: nat, max: int)
    requires |keys| == |results| && i <= |results| && 1 <= max && i <= max - 1
    requires forall j :: 0 <= j < |results| && results[j].Ok? ==> !results[j].value.dummyMoreNode
    requires Collect(path, key, keys, results, i, max).Ok?
    ensures var r := Collect(path, key, keys, results, i, max).value;
      && |r| == Min(|results|, max) - i
      && forall j :: 0 <= j < |r| ==> (r[j].dummyMoreNode <==> i + j == max - 1)
    decreases |results| - i
  {
    if i < |results| && i < max - 1 {
      var rest := Collect(path, key, keys, results, i + 1, max);
      CollectCapped(path, key, keys, results, i + 1, max);
      var r := Collect(path, key, keys, results, i, max).value;
      assert r == [results[i].value] + rest.value;
      forall j | 0 < j < |r|
        ensures r[j].dummyMoreNode <==> i + j == max - 1
      {
        assert r[j] == rest.value[j - 1];
      }
    }
  }

  /** Without a cap, the tree of a tag is built exactly when no end tag
      occurs in it. */
  lemma {:induction false} TreeDataOkIffNoEnd(key: Key, t: Tag, path: string)
    ensures TreeData(key, t, path, -1).Ok? <==> NoEnd(t)
    decreases t
  {
    match t.value
    case ListValue(ct, items) =>
      var keys := ListKeys(|items|);
      var results := ChildResults(path, key, keys, items, -1);
      CollectOk(path, key, keys, results, 0);
      forall j | 0 <= j < |items|
        ensures results[j].Ok? <==> NoEnd(items[j])
      {
        TreeDataOkIffNoEnd(keys[j], items[j], ChildPath(path, key));
      }
    case CompoundValue(es) =>
      var keys := CompoundKeys(|es|);
      var results := ChildResults(path, key, keys, es, -1);
      CollectOk(path, key, keys, results, 0);
      forall j | 0 <= j < |es|
        ensures results[j].Ok? <==> NoEnd(es[j])
      {
        TreeDataOkIffNoEnd(keys[j], es[j], ChildPath(path, key));
      }
    case _ =>
  }

  /** Two keys built on the same parent path differ when their last parts do. */
  lemma ChildKeysDiffer(path: string, j: int, k: int)
    requires j != k
    ensures "t-" + ChildPath(path, IdxKey(j)) != "t-" + ChildPath(path, IdxKey(k))
  {
    var p := "t-" + path + "-";
    var a := IntToString(j);
    var b := IntToString(k);
    if a == b {
      IntToStringInjective(j, k);
    }
    KeyOnPath(path, a);
    KeyOnPath(path, b);
    SuffixesDiffer(p, a, b);
  }

  /** The node key built from a path and a last part. */
  lemma KeyOnPath(path: string, last: string)
    ensures "t-" + (path + "-" + last) == ("t-" + path + "-") + last
  {
  }

  lemma SuffixesDiffer(p: string, a: string, b: string)
    requires a != b
    ensures p + a != p + b
  {
    assert (p + a)[|p|..] == a;
    assert (p + b)[|p|..] == b;
  }

  /** Without a cap, the children of a built list, compound or array have
      pairwise distinct keys. */
  lemma SiblingKeysDistinct(key: Key, t: Tag, path: string)
    requires TreeData(key, t, path, -1).Ok? && TreeData(key, t, path, -1).value.children.ChildNodes?
    ensures var cs := TreeData(key, t, path, -1).value.children.nodes;
      forall j, k :: 0 <= j < k < |cs| ==> cs[j].key != cs[k].key
  {
    var cs := TreeData(key, t, path, -1).value.children.nodes;
    forall j, k | 0 <= j < k < |cs|
      ensures cs[j].key != cs[k].key
    {
      ChildKeyIs(key, t, path, j);
      ChildKeyIs(key, t, path, k);
      ChildKeysDiffer(ChildPath(path, key), j, k);
    }
  }

  /** Without a cap, built children are keyed by their own keys under the parent's path. */
  lemma ChildrenKeys(path: string, key: Key, keys: seq<Key>, tags: seq<Tag>)
    requires |keys| == |tags|
    requires Collect(path, key, keys, ChildResults(path, key, keys, tags, -1), 0, -1).Ok?
    ensures var r := Collect(path, key, keys, ChildResults(path, key, keys, tags, -1), 0, -1).value;
      |r| == |tags| && forall j :: 0 <= j < |tags| ==> r[j].key == "t-" + ChildPath(ChildPath(path, key), keys[j])
  {
    var results := ChildResults(path, key, keys, tags, -1);
    CollectValues(path, key, keys, results, 0);
    var r := Collect(path, key, keys, results, 0, -1).value;
    forall j | 0 <= j < |r|
      ensures r[j].key == "t-" + ChildPath(ChildPath(path, key), keys[j])
    {
      assert results[0 + j] == Ok(r[j]);
      assert results[j] == TreeData(keys[j], tags[j], ChildPath(path, key), -1);
      TreeDataShape(keys[j], tags[j], ChildPath(path, key), -1);
    }
  }

  /** Without a cap, child j of a built node is keyed by j under the node's path. */
  lemma ChildKeyIs(key: Key, t: Tag, path: string, j: nat)
    requires TreeData(key, t, path, -1).Ok? && TreeData(key, t, path, -1).value.children.ChildNodes?
    requires j < |TreeData(key, t, path, -1).value.children.nodes|
    ensures TreeData(key, t, path, -1).value.children.nodes[j].key == "t-" + ChildPath(ChildPath(path, key), IdxKey(j))
  {
    if t.value.ListValue? || t.value.CompoundValue? {
      ContainerChildKey(key, t, path, j);
    } else {
      ArrayChildKey(key, t, path, j);
    }
  }

  lemma ArrayChildKey(key: Key, t: Tag, path: string, j: nat)
    requires t.value.ByteArrayValue? || t.value.IntArrayValue?
    requires j < |TreeData(key, t, path, -1).value.children.nodes|
    ensures TreeData(key, t, path, -1).value.children.nodes[j].key == "t-" + ChildPath(ChildPath(path, key), IdxKey(j))
  {
    var vt := ElementTypeName(TypeNameOf(t));
    var elems := ArrayElems(t);
    ArrayChildren(key, t, path, -1);
    XArrayLength(path, key, elems, vt, 0);
    XArrayAt(path, key, elems, vt, 0, j);
    var p := ChildPath(path, key);
    var last := IntToString(j);
    assert ElementNode(path, key, elems, vt, j).key == "t-" + p + "-" + last;
    KeyOnPath(p, last);
  }

  /** A byte or int array's node is always built, its children being the
      array's element nodes. */
  lemma ArrayChildren(key: Key, t: Tag, path: string, max: int)
    requires t.value.ByteArrayValue? || t.value.IntArrayValue?
    ensures TreeData(key, t, path, max).Ok?
    ensures TreeData(key, t, path, max).value.children
         == ChildNodes(XArrayChildrenFrom(path, key, ArrayElems(t), ElementTypeName(TypeNameOf(t)), 0, max))
  {
  }

  lemma ContainerChildKey(key: Key, t: Tag, path: string, j: nat)
    requires t.value.ListValue? || t.value.CompoundValue?
    requires TreeData(key, t, path, -1).Ok?
    requires j < |TreeData(key, t, path, -1).value.children.nodes|
    ensures TreeData(key, t, path, -1).value.children.nodes[j].key == "t-" + ChildPath(ChildPath(path, key), IdxKey(j))
  {
    var tags := Children(t);
    var keys := if t.value.ListValue? then ListKeys(|tags|) else CompoundKeys(|tags|);
    assert TreeData(key, t, path, -1).value.children.nodes
        == Collect(path, key, keys, ChildResults(path, key, keys, tags, -1), 0, -1).value;
    ChildrenKeys(path, key, keys, tags);
  }

  /** With a cap of `max` >= 1, a built node shows min(count, max) children,
      the one at index max - 1, if any, being the dummy node. */
  lemma TreeDataCapped(key: Key, t: Tag, path: string, max: int)
    requires 1 <= max
    requires TreeData(key, t, path, max).Ok? && TreeData(key, t, path, max).value.children.ChildNodes?
    ensures var n := TreeData(key, t, path, max).value;
      && n.realChildrenCount == Some(|Children(t)| + |ArrayElems(t)|)
      && |n.children.nodes| == Min(n.realChildrenCount.value, max)
      && forall j :: 0 <= j < |n.children.nodes| ==> (n.children.nodes[j].dummyMoreNode <==> j == max - 1)
  {
    if t.value.ListValue? || t.value.CompoundValue? {
      ContainerCapped(key, t, path, max);
    } else {
      ArrayCapped(key, t, path, max);
    }
  }

  lemma ArrayCapped(key: Key, t: Tag, path: string, max: int)
    requires 1 <= max
    requires t.value.ByteArrayValue? || t.value.IntArrayValue?
    ensures var n := TreeData(key, t, path, max).value;
      && n.children.ChildNodes?
      && n.realChildrenCount == Some(|ArrayElems(t)|)
      && |n.children.nodes| == Min(|ArrayElems(t)|, max)
      && forall j :: 0 <= j < |n.children.nodes| ==> (n.children.nodes[j].dummyMoreNode <==> j == max - 1)
  {
    var vt := ElementTypeName(TypeNameOf(t));
    assert TreeData(key, t, path, max).value.children.nodes == XArrayChildrenFrom(path, key, ArrayElems(t), vt, 0, max);
    XArrayCapped(path, key, ArrayElems(t), vt, 0, max);
  }

  lemma ContainerCapped(key: Key, t: Tag, path: string, max: int)
    requires 1 <= max
    requires t.value.ListValue? || t.value.CompoundValue?
    requires TreeData(key, t, path, max).Ok?
    ensures var n := TreeData(key, t, path, max).value;
      && n.children.ChildNodes?
      && n.realChildrenCount == Some(|Children(t)|)
      && |n.children.nodes| == Min(|Children(t)|, max)
      && forall j :: 0 <= j < |n.children.nodes| ==> (n.children.nodes[j].dummyMoreNode <==> j == max - 1)
  {
    var tags := Children(t);
    var keys := if t.value.ListValue? then ListKeys(|tags|) else CompoundKeys(|tags|);
    var results := ChildResults(path, key, keys, tags, max);
    assert TreeData(key, t, path, max).value.children.nodes == Collect(path, key, keys, results, 0, max).value;
    NoDummyResults(path, key, keys, tags, max, results);
    CollectCapped(path, key, keys, results, 0, max);
  }

  /** The elements of a byte or int array (none for other tags). */
  function ArrayElems(t: Tag): seq<int>
  {
    match t.value
    case ByteArrayValue(elems) => elems
    case IntArrayValue(elems) => elems
    case _ => []
  }

  /** No built child is itself a dummy node. */
  lemma NoDummyResults(path: string, key: Key, keys: seq<Key>, tags: seq<Tag>, max: int, rs: seq<Result<DataNode, string>>)
    requires |keys| == |tags| && rs == ChildResults(path, key, keys, tags, max)
    ensures forall j :: 0 <= j < |rs| && rs[j].Ok? ==> !rs[j].value.dummyMoreNode
  {
    forall j | 0 <= j < |rs| && rs[j].Ok?
      ensures !rs[j].value.dummyMoreNode
    {
      TreeDataShape(keys[j], tags[j], ChildPath(path, key), max);
    }
  }
}

=== FILE: editortree.dfy ===
/** The editor tree component (src/renderer/Component/NBTEditorTree.tsx):
    the labels it draws for keys and counts, and the rebuild of the display
    tree with re-selection of the previously selected node by key. */
module EditorTree {
  import opened Wrappers
  import opened JsText
  import opened StructedNbt
  import opened DataNodes
  import opened RendererBus

  // ----------------------------------------------------------------- labels

  /** `pad3`: numbers below 10 get two leading zeros, below 100 one. */
  function Pad3(n: int): string
  {
    if n < 10 then "00" + IntToString(n)
    else if n < 100 then "0" + IntToString(n)
    else IntToString(n)
  }

  /** Indices below 1000 are drawn with exactly three digits, and the
      drawn text reads back as the index. */
  lemma Pad3Digits(n: int)
    requires 0 <= n
    ensures n < 1000 ==> |Pad3(n)| == 3
    ensures AllDigits(Pad3(n)) && |Pad3(n)| >= 3
    ensures DigitsValue(Pad3(n)) == n
  {
    NatToStringDigits(n);
    NatToStringLength(n);
    var d := IntToString(n);
    assert d == NatToString(n);
    if n < 10 {
      LeadingZeros("00", d);
    } else if n < 100 {
      LeadingZeros("0", d);
    }
  }

  /** Numbers below 10, 100 and 1000 print with one, two and three digits. */
  lemma {:induction false} NatToStringLength(n: nat)
    ensures n < 10 ==> |NatToString(n)| == 1
    ensures 10 <= n < 100 ==> |NatToString(n)| == 2
    ensures 100 <= n < 1000 ==> |NatToString(n)| == 3
    ensures 1000 <= n ==> |NatToString(n)| > 3
    decreases n
  {
    if n >= 10 {
      NatToStringLength(n / 10);
    }
  }

  /** A run of zeros is worth nothing. */
  lemma {:induction false} ZerosValue(zs: string)
    requires forall i | 0 <= i < |zs| :: zs[i] == '0'
    ensures AllDigits(zs) && DigitsValue(zs) == 0
    decreases |zs|
  {
    if zs != [] {
      ZerosValue(zs[..|zs| - 1]);
    }
  }

  /** Leading zeros change neither the digits' value nor their being digits. */
  lemma {:induction false} LeadingZeros(zs: string, d: string)
    requires forall i | 0 <= i < |zs| :: zs[i] == '0'
    requires AllDigits(d)
    ensures AllDigits(zs + d) && DigitsValue(zs + d) == DigitsValue(d)
    decreases |d|
  {
    ZerosValue(zs);
    if d == [] {
      assert zs + d == zs;
    } else {
      var e := d[..|d| - 1];
      LeadingZeros(zs, e);
      assert (zs + d)[..|zs + d| - 1] == zs + e;
    }
  }

  /** The count of characters `text.substr(0, maxLength / 2 - 1)` keeps. */
  function HeadLength(maxLength: nat): int
  {
    // maxLength / 2 - 1 truncated toward zero
    if maxLength < 2 then 0 else maxLength / 2 - 1
  }

  /** Where `text.substr(text.length - maxLength / 2 + 1)` starts. */
  function TailStart(length: nat, maxLength: nat): int
    requires length > maxLength
  {
    // the real number length - maxLength / 2 + 1, truncated
    if maxLength % 2 == 0 then length - maxLength / 2 + 1 else length - maxLength / 2
  }

  /** `ellipsisMiddle` on a string: short text is kept, longer text keeps
      its head and tail around "...". */
  function EllipsisMiddle(text: string, maxLength: nat): (r: string)
    ensures |text| <= maxLength ==> r == text
    ensures |text| > maxLength >= 2 ==>
      && |r| == maxLength + 1
      && r == text[..HeadLength(maxLength)] + "..." + text[TailStart(|text|, maxLength)..]
  {
    if |text| <= maxLength then text
    else Substr(text, 0, HeadLength(maxLength)) + "..." + SubstrFrom(text, TailStart(|text|, maxLength))
  }

  /** For an even limit, the kept head and tail are equally long. */
  lemma EllipsisEven(text: string, maxLength: nat)
    requires |text| > maxLength >= 2 && maxLength % 2 == 0
    ensures var r := EllipsisMiddle(text, maxLength);
      && r[..maxLength / 2 - 1] == text[..maxLength / 2 - 1]
      && r[maxLength / 2 - 1..maxLength / 2 + 2] == "..."
      && r[maxLength / 2 + 2..] == text[|text| - (maxLength / 2 - 1)..]
  {
  }

  /** The key prefix drawn before a node (`renderNode`): the dummy node
      shows "...", string keys are shortened to 20 characters and indices
      padded by `pad3`. Drawing a node without a key fails, as `pad3` of
      `undefined` throws: `None`. */
  function KeyPrefix(node: DataNode): (r: Option<string>)
    ensures node.dummyMoreNode ==> r == Some("...")
    ensures !node.dummyMoreNode && node.keyInParent.StrKey? ==> r == Some(EllipsisMiddle(node.keyInParent.s, 20))
    ensures r.None? <==> !node.dummyMoreNode && node.keyInParent.NoKey?
  {
    if node.dummyMoreNode then Some(EllipsisMiddle("...", 20))
    else match node.keyInParent
      case StrKey(s) => Some(EllipsisMiddle(s, 20))
      case IdxKey(i) => Some(EllipsisMiddle(Pad3(i), 20))
      case NoKey => None
  }

  /** An index below 1000 is drawn as its three-digit padded form. */
  lemma IndexPrefix(node: DataNode)
    requires node.keyInParent.IdxKey? && 0 <= node.keyInParent.i < 1000 && !node.dummyMoreNode
    ensures KeyPrefix(node) == Some(Pad3(node.keyInParent.i)) && |Pad3(node.keyInParent.i)| == 3
  {
    Pad3Digits(node.keyInParent.i);
  }

  /** The unit after a compound's entry count. */
  function EntryUnit(realChildrenCount: Option<int>): (u: string)
    ensures u == "entry" <==> realChildrenCount == Some(1)
    ensures u == "entries" <==> realChildrenCount != Some(1)
  {
    "entr" + (if realChildrenCount != Some(1) then "ies" else "y")
  }

  /** The unit after an array's or list's element count. */
  function ElementUnit(realChildrenCount: Option<int>): (u: string)
    ensures u == "element" <==> realChildrenCount == Some(1)
    ensures u == "elements" <==> realChildrenCount != Some(1)
  {
    "element" + (if realChildrenCount != Some(1) then "s" else "")
  }

  // ---------------------------------------------------------------- rebuild

  /** The key a root tag is built under. */
  function RootKey(t: Tag): Key
  {
    match t.key
    case Some(k) => StrKey(k)
    case None => NoKey
  }

  /** The rows of the tree: every root tag built with an empty path. */
  function TreeRows(root: Root, max: int): (r: Result<seq<DataNode>, string>)
    ensures r.Ok? ==> |r.value| == |root|
    ensures r.Ok? <==> forall i | 0 <= i < |root| :: TreeData(RootKey(root[i]), root[i], "", max).Ok?
  {
    if root == [] then Ok([])
    else match TreeData(RootKey(root[0]), root[0], "", max)
      case Err(e) => Err(e)
      case Ok(n) => Prepend([n], TreeRows(root[1..], max))
  }

  /** Row i is the tree of root tag i. */
  lemma {:induction false} TreeRowsValues(root: Root, max: int)
    requires TreeRows(root, max).Ok?
    ensures forall i | 0 <= i < |root| :: TreeRows(root, max).value[i] == TreeData(RootKey(root[i]), root[i], "", max).value
  {
    if root != [] {
      TreeRowsValues(root[1..], max);
      var rows := TreeRows(root, max).value;
      forall i | 0 < i < |root|
        ensures rows[i] == TreeData(RootKey(root[i]), root[i], "", max).value
      {
        assert rows[i] == TreeRows(root[1..], max).value[i - 1];
        assert root[1..][i - 1] == root[i];
      }
    }
  }

  /** All nodes of a display tree in pre-order. */
  function Flatten(n: DataNode): (ns: seq<DataNode>)
    ensures |ns| >= 1 && ns[0] == n
    decreases n, 1
  {
    match n.children
    case ChildNodes(cs) => [n] + FlattenAll(cs)
    case NoChildren => [n]
  }

  function FlattenAll(ns: seq<DataNode>): seq<DataNode>
    decreases ns, 0
  {
    if ns == [] then [] else Flatten(ns[0]) + FlattenAll(ns[1..])
  }

  /** `findDataNodeByKey`: the first node in pre-order with the given key. */
  function FindByKey(n: DataNode, key: string): (r: Option<DataNode>)
    ensures r.Some? ==> r.value.key == key
    decreases n, 1
  {
    if n.key == key then Some(n)
    else match n.children
      case ChildNodes(cs) => FindInAll(cs, key)
      case NoChildren => None
  }

  function FindInAll(ns: seq<DataNode>, key: string): (r: Option<DataNode>)
    ensures r.Some? ==> r.value.key == key
    decreases ns, 0
  {
    if ns == [] then None
    else match FindByKey(ns[0], key)
      case Some(m) => Some(m)
      case None => FindInAll(ns[1..], key)
  }

  /** The search finds exactly the first node with the key in pre-order. */
  lemma {:induction false} FindByKeyIsFirst(n: DataNode, key: string)
    ensures FindByKey(n, key) == FirstWithKey(Flatten(n), key)
    decreases n, 1
  {
    match n.children
    case ChildNodes(cs) =>
      if n.key != key {
        FindInAllIsFirst(cs, key);
        FirstWithKeyAppend([n], FlattenAll(cs), key);
      }
    case NoChildren =>
  }

  lemma {:induction false} FindInAllIsFirst(ns: seq<DataNode>, key: string)
    ensures FindInAll(ns, key) == FirstWithKey(FlattenAll(ns), key)
    decreases ns, 0
  {
    if ns != [] {
      FindByKeyIsFirst(ns[0], key);
      FindInAllIsFirst(ns[1..], key);
      FirstWithKeyAppend(Flatten(ns[0]), FlattenAll(ns[1..]), key);
    }
  }

  /** The first node of a sequence with the given key. */
  function FirstWithKey(ns: seq<DataNode>, key: string): (r: Option<DataNode>)
    ensures r.Some? <==> exists i | 0 <= i < |ns| :: ns[i].key == key
    ensures r.Some? ==> r.value in ns && r.value.key == key
  {
    if ns == [] then None
    else if ns[0].key == key then Some(ns[0])
    else
      var r := FirstWithKey(ns[1..], key);
      assert forall i | 1 <= i < |ns| :: ns[i] == ns[1..][i - 1];
      r
  }

  lemma {:induction false} FirstWithKeyAppend(a: seq<DataNode>, b: seq<DataNode>, key: string)
    ensures FirstWithKey(a + b, key) == if FirstWithKey(a, key).Some? then FirstWithKey(a, key) else FirstWithKey(b, key)
  {
    if a != [] {
      assert (a + b)[1..] == a[1..] + b;
      FirstWithKeyAppend(a[1..], b, key);
    } else {
      assert a + b == b;
    }
  }

  /** The selection after a rebuild: none without a previous selection;
      otherwise the node with its key in the first row that holds one. */
  function Reselect(selected: Option<DataNode>, rows: seq<DataNode>): Option<DataNode>
  {
    if selected.None? || selected.value.key == "" then None
    else FindInAll(rows, selected.value.key)
  }

  /** The re-selected node is some node of the new tree with the old key,
      and one is re-selected whenever the new tree has a node with that key. */
  lemma ReselectFinds(selected: DataNode, rows: seq<DataNode>)
    requires selected.key != ""
    ensures Reselect(Some(selected), rows) == FirstWithKey(FlattenAll(rows), selected.key)
  {
    FindInAllIsFirst(rows, selected.key);
  }

  /** The effect that rebuilds the tree when the file or the modification
      counter changes, with `max` the children cap (-1: none). A build
      failure throws before the selection is touched. */
  method Rebuild(bus: Bus, max: int) returns (data: Result<seq<DataNode>, string>)
    modifies bus
    ensures data == TreeRows(old(bus.root), max)
    ensures bus.root == old(bus.root) && bus.currentFileUUID == old(bus.currentFileUUID)
    ensures bus.currentFilename == old(bus.currentFilename)
    ensures bus.currentModifyVersion == old(bus.currentModifyVersion)
    ensures data.Ok? ==> bus.selectedNode == Reselect(old(bus.selectedNode), data.value)
    ensures data.Err? ==> bus.selectedNode == old(bus.selectedNode)
  {
    var root := bus.root;
    var rows: seq<DataNode> := [];
    var i := 0;
    while i < |root|
      modifies {}
      invariant 0 <= i <= |root|
      invariant TreeRows(root, max) == Prepend(rows, TreeRows(root[i..], max))
    {
      var n := BuildTreeData(RootKey(root[i]), root[i], "", max);
      assert root[i..][0] == root[i] && root[i..][1..] == root[i + 1..];
      if n.Err? {
        return Err(n.error);
      }
      PrependTwice(rows, [n.value], TreeRows(root[i + 1..], max));
      rows := rows + [n.value];
      i := i + 1;
    }
    assert root[i..] == [];
    data := Ok(rows);
    var selected := bus.selectedNode;
    if selected.None? || selected.value.key == "" {
      bus.selectedNode := None;
    } else {
      bus.selectedNode := None;
      var j := 0;
      while j < |rows|
        invariant 0 <= j <= |rows|
        invariant bus.selectedNode == None
        invariant FindInAll(rows, selected.value.key) == FindInAll(rows[j..], selected.value.key)
      {
        assert rows[j..][1..] == rows[j + 1..];
        var node := FindByKey(rows[j], selected.value.key);
        if node.Some? {
          bus.selectedNode := node;
          break;
        }
        j := j + 1;
      }
    }
  }
}

=== FILE: jstext.dfy ===
/** The JavaScript string and number primitives the editor relies on, on
    strings modelled as sequences of Unicode code points (one `char` each). */
module JsText {
  import opened Wrappers

  // ---------------------------------------------------------------- digits

  predicate IsDigit(c: char) { '0' <= c <= '9' }

  function DigitChar(d: nat): (c: char)
    requires d < 10
    ensures IsDigit(c) && c as int - '0' as int == d
  {
    ('0' as int + d) as char
  }

  function DigitValue(c: char): nat
    requires IsDigit(c)
  {
    c as int - '0' as int
  }

  predicate AllDigits(s: string) { forall i | 0 <= i < |s| :: IsDigit(s[i]) }

  /** Decimal digits of a natural number, most significant first, no leading zero. */
  function NatToString(n: nat): string
    decreases n
  {
    if n < 10 then [DigitChar(n)] else NatToString(n / 10) + [DigitChar(n % 10)]
  }

  /** `String(n)` for an integral Number or a BigInt. */
  function IntToString(n: int): string
  {
    if n < 0 then "-" + NatToString(-n) else NatToString(n)
  }

  /** The value of a run of decimal digits (leading zeros allowed). */
  function DigitsValue(s: string): nat
    requires AllDigits(s)
    decreases |s|
  {
    if s == [] then 0 else DigitsValue(s[..|s| - 1]) * 10 + DigitValue(s[|s| - 1])
  }

  /** The strings matched by the regular expression `^-?\d+$`. */
  predicate IsDecimalLiteral(s: string)
  {
    || (|s| > 0 && AllDigits(s))
    || (|s| > 1 && s[0] == '-' && AllDigits(s[1..]))
  }

  /** `BigInt(s)` (and `Number(s)`) of a decimal literal. */
  function DecimalValue(s: string): int
    requires IsDecimalLiteral(s)
  {
    if s[0] == '-' then -(DigitsValue(s[1..]) as int) else DigitsValue(s)
  }

  lemma {:induction false} NatToStringDigits(n: nat)
    ensures |NatToString(n)| > 0 && AllDigits(NatToString(n))
    ensures DigitsValue(NatToString(n)) == n
    decreases n
  {
    if n >= 10 {
      NatToStringDigits(n / 10);
      var s := NatToString(n);
      assert s[..|s| - 1] == NatToString(n / 10);
    }
  }

  /** Printing an integer and reading the text back gives the integer. */
  lemma IntToStringRoundTrip(n: int)
    ensures IsDecimalLiteral(IntToString(n))
    ensures DecimalValue(IntToString(n)) == n
  {
    if n < 0 {
      NatToStringDigits(-n);
      assert IntToString(n)[1..] == NatToString(-n);
    } else {
      NatToStringDigits(n);
    }
  }

  lemma IntToStringShape(n: int)
    ensures |IntToString(n)| > 0
    ensures IsDigit(IntToString(n)[|IntToString(n)| - 1])
    ensures IntToString(n)[0] == '-' || IsDigit(IntToString(n)[0])
    ensures forall i | 0 <= i < |IntToString(n)| :: IntToString(n)[i] == '-' || IsDigit(IntToString(n)[i])
  {
    IntToStringRoundTrip(n);
    var s := IntToString(n);
    if n < 0 {
      NatToStringDigits(-n);
      assert s == "-" + NatToString(-n);
      assert forall i | 1 <= i < |s| :: s[i] == NatToString(-n)[i - 1];
    } else {
      NatToStringDigits(n);
    }
  }

  /** Decimal texts of different integers differ. */
  lemma IntToStringInjective(m: int, n: int)
    requires IntToString(m) == IntToString(n)
    ensures m == n
  {
    IntToStringRoundTrip(m);
    IntToStringRoundTrip(n);
  }

  // ----------------------------------------------------------- whitespace

  /** The characters `String.prototype.trim` removes: ECMAScript WhiteSpace and LineTerminator. */
  predicate IsJsWhitespace(c: char)
  {
    || c == '\t' || c == '\n' || c == '\U{000B}' || c == '\U{000C}' || c == '\r' || c == ' '
    || c == '\U{00A0}' || c == '\U{1680}' || ('\U{2000}' <= c <= '\U{200A}')
    || c == '\U{2028}' || c == '\U{2029}' || c == '\U{202F}' || c == '\U{205F}'
    || c == '\U{3000}' || c == '\U{FEFF}'
  }

  /** The characters a regular-expression `.` does not match. */
  predicate IsLineTerminator(c: char)
  {
    c == '\n' || c == '\r' || c == '\U{2028}' || c == '\U{2029}'
  }

  /** `s.trimStart()` */
  function TrimStart(s: string): string
    decreases |s|
  {
    if |s| > 0 && IsJsWhitespace(s[0]) then TrimStart(s[1..]) else s
  }

  /** `s.trimEnd()` */
  function TrimEnd(s: string): string
    decreases |s|
  {
    if |s| > 0 && IsJsWhitespace(s[|s| - 1]) then TrimEnd(s[..|s| - 1]) else s
  }

  /** `s.trim()` */
  function Trim(s: string): string
  {
    TrimEnd(TrimStart(s))
  }

  lemma TrimOfDecimalText(n: int)
    ensures Trim(IntToString(n)) == IntToString(n)
    ensures TrimEnd(IntToString(n)) == IntToString(n)
  {
    IntToStringShape(n);
  }

  // ------------------------------------------------------ split and join

  /** `s.indexOf(c)` for a one-unit needle. */
  function IndexOf(s: string, c: char): (i: int)
    ensures -1 <= i < |s|
    ensures i >= 0 ==> s[i] == c && c !in s[..i]
    ensures i == -1 <==> c !in s
  {
    if |s| == 0 then -1
    else if s[0] == c then 0
    else
      var k := IndexOf(s[1..], c);
      assert s == [s[0]] + s[1..];
      if k < 0 then -1 else k + 1
  }

  /** `s.split(sep)` for a one-unit separator: never empty, `"".split(sep)` is `[""]`. */
  function Split(s: string, sep: char): (parts: seq<string>)
    ensures |parts| >= 1
    decreases |s|
  {
    var i := IndexOf(s, sep);
    if i < 0 then [s] else [s[..i]] + Split(s[i + 1..], sep)
  }

  /** `parts.join(sep)` */
  function Join(parts: seq<string>, sep: char): string
    decreases |parts|
  {
    if |parts| == 0 then ""
    else if |parts| == 1 then parts[0]
    else parts[0] + [sep] + Join(parts[1..], sep)
  }

  lemma {:induction false} IndexOfAfter(a: string, c: char, b: string)
    requires c !in a
    ensures IndexOf(a + [c] + b, c) == |a|
  {
    var s := a + [c] + b;
    var i := IndexOf(s, c);
    assert s[|a|] == c;
    assert s[..|a|] == a;
  }

  /** Splitting joined lines gives the lines back when none holds the separator. */
  lemma {:induction false} SplitJoin(parts: seq<string>, sep: char)
    requires |parts| >= 1
    requires forall i | 0 <= i < |parts| :: sep !in parts[i]
    ensures Split(Join(parts, sep), sep) == parts
    decreases |parts|
  {
    if |parts| > 1 {
      var rest := Join(parts[1..], sep);
      var s := parts[0] + [sep] + rest;
      assert Join(parts, sep) == s;
      IndexOfAfter(parts[0], sep, rest);
      assert s[..|parts[0]|] == parts[0];
      assert s[|parts[0]| + 1..] == rest;
      assert Split(s, sep) == [parts[0]] + Split(rest, sep);
      SplitJoin(parts[1..], sep);
      assert parts == [parts[0]] + parts[1..];
    }
  }

  lemma {:induction false} JoinLast(parts: seq<string>, sep: char)
    requires |parts| >= 1 && |parts[|parts| - 1]| > 0
    ensures |Join(parts, sep)| > 0
    ensures Join(parts, sep)[|Join(parts, sep)| - 1] == parts[|parts| - 1][|parts[|parts| - 1]| - 1]
    decreases |parts|
  {
    if |parts| > 1 {
      JoinLast(parts[1..], sep);
    }
  }

  // ------------------------------------------------------------ substrings

  /** `s.substr(start, length)` with integral arguments. */
  function Substr(s: string, start: int, length: int): (r: string)
    ensures |r| <= |s|
  {
    var from := if start < 0 then (if |s| + start < 0 then 0 else |s| + start)
                else if start > |s| then |s| else start;
    var len := if length < 0 then 0 else if length > |s| then |s| else length;
    var to := if from + len > |s| then |s| else from + len;
    s[from..to]
  }

  /** `s.substr(start)` with an integral argument. */
  function SubstrFrom(s: string, start: int): (r: string)
    ensures |r| <= |s|
  {
    Substr(s, start, |s|)
  }

  // --------------------------------------------------------------- case

  /** `toLocaleLowerCase` on one character; only ASCII letters are mapped. */
  function LowerChar(c: char): char
  {
    if 'A' <= c <= 'Z' then (c as int + 32) as char else c
  }

  /** `toLocaleLowerCase` on the ASCII letters. */
  function LowerAscii(s: string): (r: string)
    ensures |r| == |s|
    ensures forall i | 0 <= i < |s| :: r[i] == LowerChar(s[i])
  {
    if s == [] then [] else [LowerChar(s[0])] + LowerAscii(s[1..])
  }

  // ---------------------------------------------------------------- UTF-8

  /** Bytes `TextEncoder` produces for one code point. */
  function Utf8CharLength(c: char): nat
  {
    if c as int < 0x80 then 1 else if c as int < 0x800 then 2 else if c as int < 0x1_0000 then 3 else 4
  }

  /** `new TextEncoder().encode(s).length` */
  function Utf8Length(s: string): nat
    decreases |s|
  {
    if s == [] then 0 else Utf8Length(s[..|s| - 1]) + Utf8CharLength(s[|s| - 1])
  }

  predicate IsAscii(s: string) { forall i | 0 <= i < |s| :: s[i] as int < 0x80 }

  lemma {:induction false} Utf8LengthBounds(s: string)
    ensures |s| <= Utf8Length(s) <= 4 * |s|
    ensures IsAscii(s) ==> Utf8Length(s) == |s|
    decreases |s|
  {
    if s != [] {
      Utf8LengthBounds(s[..|s| - 1]);
    }
  }

  // --------------------------------------------------------------- parseInt

  /** Number of leading decimal digits of `s`. */
  function LeadingDigits(s: string): (k: nat)
    ensures k <= |s| && AllDigits(s[..k])
    ensures k < |s| ==> !IsDigit(s[k])
    decreases |s|
  {
    if |s| > 0 && IsDigit(s[0]) then
      var k := LeadingDigits(s[1..]);
      assert s[..k + 1] == [s[0]] + s[1..][..k];
      k + 1
    else 0
  }

  /** `parseInt(s, 10)`; None stands for NaN. */
  function ParseInt(s: string): Option<int>
  {
    var t := TrimStart(s);
    var negative := |t| > 0 && t[0] == '-';
    var body := if |t| > 0 && (t[0] == '-' || t[0] == '+') then t[1..] else t;
    var k := LeadingDigits(body);
    if k == 0 then None
    else if negative then Some(-(DigitsValue(body[..k]) as int))
    else Some(DigitsValue(body[..k]))
  }

  lemma LeadingDigitsAll(s: string)
    requires AllDigits(s)
    ensures LeadingDigits(s) == |s|
  {
  }

  /** `parseInt` reads back every printed integer. */
  lemma ParseIntOfDecimalText(n: int)
    ensures ParseInt(IntToString(n)) == Some(n)
  {
    var s := IntToString(n);
    IntToStringRoundTrip(n);
    IntToStringShape(n);
    assert TrimStart(s) == s;
    if n < 0 {
      LeadingDigitsAll(s[1..]);
      assert s[1..][..|s| - 1] == s[1..];
    } else {
      LeadingDigitsAll(s);
      assert s[..|s|] == s;
    }
  }

  // `String(x).replace(/\..*/, '')`: cut from the first '.' up to the next line terminator.
  function CutFraction(s: string): (r: string)
    ensures '.' !in s ==> r == s
  {
    var i := IndexOf(s, '.');
    if i < 0 then s
    else
      var j := LineEnd(s, i + 1);
      s[..i] + s[j..]
  }

  /** First index at or after `from` holding a line terminator, or `|s|`. */
  function LineEnd(s: string, from: nat): (j: nat)
    requires from <= |s|
    ensures from <= j <= |s|
    ensures forall k | from <= k < j :: !IsLineTerminator(s[k])
    ensures j < |s| ==> IsLineTerminator(s[j])
    decreases |s| - from
  {
    if from == |s| || IsLineTerminator(s[from]) then from else LineEnd(s, from + 1)
  }
}

=== FILE: listpanel.dfy ===
/** The list panel (src/renderer/Component/NodeDataPanel/ListPanel.tsx):
    rename a list and choose its children type, which may change only
    while the list is empty. */
module ListPanel {
  import opened Wrappers
  import opened JsText
  import opened StructedNbt
  import opened DataNodes
  import opened RendererBus
  import opened PanelNodes

  /** The children types the select offers, in its order. */
  const ChildTypes: seq<string> :=
    ["byte", "short", "int", "long", "float", "double", "byte_array", "string", "int_array", "compound", "list", "end"]

  /** The tag type each offered name stands for, in the select's order. */
  const ChildTagTypes: seq<TagType> :=
    [Byte, Short, Int, Long, Float, Double, ByteArray, String, IntArray, Compound, List, End]

  /** Where the select offers a tag type. */
  function SelectPosition(t: TagType): (j: nat)
    ensures j < |ChildTypes| && ChildTypes[j] == TypeName(t) && ChildTagTypes[j] == t
  {
    match t
    case Byte => 0
    case Short => 1
    case Int => 2
    case Long => 3
    case Float => 4
    case Double => 5
    case ByteArray => 6
    case String => 7
    case IntArray => 8
    case Compound => 9
    case List => 10
    case End => 11
  }

  /** The offered name at position j names the j-th tag type. */
  lemma ChildTypeAt(j: nat)
    requires j < |ChildTypes|
    ensures TypeName(ChildTagTypes[j]) == ChildTypes[j]
    ensures TypeOfName(ChildTypes[j]) == Some(ChildTagTypes[j])
    ensures SelectPosition(ChildTagTypes[j]) == j
  {
    TypeNameBijective(ChildTagTypes[j], ChildTypes[j]);
  }

  /** The select offers each of the twelve tag types exactly once. */
  lemma ChildTypesAreTheTagTypes()
    ensures |ChildTypes| == 12
    ensures forall j | 0 <= j < |ChildTypes| :: IsTypeName(ChildTypes[j])
    ensures forall a, b | 0 <= a < b < |ChildTypes| :: ChildTypes[a] != ChildTypes[b]
    ensures forall t: TagType :: TypeName(t) in ChildTypes
  {
    forall j | 0 <= j < |ChildTypes|
      ensures TypeOfName(ChildTypes[j]) == Some(ChildTagTypes[j])
      ensures SelectPosition(ChildTagTypes[j]) == j
    {
      ChildTypeAt(j);
    }
    forall t: TagType
      ensures TypeName(t) in ChildTypes
    {
      var j := SelectPosition(t);
    }
  }

  const NotEmptyMessage: string := "Cannot change children type if this list is not empty."

  /** The list's `childrenType` as its tree node carries it: absent when empty. */
  function ShownChildrenType(t: Tag): Option<string>
    requires t.value.ListValue?
  {
    if t.value.childrenType == "" then None else Some(t.value.childrenType)
  }

  /** The children-type validator: an unchanged type always passes, a
      changed one only for a list without children. */
  function ChildrenTypeError(initType: Option<string>, value: Option<string>, count: nat): (e: Option<string>)
    ensures e.Some? <==> value != initType && count > 0
    ensures e.Some? ==> e.value == NotEmptyMessage
  {
    if value == initType then None
    else if count > 0 then Some(NotEmptyMessage)
    else None
  }

  /** What the form can hold: the node is a list tag, and its key input is
      disabled for an index key and otherwise yields text. */
  predicate FormFits(root: Root, n: PanelNode, formKey: Key)
  {
    && ValidNode(root, n) && n.own.Some? && OwnTag(root, n).value.ListValue?
    && (formKey == n.keyInParent || (formKey.StrKey? && !n.keyInParent.IdxKey?))
  }

  /** `modified`: the key or the children type differs from the initial one. */
  predicate Modified(root: Root, n: PanelNode, formKey: Key, formType: Option<string>)
    requires FormFits(root, n, formKey)
  {
    formKey != n.keyInParent || formType != ShownChildrenType(OwnTag(root, n))
  }

  /** The children type written: an absent choice writes nothing useful and
      is kept as the empty text. */
  function ChosenType(formType: Option<string>): string
  {
    match formType
    case Some(c) => c
    case None => ""
  }

  /** `submit`: the key complaint comes first, then the children-type one;
      otherwise the list is renamed if asked and takes the chosen children
      type if that changed and the list is empty. */
  function ListSubmit(root: Root, n: PanelNode, formKey: Key, formType: Option<string>): (r: (Outcome, Root))
    requires FormFits(root, n, formKey)
  {
    var t := OwnTag(root, n);
    var initType := ShownChildrenType(t);
    var items := t.value.items;
    if KeyClash(ChildrenAt(root, n.parent), n.own.value, formKey) then (Rejected(KeyExistsMessage), root)
    else match ChildrenTypeError(initType, formType, |items|)
      case Some(m) => (Rejected(m), root)
      case None =>
        var key := if Renames(n, formKey) then Some(formKey.s) else t.key;
        var ct := if formType != initType && |items| == 0 then ChosenType(formType) else t.value.childrenType;
        (Applied, ReplaceOwn(root, n, Tag(key, ListValue(ct, items))))
  }

  /** The selected tree node is the panel's node, built from the list tag
      (so it shows the tag's children type), and submit updates its
      `keyInParent` and `childrenType` alongside the tag. */
  function SelectedAfter(sel: DataNode, n: PanelNode, formKey: Key, formType: Option<string>, count: nat): DataNode
  {
    sel.(keyInParent := if Renames(n, formKey) then formKey else sel.keyInParent,
         childrenType := if formType != sel.childrenType && count == 0 then formType else sel.childrenType)
  }

  method SubmitList(bus: Bus, n: PanelNode, formKey: Key, formType: Option<string>) returns (outcome: Outcome)
    requires FormFits(bus.root, n, formKey)
    requires bus.selectedNode.Some? && bus.selectedNode.value.keyInParent == n.keyInParent
    requires bus.selectedNode.value.childrenType == ShownChildrenType(OwnTag(bus.root, n))
    modifies bus
    ensures (outcome, bus.root) == ListSubmit(old(bus.root), n, formKey, formType)
    ensures bus.currentModifyVersion == old(bus.currentModifyVersion) + (if outcome.Applied? then 1 else 0)
    ensures bus.currentFileUUID == old(bus.currentFileUUID) && bus.currentFilename == old(bus.currentFilename)
    ensures outcome.Rejected? ==> bus.selectedNode == old(bus.selectedNode)
    ensures outcome.Applied? ==> (bus.selectedNode ==
      Some(SelectedAfter(old(bus.selectedNode).value, n, formKey, formType, |OwnTag(old(bus.root), n).value.items|)))
  {
    var t := OwnTag(bus.root, n);
    var initType := ShownChildrenType(t);
    var keyError := ValidateSiblingKey(ChildrenAt(bus.root, n.parent), n.own.value, formKey);
    if keyError.Some? {
      return Rejected(keyError.value);
    }
    var typeError := ChildrenTypeError(initType, formType, |t.value.items|);
    if typeError.Some? {
      return Rejected(typeError.value);
    }
    // both changes land on the one tag object
    var u := t;
    if Renames(n, formKey) {
      u := Tag(Some(formKey.s), u.value);
    }
    if formType != initType && |t.value.items| == 0 {
      u := Tag(u.key, ListValue(ChosenType(formType), u.value.items));
    }
    bus.root := ReplaceOwn(bus.root, n, u);
    bus.selectedNode := Some(SelectedAfter(bus.selectedNode.value, n, formKey, formType, |t.value.items|));
    bus.currentModifyVersion := bus.currentModifyVersion + 1;
    return Applied;
  }

  /** A submit is refused exactly when the key clashes with another
      sibling's or the children type changes on a non-empty list, and a
      refused submit leaves the root as it was. */
  lemma ListRejects(root: Root, n: PanelNode, formKey: Key, formType: Option<string>)
    requires FormFits(root, n, formKey)
    ensures var r := ListSubmit(root, n, formKey, formType);
      var t := OwnTag(root, n);
      && (r.0.Rejected? <==>
           || KeyClash(ChildrenAt(root, n.parent), n.own.value, formKey)
           || (formType != ShownChildrenType(t) && |t.value.items| > 0))
      && (r.0.Rejected? ==> r.1 == root)
  {
  }

  /** An applied submit replaces only the list itself, keeps its items,
      renames it if asked, and gives it the chosen children type exactly
      when that changed and the list is empty; unique keys stay unique. */
  lemma ListApplied(root: Root, n: PanelNode, formKey: Key, formType: Option<string>)
    requires FormFits(root, n, formKey)
    requires ListSubmit(root, n, formKey, formType).0.Applied?
    ensures var after := ListSubmit(root, n, formKey, formType).1;
      var t := OwnTag(root, n);
      var u := OwnTag(after, n);
      && ValidNode(after, n)
      && ChildrenAt(after, n.parent) == ChildrenAt(root, n.parent)[n.own.value := u]
      && u.value.ListValue? && u.value.items == t.value.items
      && u.key == (if Renames(n, formKey) then Some(formKey.s) else t.key)
      && (formType != ShownChildrenType(t) && |t.value.items| == 0 ==> u.value.childrenType == ChosenType(formType))
      && (formType == ShownChildrenType(t) || |t.value.items| > 0 ==> u.value.childrenType == t.value.childrenType)
      && (UniqueKeys(ChildrenAt(root, n.parent)) ==> UniqueKeys(ChildrenAt(after, n.parent)))
      && (forall q | ValidPath(root, q) && Apart(n.parent + [n.own.value], q) ::
            ValidPath(after, q) && TagAt(after, q) == TagAt(root, q))
  {
    var tags := ChildrenAt(root, n.parent);
    var i := n.own.value;
    var after := ListSubmit(root, n, formKey, formType).1;
    var u := OwnTag(after, n);
    if Renames(n, formKey) {
      ChecksFreeKey(tags, i, formKey.s);
    }
    if UniqueKeys(tags) {
      RenameKeepsUnique(tags, i, u);
    }
  }

  /** Submitting an unmodified form whose key clashes with no sibling
      applies and leaves the root as it was. */
  lemma ListUnmodified(root: Root, n: PanelNode, formKey: Key, formType: Option<string>)
    requires FormFits(root, n, formKey) && !Modified(root, n, formKey, formType)
    requires !KeyClash(ChildrenAt(root, n.parent), n.own.value, formKey)
    ensures ListSubmit(root, n, formKey, formType) == (Applied, root)
  {
    ReplaceOwnSame(root, n);
  }
}

=== FILE: loader.dfy ===
/** Conversion of library tag objects into the editor's structured tree,
    as done when a file has been read (src/main/lib/utils.ts). */
module Loader {
  import opened Wrappers
  import opened JsText
  import opened StructedNbt
  import opened Mcnbt

  datatype LoadError = UnknownTagType(typeId: UnknownTypeId)

  /** The text of the error thrown for an unrecognised type id. */
  function LoadErrorMessage(e: LoadError): string
  {
    "Unknown tag type: " + IntToString(e.typeId)
  }

  /** A list's `childrenType`: the library `childType` with its first four
      characters dropped, then lower-cased. */
  function ListChildTypeName(childType: string): (s: string)
    ensures |s| == if |childType| < 4 then 0 else |childType| - 4
  {
    LowerAscii(SubstrFrom(childType, 4))
  }

  /** The library's names for the twelve types become the twelve type names. */
  lemma LibraryNamesBecomeTypeNames(t: TagType)
    ensures ListChildTypeName(LibraryTypeName(t)) == TypeName(t)
  {
    TypeNamesAreLowerWords(t);
    DropTagPrefix(Capitalised(TypeName(t)));
    LowerCapitalised(TypeName(t));
  }

  predicate LowerWord(s: string) { forall i | 0 <= i < |s| :: 'a' <= s[i] <= 'z' || s[i] == '_' }

  lemma TypeNamesAreLowerWords(t: TagType)
    ensures LowerWord(TypeName(t))
  {
  }

  lemma DropTagPrefix(x: string)
    ensures SubstrFrom("TAG_" + x, 4) == x
  {
    assert ("TAG_" + x)[4..] == x;
  }

  lemma LowerCapitalised(s: string)
    requires LowerWord(s)
    ensures LowerAscii(Capitalised(s)) == s
  {
    var r := LowerAscii(Capitalised(s));
    assert forall i | 0 <= i < |s| :: r[i] == s[i];
  }

  /** Every tag anywhere inside `t` has a type id in 0..11. */
  predicate Recognised(t: LibTag)
    decreases t
  {
    && 0 <= TypeIdOf(t.body) < 12
    && match t.body
       case LList(_, items) => forall i | 0 <= i < |items| :: Recognised(items[i])
       case LCompound(entries) => forall i | 0 <= i < |entries| :: Recognised(entries[i].tag)
       case _ => true
  }

  // ------------------------------------------------------- specification

  /** `nbtNodeToStructed(node, key)` */
  function ToStructed(t: LibTag, key: Option<string>): Result<Tag, LoadError>
    decreases t, 1, 0
  {
    match t.body
    case LByte(n) => Ok(Tag(key, ByteValue(n)))
    case LShort(n) => Ok(Tag(key, ShortValue(n)))
    case LInt(n) => Ok(Tag(key, IntValue(n)))
    case LLong(n) => Ok(Tag(key, LongValue(IntToString(n))))
    case LFloat(f) => Ok(Tag(key, FloatValue(f)))
    case LDouble(f) => Ok(Tag(key, DoubleValue(f)))
    case LByteArray(elems) => Ok(Tag(key, ByteArrayValue(elems)))
    case LString(s) => Ok(Tag(key, StringValue(s)))
    case LList(ct, items) =>
      (match ItemsFrom(t, 0)
       case Ok(list) => Ok(Tag(key, ListValue(ListChildTypeName(ct), list)))
       case Err(e) => Err(e))
    case LCompound(entries) =>
      (match EntriesFrom(t, 0)
       case Ok(children) => Ok(Tag(key, CompoundValue(children)))
       case Err(e) => Err(e))
    case LIntArray(elems) => Ok(Tag(key, IntArrayValue(elems)))
    case LEnd => Ok(Tag(key, EndValue))
    case LUnknown(n) => Err(UnknownTagType(n))
  }

  /** The converted elements of list `t` from position i on, with no key. */
  function ItemsFrom(t: LibTag, i: nat): Result<seq<Tag>, LoadError>
    requires t.body.LList?
    decreases t, 0, |t.body.items| - i
  {
    if i >= |t.body.items| then Ok([])
    else match ToStructed(t.body.items[i], None)
      case Err(e) => Err(e)
      case Ok(c) => Prepend([c], ItemsFrom(t, i + 1))
  }

  /** The converted children of compound `t` from position i on, each keyed
      by its property name. */
  function EntriesFrom(t: LibTag, i: nat): Result<seq<Tag>, LoadError>
    requires t.body.LCompound?
    decreases t, 0, |t.body.entries| - i
  {
    var es := t.body.entries;
    if i >= |es| then Ok([])
    else match ToStructed(es[i].tag, Some(es[i].name))
      case Err(e) => Err(e)
      case Ok(c) => Prepend([c], EntriesFrom(t, i + 1))
  }

  /** The converted root properties from position i on. */
  function RootFrom(es: seq<Entry>, i: nat): Result<Root, LoadError>
    decreases |es| - i
  {
    if i >= |es| then Ok([])
    else match ToStructed(es[i].tag, Some(es[i].name))
      case Err(e) => Err(e)
      case Ok(c) => Prepend([c], RootFrom(es, i + 1))
  }

  /** `nbtToStructedRoot(nbt)` */
  function ToStructedRoot(nbt: LibNbt): Result<Root, LoadError>
  {
    RootFrom(nbt.root, 0)
  }

  // --------------------------------------------------------------- methods

  /** `nbtNodeToStructed`: a switch on the type id whose list and compound
      cases push converted children into a fresh array. */
  method NbtNodeToStructed(node: LibTag, key: Option<string>) returns (r: Result<Tag, LoadError>)
    ensures r == ToStructed(node, key)
    decreases node
  {
    match node.body {
      case LList(ct, values) =>
        var list: seq<Tag> := [];
        var i := 0;
        while i < |values|
          invariant 0 <= i <= |values|
          invariant ItemsFrom(node, 0) == Prepend(list, ItemsFrom(node, i))
        {
          var c := NbtNodeToStructed(values[i], None);
          if c.Err? {
            return Err(c.error);
          }
          PrependTwice(list, [c.value], ItemsFrom(node, i + 1));
          list := list + [c.value];
          i := i + 1;
        }
        r := Ok(Tag(key, ListValue(ListChildTypeName(ct), list)));
      case LCompound(entries) =>
        var children: seq<Tag> := [];
        var i := 0;
        while i < |entries|
          invariant 0 <= i <= |entries|
          invariant EntriesFrom(node, 0) == Prepend(children, EntriesFrom(node, i))
        {
          var c := NbtNodeToStructed(entries[i].tag, Some(entries[i].name));
          if c.Err? {
            return Err(c.error);
          }
          PrependTwice(children, [c.value], EntriesFrom(node, i + 1));
          children := children + [c.value];
          i := i + 1;
        }
        r := Ok(Tag(key, CompoundValue(children)));
      case _ =>
        r := ToStructed(node, key);
    }
  }

  /** `nbtToStructedRoot`: one converted tag per root property, in order. */
  method NbtToStructedRoot(nbt: LibNbt) returns (r: Result<Root, LoadError>)
    ensures r == ToStructedRoot(nbt)
  {
    var root: Root := [];
    var i := 0;
    while i < |nbt.root|
      invariant 0 <= i <= |nbt.root|
      invariant RootFrom(nbt.root, 0) == Prepend(root, RootFrom(nbt.root, i))
    {
      var c := NbtNodeToStructed(nbt.root[i].tag, Some(nbt.root[i].name));
      if c.Err? {
        return Err(c.error);
      }
      PrependTwice(root, [c.value], RootFrom(nbt.root, i + 1));
      root := root + [c.value];
      i := i + 1;
    }
    r := Ok(root);
  }

  // ---------------------------------------------------------- properties

  /** A converted tag carries the given key (absent when none is given) and
      the tag number matching the library type id. */
  lemma ToStructedKeyAndType(t: LibTag, key: Option<string>)
    requires ToStructed(t, key).Ok?
    ensures ToStructed(t, key).value.key == key
    ensures TagNumberOf(ToStructed(t, key).value) == TypeIdOf(t.body)
  {
  }

  /** Scalars, strings and arrays are carried across unchanged, a long as
      the decimal text of its value. */
  lemma ToStructedLeaves(t: LibTag, key: Option<string>)
    ensures t.body.LByte? ==> ToStructed(t, key) == Ok(Tag(key, ByteValue(t.body.n)))
    ensures t.body.LShort? ==> ToStructed(t, key) == Ok(Tag(key, ShortValue(t.body.n)))
    ensures t.body.LInt? ==> ToStructed(t, key) == Ok(Tag(key, IntValue(t.body.n)))
    ensures t.body.LString? ==> ToStructed(t, key) == Ok(Tag(key, StringValue(t.body.s)))
    ensures t.body.LByteArray? ==> ToStructed(t, key) == Ok(Tag(key, ByteArrayValue(t.body.elems)))
    ensures t.body.LIntArray? ==> ToStructed(t, key) == Ok(Tag(key, IntArrayValue(t.body.elems)))
    ensures t.body.LEnd? ==> ToStructed(t, key) == Ok(Tag(key, EndValue))
    ensures t.body.LLong? ==>
      && ToStructed(t, key).Ok?
      && ToStructed(t, key).value.value.LongValue?
      && IsDecimalLiteral(ToStructed(t, key).value.value.text)
      && DecimalValue(ToStructed(t, key).value.value.text) == t.body.n
  {
    if t.body.LLong? {
      IntToStringRoundTrip(t.body.n);
    }
  }

  lemma {:induction false} ItemsFromFacts(t: LibTag, i: nat)
    requires t.body.LList? && i <= |t.body.items|
    ensures ItemsFrom(t, i).Ok? <==> forall j | i <= j < |t.body.items| :: ToStructed(t.body.items[j], None).Ok?
    ensures ItemsFrom(t, i).Ok? ==>
      && |ItemsFrom(t, i).value| == |t.body.items| - i
      && forall j | i <= j < |t.body.items| :: ItemsFrom(t, i).value[j - i] == ToStructed(t.body.items[j], None).value
    decreases |t.body.items| - i
  {
    if i < |t.body.items| {
      ItemsFromFacts(t, i + 1);
    }
  }

  lemma {:induction false} EntriesFromFacts(t: LibTag, i: nat)
    requires t.body.LCompound? && i <= |t.body.entries|
    ensures EntriesFrom(t, i).Ok? <==>
      forall j | i <= j < |t.body.entries| :: ToStructed(t.body.entries[j].tag, Some(t.body.entries[j].name)).Ok?
    ensures EntriesFrom(t, i).Ok? ==>
      && |EntriesFrom(t, i).value| == |t.body.entries| - i
      && forall j | i <= j < |t.body.entries| ::
           EntriesFrom(t, i).value[j - i] == ToStructed(t.body.entries[j].tag, Some(t.body.entries[j].name)).value
    decreases |t.body.entries| - i
  {
    if i < |t.body.entries| {
      EntriesFromFacts(t, i + 1);
    }
  }

  lemma {:induction false} RootFromFacts(es: seq<Entry>, i: nat)
    requires i <= |es|
    ensures RootFrom(es, i).Ok? <==> forall j | i <= j < |es| :: ToStructed(es[j].tag, Some(es[j].name)).Ok?
    ensures RootFrom(es, i).Ok? ==>
      && |RootFrom(es, i).value| == |es| - i
      && forall j | i <= j < |es| :: RootFrom(es, i).value[j - i] == ToStructed(es[j].tag, Some(es[j].name)).value
    decreases |es| - i
  {
    if i < |es| {
      RootFromFacts(es, i + 1);
    }
  }

  /** List elements are converted in order and carry no key; the child type
      is the library's with four characters dropped and lower-cased. */
  lemma ListConversion(t: LibTag, key: Option<string>)
    requires t.body.LList? && ToStructed(t, key).Ok?
    ensures var v := ToStructed(t, key).value.value;
      && v.ListValue?
      && v.childrenType == ListChildTypeName(t.body.childType)
      && |v.items| == |t.body.items|
      && forall j | 0 <= j < |v.items| ::
           ToStructed(t.body.items[j], None) == Ok(v.items[j]) && v.items[j].key == None
  {
    ItemsFromFacts(t, 0);
    var v := ToStructed(t, key).value.value;
    forall j | 0 <= j < |v.items|
      ensures ToStructed(t.body.items[j], None) == Ok(v.items[j]) && v.items[j].key == None
    {
      ToStructedKeyAndType(t.body.items[j], None);
    }
  }

  /** Compound children appear in property order, each keyed by its name. */
  lemma CompoundConversion(t: LibTag, key: Option<string>)
    requires t.body.LCompound? && ToStructed(t, key).Ok?
    ensures var v := ToStructed(t, key).value.value;
      && v.CompoundValue?
      && |v.entries| == |t.body.entries|
      && forall j | 0 <= j < |v.entries| ::
           var e := t.body.entries[j];
           ToStructed(e.tag, Some(e.name)) == Ok(v.entries[j]) && v.entries[j].key == Some(e.name)
  {
    EntriesFromFacts(t, 0);
    var v := ToStructed(t, key).value.value;
    forall j | 0 <= j < |v.entries|
      ensures var e := t.body.entries[j];
        ToStructed(e.tag, Some(e.name)) == Ok(v.entries[j]) && v.entries[j].key == Some(e.name)
    {
      var e := t.body.entries[j];
      ToStructedKeyAndType(e.tag, Some(e.name));
    }
  }

  /** The root holds one tag per root property, in order, keyed by its name. */
  lemma RootConversion(nbt: LibNbt)
    requires ToStructedRoot(nbt).Ok?
    ensures |ToStructedRoot(nbt).value| == |nbt.root|
    ensures forall j | 0 <= j < |nbt.root| ::
      && ToStructed(nbt.root[j].tag, Some(nbt.root[j].name)) == Ok(ToStructedRoot(nbt).value[j])
      && ToStructedRoot(nbt).value[j].key == Some(nbt.root[j].name)
  {
    RootFromFacts(nbt.root, 0);
    forall j | 0 <= j < |nbt.root|
      ensures ToStructedRoot(nbt).value[j].key == Some(nbt.root[j].name)
    {
      ToStructedKeyAndType(nbt.root[j].tag, Some(nbt.root[j].name));
    }
  }

  /** Conversion fails exactly when some nested tag has a type id outside
      0..11; the error then carries such an id, as its type `UnknownTypeId`
      guarantees. */
  lemma {:induction false} ToStructedOkIffRecognised(t: LibTag, key: Option<string>)
    ensures ToStructed(t, key).Ok? <==> Recognised(t)
    decreases t
  {
    match t.body {
      case LList(_, items) =>
        ItemsFromFacts(t, 0);
        forall j | 0 <= j < |items|
          ensures ToStructed(items[j], None).Ok? <==> Recognised(items[j])
        {
          ToStructedOkIffRecognised(items[j], None);
        }
      case LCompound(entries) =>
        EntriesFromFacts(t, 0);
        forall j | 0 <= j < |entries|
          ensures ToStructed(entries[j].tag, Some(entries[j].name)).Ok? <==> Recognised(entries[j].tag)
        {
          ToStructedOkIffRecognised(entries[j].tag, Some(entries[j].name));
        }
      case _ =>
    }
  }
}

=== FILE: mcnbt.dfy ===
/** The NBT library's in-memory tag objects, as far as the editor touches
    them: a type id, the `id` name field, the payload, a list's `childType`
    string, and a compound's or document root's named properties in
    insertion order. The byte-level reader, writer and zlib layer belong to
    the library and are not modelled. */
module Mcnbt {
  import opened Wrappers
  import opened StructedNbt

  datatype LibTag = LibTag(id: Option<string>, body: LibBody)

  datatype LibBody =
    | LEnd
    | LByte(n: int)
    | LShort(n: int)
    | LInt(n: int)
    | LLong(n: int)
    | LFloat(f: Fp)
    | LDouble(f: Fp)
    | LByteArray(elems: seq<int>)
    | LString(s: string)
    | LList(childType: string, items: seq<LibTag>)
    | LCompound(entries: seq<Entry>)
    | LIntArray(elems: seq<int>)
      /** A tag whose type id is none of the twelve the editor has a case for. */
    | LUnknown(typeId: UnknownTypeId)

  /** A type id outside 0..11. */
  type UnknownTypeId = n: int | n < 0 || 12 <= n witness 12

  /** A named property of a compound or of the document root. */
  datatype Entry = Entry(name: string, tag: LibTag)

  /** A library document: its root properties in insertion order. */
  datatype LibNbt = LibNbt(root: seq<Entry>)

  /** `getTypeId()` */
  function TypeIdOf(b: LibBody): int
  {
    match b
    case LEnd => 0
    case LByte(_) => 1
    case LShort(_) => 2
    case LInt(_) => 3
    case LLong(_) => 4
    case LFloat(_) => 5
    case LDouble(_) => 6
    case LByteArray(_) => 7
    case LString(_) => 8
    case LList(_, _) => 9
    case LCompound(_) => 10
    case LIntArray(_) => 11
    case LUnknown(n) => n
  }

  /** The library's own name for a tag type, as held in a list's
      `childType`: "TAG_" and the type name with each word capitalised
      ("TAG_Byte", "TAG_Byte_Array", ...). */
  function LibraryTypeName(t: TagType): string
  {
    "TAG_" + Capitalised(TypeName(t))
  }

  function UpperChar(c: char): char
  {
    if 'a' <= c <= 'z' then (c as int - 32) as char else c
  }

  /** Upper-cases the first letter and every letter after an underscore. */
  function Capitalised(s: string): (r: string)
    ensures |r| == |s|
  {
    seq(|s|, i requires 0 <= i < |s| => if i == 0 || s[i - 1] == '_' then UpperChar(s[i]) else s[i])
  }

  // ------------------------------------------------- properties of objects

  /** The property name `obj[key]` uses: an absent key becomes "undefined". */
  function PropertyKey(key: Option<string>): string
  {
    match key
    case Some(k) => k
    case None => "undefined"
  }

  function Names(es: seq<Entry>): (ns: seq<string>)
    ensures |ns| == |es|
    ensures forall i | 0 <= i < |es| :: ns[i] == es[i].name
  {
    seq(|es|, i requires 0 <= i < |es| => es[i].name)
  }

  predicate DistinctNames(es: seq<Entry>)
  {
    forall i, j | 0 <= i < j < |es| :: es[i].name != es[j].name
  }

  /** `obj[name]`: the first property with that name. */
  function Lookup(es: seq<Entry>, name: string): (r: Option<LibTag>)
    ensures r.Some? <==> name in Names(es)
    decreases |es|
  {
    if es == [] then None
    else if es[0].name == name then Some(es[0].tag)
    else
      assert Names(es) == [es[0].name] + Names(es[1..]);
      Lookup(es[1..], name)
  }

  /** `obj[name] = t`: an existing property keeps its place and takes the
      new value; a new one is appended. */
  function SetProp(es: seq<Entry>, name: string, t: LibTag): (r: seq<Entry>)
    decreases |es|
  {
    if es == [] then [Entry(name, t)]
    else if es[0].name == name then [Entry(name, t)] + es[1..]
    else [es[0]] + SetProp(es[1..], name, t)
  }

  /** After `obj[name] = t`, reading `name` gives `t` and every other name
      reads as before. */
  lemma {:induction false} SetPropLookup(es: seq<Entry>, name: string, t: LibTag, other: string)
    ensures Lookup(SetProp(es, name, t), name) == Some(t)
    ensures other != name ==> Lookup(SetProp(es, name, t), other) == Lookup(es, other)
    decreases |es|
  {
    if es != [] && es[0].name != name {
      SetPropLookup(es[1..], name, t, other);
      assert SetProp(es, name, t)[1..] == SetProp(es[1..], name, t);
    }
  }

  /** An assignment to a present name keeps the order of names; a new name
      goes last. */
  lemma {:induction false} SetPropNames(es: seq<Entry>, name: string, t: LibTag)
    ensures name in Names(es) ==> Names(SetProp(es, name, t)) == Names(es)
    ensures name !in Names(es) ==> Names(SetProp(es, name, t)) == Names(es) + [name]
    decreases |es|
  {
    if es != [] {
      var rest := es[1..];
      var r := SetProp(es, name, t);
      assert es == [es[0]] + rest;
      NamesConcat([es[0]], rest);
      if es[0].name != name {
        var r' := SetProp(rest, name, t);
        assert r == [es[0]] + r';
        SetPropNames(rest, name, t);
        NamesConcat([es[0]], r');
        assert name in Names(es) <==> name in Names(rest);
        assert [es[0].name] + (Names(rest) + [name]) == ([es[0].name] + Names(rest)) + [name];
      } else {
        assert r == [Entry(name, t)] + rest;
        NamesConcat([Entry(name, t)], rest);
      }
    }
  }

  /** The names of two runs of properties are the names of each, in order. */
  lemma NamesConcat(a: seq<Entry>, b: seq<Entry>)
    ensures Names(a + b) == Names(a) + Names(b)
  {
  }

  /** Assigning a name not yet present appends one property. */
  lemma {:induction false} SetPropNew(es: seq<Entry>, name: string, t: LibTag)
    requires name !in Names(es)
    ensures SetProp(es, name, t) == es + [Entry(name, t)]
    decreases |es|
  {
    if es != [] {
      assert Names(es) == [es[0].name] + Names(es[1..]);
      SetPropNew(es[1..], name, t);
      assert es == [es[0]] + es[1..];
    }
  }

  /** Every property after an assignment was there before or is the new one. */
  lemma {:induction false} SetPropEntries(es: seq<Entry>, name: string, t: LibTag)
    ensures forall e | e in SetProp(es, name, t) :: e in es || e == Entry(name, t)
    decreases |es|
  {
    if es != [] && es[0].name != name {
      SetPropEntries(es[1..], name, t);
      assert forall e | e in es[1..] :: e in es;
    } else if es != [] {
      assert forall e | e in es[1..] :: e in es;
    }
  }

  /** Property names stay pairwise distinct under assignment. */
  lemma SetPropDistinct(es: seq<Entry>, name: string, t: LibTag)
    requires DistinctNames(es)
    ensures DistinctNames(SetProp(es, name, t))
  {
    SetPropNames(es, name, t);
    var r := SetProp(es, name, t);
    var ns := Names(r);
    forall i, j | 0 <= i < j < |r|
      ensures r[i].name != r[j].name
    {
      assert ns[i] == r[i].name && ns[j] == r[j].name;
      if name !in Names(es) && j == |es| {
        assert ns[i] == Names(es)[i];
      } else {
        assert ns[i] == Names(es)[i] && ns[j] == Names(es)[j];
      }
    }
  }

  /** With distinct names, the property at position i reads back by its name. */
  lemma {:induction false} LookupDistinct(es: seq<Entry>, i: nat)
    requires DistinctNames(es) && i < |es|
    ensures Lookup(es, es[i].name) == Some(es[i].tag)
    decreases |es|
  {
    if i > 0 {
      LookupDistinct(es[1..], i - 1);
    }
  }
}

=== FILE: metapanel.dfy ===
/** The scalar panel (src/renderer/Component/NodeDataPanel/MetaTypePanel.tsx):
    the value it shows, its `modified` flag, and `submit`, which may rename
    the tag, writes the value into the tag or the parent array, and bumps
    the modify version. */
module MetaTypePanel {
  import opened Wrappers
  import opened JsText
  import opened StructedNbt
  import opened DataNodes
  import opened RendererBus
  import opened PanelNodes

  /** What a value input hands back: the integer inputs a number, the float
      inputs a float, the Long, String and plain inputs text. */
  datatype Entry = NumberEntry(n: int) | FloatEntry(f: Fp) | TextEntry(s: string)

  /** `${value}` of an entry. */
  function EntryText(e: Entry): string
  {
    match e
    case NumberEntry(n) => IntToString(n)
    case FloatEntry(f) => f.text
    case TextEntry(s) => s
  }

  /** The entry the input shown for a value of type `t` produces. */
  predicate EntryFits(t: TagType, e: Entry)
  {
    match t
    case Byte => e.NumberEntry?
    case Short => e.NumberEntry?
    case Int => e.NumberEntry?
    case Float => e.FloatEntry?
    case Double => e.FloatEntry?
    case Long => e.TextEntry?
    case String => e.TextEntry?
    case _ => false
  }

  /** The tag value after `structedTag.value = value`. */
  function WithEntry(v: Value, e: Entry): (w: Value)
    requires EntryFits(TypeOf(v), e)
    ensures TypeOf(w) == TypeOf(v)
  {
    match v
    case ByteValue(_) => ByteValue(e.n)
    case ShortValue(_) => ShortValue(e.n)
    case IntValue(_) => IntValue(e.n)
    case FloatValue(_) => FloatValue(e.f)
    case DoubleValue(_) => DoubleValue(e.f)
    case LongValue(_) => LongValue(e.s)
    case StringValue(_) => StringValue(e.s)
  }

  /** `${value}` of a tag value: arrays print their elements joined by
      commas, a tag object prints as "[object Object]", null as "null". */
  function ValueText(v: Value): string
  {
    match v
    case EndValue => "null"
    case ByteValue(n) => IntToString(n)
    case ShortValue(n) => IntToString(n)
    case IntValue(n) => IntToString(n)
    case LongValue(t) => t
    case FloatValue(f) => f.text
    case DoubleValue(f) => f.text
    case StringValue(s) => s
    case ByteArrayValue(es) => Join(seq(|es|, j requires 0 <= j < |es| => IntToString(es[j])), ',')
    case IntArrayValue(es) => Join(seq(|es|, j requires 0 <= j < |es| => IntToString(es[j])), ',')
    case ListValue(_, items) => Join(seq(|items|, _ => "[object Object]"), ',')
    case CompoundValue(entries) => Join(seq(|entries|, _ => "[object Object]"), ',')
  }

  /** An entry prints as the value it would write prints. */
  lemma EntryTextOfWrite(v: Value, e: Entry)
    requires EntryFits(TypeOf(v), e)
    ensures ValueText(WithEntry(v, e)) == EntryText(e)
  {
  }

  /** Writing an entry that prints as the current value changes nothing:
      skipping the write on equal text loses no edit. */
  lemma EqualTextSameValue(v: Value, e: Entry)
    requires EntryFits(TypeOf(v), e)
    ensures EntryText(e) == ValueText(v) <==> WithEntry(v, e) == v
  {
    if EntryText(e) == ValueText(v) && e.NumberEntry? {
      IntToStringInjective(e.n, v.n);
    }
  }

  /** The value the form starts from. */
  datatype Shown = ShownValue(v: Value) | ShownNumber(n: int) | ShownUndefined

  function ShownText(s: Shown): string
  {
    match s
    case ShownValue(v) => ValueText(v)
    case ShownNumber(n) => IntToString(n)
    case ShownUndefined => "undefined"
  }

  /** The index of the first tag whose key is `key`. */
  function FirstKeyed(tags: seq<Tag>, key: Option<string>): (r: Option<nat>)
    ensures r.Some? ==> r.value < |tags| && tags[r.value].key == key
    ensures r.Some? ==> forall j | 0 <= j < r.value :: tags[j].key != key
    ensures r.None? ==> forall j | 0 <= j < |tags| :: tags[j].key != key
  {
    if |tags| == 0 then None
    else if tags[0].key == key then Some(0)
    else match FirstKeyed(tags[1..], key)
      case None => None
      case Some(j) => Some(j + 1)
  }

  /** The initial value: the parent array's element at a numeric key, or the
      first sibling whose key is the node's key; a tag stands for its value. */
  function InitialValue(root: Root, n: PanelNode): Shown
    requires ValidNode(root, n)
  {
    if n.own.None? then ShownNumber(Elements(TagAt(root, n.parent))[n.keyInParent.i])
    else
      var tags := ChildrenAt(root, n.parent);
      match n.keyInParent
      case IdxKey(k) => if 0 <= k < |tags| then ShownValue(tags[k].value) else ShownUndefined
      case StrKey(s) => ShownFirst(tags, Some(s))
      case NoKey => ShownFirst(tags, None)
  }

  function ShownFirst(tags: seq<Tag>, key: Option<string>): Shown
  {
    match FirstKeyed(tags, key)
    case Some(j) => ShownValue(tags[j].value)
    case None => ShownUndefined
  }

  /** The panel shows the node's own value when its key leads back to its
      own tag: a list item by its index, a named tag among uniquely named
      siblings by its name, and an array element always. */
  lemma InitialValueIsOwn(root: Root, n: PanelNode)
    requires ValidNode(root, n)
    requires n.own.Some? ==>
      || n.keyInParent == IdxKey(n.own.value)
      || (n.keyInParent.StrKey? && OwnTag(root, n).key == Some(n.keyInParent.s)
          && UniqueKeys(ChildrenAt(root, n.parent)))
    ensures n.own.Some? ==> InitialValue(root, n) == ShownValue(OwnTag(root, n).value)
    ensures n.own.None? ==>
      InitialValue(root, n) == ShownNumber(Elements(TagAt(root, n.parent))[n.keyInParent.i])
  {
    if n.own.Some? && n.keyInParent.StrKey? && n.keyInParent != IdxKey(n.own.value) {
      var tags := ChildrenAt(root, n.parent);
      var j := FirstKeyed(tags, Some(n.keyInParent.s)).value;
    }
  }

  /** The display tree keys a compound's children by position ("0", "1",
      ...); when no sibling is named like that position the panel starts
      from `undefined`. */
  lemma CompoundChildShowsUndefined(root: Root, n: PanelNode, j: nat)
    requires ValidNode(root, n) && n.own == Some(j) && n.keyInParent == StrKey(IntToString(j))
    requires !KeyTaken(ChildrenAt(root, n.parent), IntToString(j))
    ensures InitialValue(root, n) == ShownUndefined
  {
    var tags := ChildrenAt(root, n.parent);
    var r := FirstKeyed(tags, Some(IntToString(j)));
  }

  /** `modified`: the key or the printed value differs from the initial one. */
  predicate Modified(root: Root, n: PanelNode, formKey: Key, entry: Entry)
    requires ValidNode(root, n)
  {
    formKey != n.keyInParent || EntryText(entry) != ShownText(InitialValue(root, n))
  }

  /** What the form can hold: the key input is disabled for an index key and
      otherwise yields text; the value input matches the value's type, and an
      array element's input is a number. */
  predicate FormFits(root: Root, n: PanelNode, formKey: Key, entry: Entry)
  {
    && ValidNode(root, n)
    && (formKey == n.keyInParent || (formKey.StrKey? && !n.keyInParent.IdxKey?))
    && (n.own.Some? ==> EntryFits(TypeOf(OwnTag(root, n).value), entry))
    && (n.own.None? ==> entry.NumberEntry?)
  }

  /** `submit`: the outcome and the root afterwards. */
  function MetaSubmit(root: Root, n: PanelNode, formKey: Key, entry: Entry): (r: (Outcome, Root))
    requires FormFits(root, n, formKey, entry)
  {
    if Renames(n, formKey) && KeyTaken(ParentTags(root, n), formKey.s) then
      (Rejected(AlreadyExists(formKey.s)), root)
    else
      var renamed := if Renames(n, formKey) then ReplaceOwn(root, n, Tag(Some(formKey.s), OwnTag(root, n).value)) else root;
      if EntryText(entry) == ShownText(InitialValue(root, n)) then (Applied, renamed)
      else if n.own.Some? then
        var t := OwnTag(renamed, n);
        (Applied, ReplaceOwn(renamed, n, Tag(t.key, WithEntry(t.value, entry))))
      else
        var es := Elements(TagAt(renamed, n.parent));
        (Applied, ReplaceElements(renamed, n, es[n.keyInParent.i := entry.n]))
  }

  /** `submit` against the Bus: the root becomes the one `MetaSubmit`
      describes and the version goes up by one exactly when it applies. */
  method SubmitMeta(bus: Bus, n: PanelNode, formKey: Key, entry: Entry) returns (outcome: Outcome)
    requires FormFits(bus.root, n, formKey, entry)
    modifies bus
    ensures (outcome, bus.root) == MetaSubmit(old(bus.root), n, formKey, entry)
    ensures bus.currentModifyVersion == old(bus.currentModifyVersion) + (if outcome.Applied? then 1 else 0)
    ensures bus.currentFileUUID == old(bus.currentFileUUID) && bus.currentFilename == old(bus.currentFilename)
    ensures bus.selectedNode == old(bus.selectedNode)
  {
    var init := InitialValue(bus.root, n);
    if Renames(n, formKey) {
      var taken := ScanForKey(ParentTags(bus.root, n), formKey.s);
      if taken {
        return Rejected(AlreadyExists(formKey.s));
      }
      bus.root := ReplaceOwn(bus.root, n, Tag(Some(formKey.s), OwnTag(bus.root, n).value));
    }
    if EntryText(entry) != ShownText(init) {
      if n.own.Some? {
        var t := OwnTag(bus.root, n);
        bus.root := ReplaceOwn(bus.root, n, Tag(t.key, WithEntry(t.value, entry)));
      } else {
        var es := Elements(TagAt(bus.root, n.parent));
        bus.root := ReplaceElements(bus.root, n, es[n.keyInParent.i := entry.n]);
      }
    }
    bus.currentModifyVersion := bus.currentModifyVersion + 1;
    return Applied;
  }

  /** A submit is refused exactly when it renames to a key a sibling holds,
      and a refused submit leaves the root as it was. */
  lemma MetaRejectsDuplicate(root: Root, n: PanelNode, formKey: Key, entry: Entry)
    requires FormFits(root, n, formKey, entry)
    ensures MetaSubmit(root, n, formKey, entry).0.Rejected? <==>
      Renames(n, formKey) && KeyTaken(ParentTags(root, n), formKey.s)
    ensures MetaSubmit(root, n, formKey, entry).0.Rejected? ==>
      MetaSubmit(root, n, formKey, entry) == (Rejected(AlreadyExists(formKey.s)), root)
  {
  }

  /** For a tag node that shows its own value, an applied submit replaces
      exactly its own tag: renamed if asked, holding the entered value; every
      sibling keeps its place and content, so does every tag apart from the
      node's, and unique keys stay unique. */
  lemma MetaAppliedTag(root: Root, n: PanelNode, formKey: Key, entry: Entry)
    requires FormFits(root, n, formKey, entry) && n.own.Some?
    requires InitialValue(root, n) == ShownValue(OwnTag(root, n).value)
    requires MetaSubmit(root, n, formKey, entry).0.Applied?
    ensures var after := MetaSubmit(root, n, formKey, entry).1;
      var t := OwnTag(root, n);
      && ValidNode(after, n)
      && ChildrenAt(after, n.parent) == ChildrenAt(root, n.parent)[n.own.value :=
           Tag(if Renames(n, formKey) then Some(formKey.s) else t.key, WithEntry(t.value, entry))]
      && (UniqueKeys(ChildrenAt(root, n.parent)) ==> UniqueKeys(ChildrenAt(after, n.parent)))
      && (forall q | ValidPath(root, q) && Apart(n.parent + [n.own.value], q) ::
            ValidPath(after, q) && TagAt(after, q) == TagAt(root, q))
  {
    var t := OwnTag(root, n);
    var i := n.own.value;
    var tags := ChildrenAt(root, n.parent);
    var newKey := if Renames(n, formKey) then Some(formKey.s) else t.key;
    EqualTextSameValue(t.value, entry);
    var after := MetaSubmit(root, n, formKey, entry).1;
    assert ChildrenAt(after, n.parent) == tags[i := Tag(newKey, WithEntry(t.value, entry))];
    if Renames(n, formKey) {
      ChecksFreeKey(tags, i, formKey.s);
    }
    if UniqueKeys(tags) {
      RenameKeepsUnique(tags, i, Tag(newKey, WithEntry(t.value, entry)));
    }
  }

  /** For an array element, submit always applies and sets just that
      element to the entered number; every tag apart from the array stays. */
  lemma MetaAppliedElement(root: Root, n: PanelNode, formKey: Key, entry: Entry)
    requires FormFits(root, n, formKey, entry) && n.own.None?
    ensures var r := MetaSubmit(root, n, formKey, entry);
      && r.0.Applied? && ValidNode(r.1, n)
      && Elements(TagAt(r.1, n.parent)) == Elements(TagAt(root, n.parent))[n.keyInParent.i := entry.n]
      && (forall q | ValidPath(root, q) && Apart(n.parent, q) :: ValidPath(r.1, q) && TagAt(r.1, q) == TagAt(root, q))
  {
    var es := Elements(TagAt(root, n.parent));
    if EntryText(entry) == IntToString(es[n.keyInParent.i]) {
      IntToStringInjective(entry.n, es[n.keyInParent.i]);
      assert es[n.keyInParent.i := entry.n] == es;
    }
  }

  /** Submitting an unmodified form applies and leaves the root as it was. */
  lemma MetaUnmodified(root: Root, n: PanelNode, formKey: Key, entry: Entry)
    requires FormFits(root, n, formKey, entry)
    requires !Modified(root, n, formKey, entry)
    ensures MetaSubmit(root, n, formKey, entry) == (Applied, root)
  {
  }
}

=== FILE: open.dfy ===
/** Opening a file in the main process (src/main/ipc/handler/open_nbt.ts):
    a plain load first, a zlib load only when that fails, and the plain
    load's error, prefixed, when both fail. The library's loaders and the
    open dialog are outcomes given as parameters. */
module OpenNbt {
  import opened Wrappers
  import opened StructedNbt
  import opened Mcnbt
  import opened Loader

  /** What the main process keeps about an opened file. */
  datatype NbtInfo = NbtInfo(filename: string, compressed: bool, nbt: LibNbt)

  /** A library file loader: the document read from the named file, or the
      message of the error it reported. */
  type FileLoader = string -> Result<LibNbt, string>

  datatype LoadAttempt = PlainLoad | ZlibLoad

  const BrokenFilePrefix: string := "[Broken File] "

  /** `parseFile`: `attempts` lists the loaders run, in order. */
  method ParseFile(filename: string, loadFromFile: FileLoader, loadFromZlibCompressedFile: FileLoader)
    returns (r: Result<NbtInfo, string>, attempts: seq<LoadAttempt>)
    ensures |attempts| >= 1 && attempts[0] == PlainLoad
    ensures loadFromFile(filename).Ok? ==>
      && attempts == [PlainLoad]
      && r == Ok(NbtInfo(filename, false, loadFromFile(filename).value))
    ensures loadFromFile(filename).Err? ==> attempts == [PlainLoad, ZlibLoad]
    ensures loadFromFile(filename).Err? && loadFromZlibCompressedFile(filename).Ok? ==>
      r == Ok(NbtInfo(filename, true, loadFromZlibCompressedFile(filename).value))
    ensures loadFromFile(filename).Err? && loadFromZlibCompressedFile(filename).Err? ==>
      r == Err(BrokenFilePrefix + loadFromFile(filename).error)
  {
    var e: string := "";
    var compressed := false;
    var loaded: Option<LibNbt> := None;
    attempts := [PlainLoad];
    var plain := loadFromFile(filename);
    if plain.Ok? {
      loaded := Some(plain.value);
    } else {
      e := plain.error;
      attempts := attempts + [ZlibLoad];
      var zlib := loadFromZlibCompressedFile(filename);
      if zlib.Ok? {
        compressed := true;
        loaded := Some(zlib.value);
      }
    }
    if loaded.None? {
      r := Err(BrokenFilePrefix + e);
      return;
    }
    r := Ok(NbtInfo(filename, compressed, loaded.value));
  }

  /** The outcome of the open dialog; a chosen file comes with its first path apart. */
  datatype OpenDialog = OpenCanceled | OpenChosen(filePath: string, otherPaths: seq<string>)

  /** What the open request answers the renderer. */
  datatype OpenReply = Canceled | Opened(filePath: string, otherPaths: seq<string>, root: Root)

  /** `handle` of the open request: a cancelled dialog answers without any
      load; otherwise the first chosen file is parsed and converted, and a
      failure of either step is the request's error. */
  method OpenHandle(dialog: OpenDialog, loadFromFile: FileLoader, loadFromZlibCompressedFile: FileLoader)
    returns (r: Result<OpenReply, string>, attempts: seq<LoadAttempt>)
    ensures dialog.OpenCanceled? ==> r == Ok(Canceled) && attempts == []
    ensures dialog.OpenChosen? ==> |attempts| >= 1 && attempts[0] == PlainLoad
    ensures r.Ok? && r.value.Opened? ==> dialog.OpenChosen?
    ensures (dialog.OpenChosen? && loadFromFile(dialog.filePath).Err?
             && loadFromZlibCompressedFile(dialog.filePath).Err?) ==>
      r == Err(BrokenFilePrefix + loadFromFile(dialog.filePath).error)
    ensures dialog.OpenChosen? && loadFromFile(dialog.filePath).Ok? ==>
      var converted := ToStructedRoot(loadFromFile(dialog.filePath).value);
      && (converted.Ok? ==> r == Ok(Opened(dialog.filePath, dialog.otherPaths, converted.value)))
      && (converted.Err? ==> r == Err(LoadErrorMessage(converted.error)))
    ensures (dialog.OpenChosen? && loadFromFile(dialog.filePath).Err?
             && loadFromZlibCompressedFile(dialog.filePath).Ok?) ==>
      var converted := ToStructedRoot(loadFromZlibCompressedFile(dialog.filePath).value);
      && (converted.Ok? ==> r == Ok(Opened(dialog.filePath, dialog.otherPaths, converted.value)))
      && (converted.Err? ==> r == Err(LoadErrorMessage(converted.error)))
  {
    if dialog.OpenCanceled? {
      return Ok(Canceled), [];
    }
    var parsed;
    parsed, attempts := ParseFile(dialog.filePath, loadFromFile, loadFromZlibCompressedFile);
    if parsed.Err? {
      return Err(parsed.error), attempts;
    }
    var structed := NbtToStructedRoot(parsed.value.nbt);
    if structed.Err? {
      return Err(LoadErrorMessage(structed.error)), attempts;
    }
    r := Ok(Opened(dialog.filePath, dialog.otherPaths, structed.value));
  }
}

=== FILE: panelnodes.dfy ===
/** What the node-data panels share: where the selected node's tag lives in
    the structured root, the sibling-key checks, and the outcome of a submit.
    An edit the panels make in place on a shared tag object is modelled as
    rewriting the root at that tag's path. */
module PanelNodes {
  import opened Wrappers
  import opened JsText
  import opened StructedNbt
  import opened DataNodes

  /** The selected node as a panel sees it: its `keyInParent`, the path of
      its `parentStructedTag` (`[]` for the root array) and, for a node built
      from a tag, the index of its `structedTag` among the parent's tags;
      `None` for an element of a byte or int array. */
  datatype PanelNode = PanelNode(keyInParent: Key, parent: seq<nat>, own: Option<nat>)

  /** What a submit ends in: applied, or stopped with the message shown. */
  datatype Outcome = Applied | Rejected(message: string)

  predicate IsNumberArray(t: Tag) { t.value.ByteArrayValue? || t.value.IntArrayValue? }

  /** The numbers of a byte or int array tag. */
  function Elements(t: Tag): seq<int>
  {
    match t.value
    case ByteArrayValue(es) => es
    case IntArrayValue(es) => es
    case _ => []
  }

  /** `t` with its numbers replaced; key and type stay. */
  function WithElements(t: Tag, es: seq<int>): (u: Tag)
    ensures u.key == t.key && TypeOf(u.value) == TypeOf(t.value)
    ensures IsNumberArray(t) ==> Elements(u) == es
  {
    match t.value
    case ByteArrayValue(_) => Tag(t.key, ByteArrayValue(es))
    case IntArrayValue(_) => Tag(t.key, IntArrayValue(es))
    case _ => t
  }

  /** The node still points into the root: a tag node at an index of its
      parent's tags, an element node at an index of its array. */
  predicate ValidNode(root: Root, n: PanelNode)
  {
    match n.own
    case Some(i) => ValidParent(root, n.parent) && i < |ChildrenAt(root, n.parent)|
    case None =>
      && ValidPath(root, n.parent)
      && IsNumberArray(TagAt(root, n.parent))
      && n.keyInParent.IdxKey?
      && 0 <= n.keyInParent.i < |Elements(TagAt(root, n.parent))|
  }

  /** The tags a panel scans for a clashing key: the parent's tags; an
      array's numbers carry no key, so an element node has none. */
  function ParentTags(root: Root, n: PanelNode): seq<Tag>
    requires ValidNode(root, n)
  {
    if n.own.Some? then ChildrenAt(root, n.parent) else []
  }

  /** The node's own `structedTag`. */
  function OwnTag(root: Root, n: PanelNode): Tag
    requires ValidNode(root, n) && n.own.Some?
  {
    ChildrenAt(root, n.parent)[n.own.value]
  }

  /** The root with the node's own tag replaced by `t`: exactly that sibling
      changes, the node keeps pointing at it, and every tag apart from it
      stays where it was. */
  function ReplaceOwn(root: Root, n: PanelNode, t: Tag): (r: Root)
    requires ValidNode(root, n) && n.own.Some?
    ensures ValidNode(r, n)
    ensures ChildrenAt(r, n.parent) == ChildrenAt(root, n.parent)[n.own.value := t]
    ensures OwnTag(r, n) == t
    ensures forall q | ValidPath(root, q) && Apart(n.parent + [n.own.value], q) ::
      ValidPath(r, q) && TagAt(r, q) == TagAt(root, q)
  {
    ReplaceSibling(root, n.parent, n.own.value, t);
    ReplaceAt(root, n.parent + [n.own.value], t)
  }

  /** Putting the node's own tag back changes nothing. */
  lemma ReplaceOwnSame(root: Root, n: PanelNode)
    requires ValidNode(root, n) && n.own.Some?
    ensures ReplaceOwn(root, n, OwnTag(root, n)) == root
  {
    ReplaceSibling(root, n.parent, n.own.value, OwnTag(root, n));
    ReplaceAtSame(root, n.parent + [n.own.value]);
  }

  /** The root with the numbers of an element node's array replaced; every
      tag apart from the array stays where it was. */
  function ReplaceElements(root: Root, n: PanelNode, es: seq<int>): (r: Root)
    requires ValidNode(root, n) && n.own.None?
    requires |es| == |Elements(TagAt(root, n.parent))|
    ensures ValidNode(r, n)
    ensures Elements(TagAt(r, n.parent)) == es
    ensures TagAt(r, n.parent).key == TagAt(root, n.parent).key
    ensures forall q | ValidPath(root, q) && Apart(n.parent, q) ::
      ValidPath(r, q) && TagAt(r, q) == TagAt(root, q)
  {
    TagAtReplaceAt(root, n.parent, WithElements(TagAt(root, n.parent), es));
    ReplaceAtFrame(root, n.parent, WithElements(TagAt(root, n.parent), es));
    ReplaceAt(root, n.parent, WithElements(TagAt(root, n.parent), es))
  }

  // ------------------------------------------------------------ key checks

  /** Some tag already carries the key `k` (`tag.key === k`). */
  predicate KeyTaken(tags: seq<Tag>, k: string)
  {
    exists j | 0 <= j < |tags| :: tags[j].key == Some(k)
  }

  /** The duplicate scan a rename makes over the parent's tags. */
  method ScanForKey(tags: seq<Tag>, k: string) returns (taken: bool)
    ensures taken <==> KeyTaken(tags, k)
  {
    var j := 0;
    while j < |tags|
      invariant 0 <= j <= |tags|
      invariant forall m | 0 <= m < j :: tags[m].key != Some(k)
    {
      if tags[j].key == Some(k) {
        return true;
      }
      j := j + 1;
    }
    return false;
  }

  /** The form renames the tag: a text key other than the initial one. */
  predicate Renames(n: PanelNode, formKey: Key)
  {
    formKey.StrKey? && formKey != n.keyInParent
  }

  /** The message of a rename onto a key a sibling holds. */
  function AlreadyExists(k: string): string
  {
    "Key " + k + " already exists."
  }

  /** `${tag.key}`: a list item's missing key prints as "undefined". */
  function TagKeyText(t: Tag): string
  {
    match t.key
    case Some(s) => s
    case None => "undefined"
  }

  /** Another tag than the node's own prints its key as `value` prints. */
  predicate KeyClash(tags: seq<Tag>, own: nat, value: Key)
  {
    exists j | 0 <= j < |tags| :: j != own && TagKeyText(tags[j]) == KeyText(value)
  }

  const KeyExistsMessage: string := "Key already exists."

  /** The key validator of the list and compound panels. */
  method ValidateSiblingKey(tags: seq<Tag>, own: nat, value: Key) returns (error: Option<string>)
    ensures error.Some? <==> KeyClash(tags, own, value)
    ensures error.Some? ==> error.value == KeyExistsMessage
  {
    var text := KeyText(value);
    for j := 0 to |tags|
      invariant forall m | 0 <= m < j :: m == own || TagKeyText(tags[m]) != text
    {
      if TagKeyText(tags[j]) == text && j != own {
        return Some(KeyExistsMessage);
      }
    }
    return None;
  }

  /** No key is carried by two tags (keyless list items aside). */
  predicate UniqueKeys(tags: seq<Tag>)
  {
    forall a, b | 0 <= a < b < |tags| :: tags[a].key.Some? ==> tags[a].key != tags[b].key
  }

  /** No tag other than the i-th carries the key `k`. */
  predicate KeyFreeExcept(tags: seq<Tag>, i: nat, k: string)
  {
    forall j | 0 <= j < |tags| && j != i :: tags[j].key != Some(k)
  }

  /** Both duplicate checks leave the new key free among the others. */
  lemma ChecksFreeKey(tags: seq<Tag>, i: nat, k: string)
    ensures !KeyTaken(tags, k) ==> KeyFreeExcept(tags, i, k)
    ensures !KeyClash(tags, i, StrKey(k)) ==> KeyFreeExcept(tags, i, k)
  {
    if !KeyClash(tags, i, StrKey(k)) {
      forall j | 0 <= j < |tags| && j != i
        ensures tags[j].key != Some(k)
      {
        assert TagKeyText(tags[j]) != k;
      }
    }
  }

  /** Giving one tag a key no other tag carries keeps keys unique. */
  lemma RenameKeepsUnique(tags: seq<Tag>, i: nat, t: Tag)
    requires UniqueKeys(tags) && i < |tags|
    requires t.key.None? || KeyFreeExcept(tags, i, t.key.value)
    ensures UniqueKeys(tags[i := t])
  {
    var r := tags[i := t];
    forall a, b | 0 <= a < b < |r| && r[a].key.Some?
      ensures r[a].key != r[b].key
    {
      if a == i {
        assert r[b] == tags[b];
      } else if b == i {
        assert r[a] == tags[a];
      }
    }
  }
}

=== FILE: save.dfy ===
/** Saving in the main process (src/main/ipc/handler/save_nbt.ts): the
    structured tree is rebuilt as library tag objects, encoded plainly or
    zlib-compressed according to how the file was opened, written, and
    read back for the renderer. Encoders, the file system and the save
    dialog are outcomes given as parameters. */
module SaveNbt {
  import opened Wrappers
  import opened JsText
  import opened StructedNbt
  import opened Mcnbt
  import opened Loader
  import opened OpenNbt

  datatype BuildError =
      /** `Unknown tag type: <type>`, thrown for a type `buildTag` has no case for. */
    | UnknownTagType(typeName: string)
      /** A long whose text the library cannot take as a 64-bit integer. */
    | InvalidLong(text: string)

  // ------------------------------------------------------- specification

  /** `buildTag(node)`: a library tag named by the node's key. */
  function BuildTagSpec(t: Tag): Result<LibTag, BuildError>
    decreases t, 1, 0
  {
    match t.value
    case ByteValue(n) => Ok(LibTag(t.key, LByte(n)))
    case ShortValue(n) => Ok(LibTag(t.key, LShort(n)))
    case IntValue(n) => Ok(LibTag(t.key, LInt(n)))
    case LongValue(text) =>
      if IsDecimalLiteral(text) then Ok(LibTag(t.key, LLong(DecimalValue(text)))) else Err(InvalidLong(text))
    case FloatValue(f) => Ok(LibTag(t.key, LFloat(f)))
    case DoubleValue(f) => Ok(LibTag(t.key, LDouble(f)))
    case ByteArrayValue(elems) => Ok(LibTag(t.key, LByteArray(elems)))
    case StringValue(s) => Ok(LibTag(t.key, LString(s)))
    case ListValue(ct, items) =>
      (match BuiltItemsFrom(items, 0)
       case Ok(built) => Ok(LibTag(t.key, LList(ct, built)))
       case Err(e) => Err(e))
    case CompoundValue(entries) =>
      (match BuildPropsFrom(entries, [], 0)
       case Ok(props) => Ok(LibTag(t.key, LCompound(props)))
       case Err(e) => Err(e))
    case IntArrayValue(elems) => Ok(LibTag(t.key, LIntArray(elems)))
    case EndValue => Err(BuildError.UnknownTagType(TypeName(End)))
  }

  /** The built list elements from position i on. */
  function BuiltItemsFrom(items: seq<Tag>, i: nat): Result<seq<LibTag>, BuildError>
    decreases items, 0, |items| - i
  {
    if i >= |items| then Ok([])
    else match BuildTagSpec(items[i])
      case Err(e) => Err(e)
      case Ok(b) => Prepend([b], BuiltItemsFrom(items, i + 1))
  }

  /** Assigns each built tag from position i on to the property named by its
      key, starting from the properties `acc`: a later tag with a key
      already present replaces the earlier one in place. */
  function BuildPropsFrom(tags: seq<Tag>, acc: seq<Entry>, i: nat): Result<seq<Entry>, BuildError>
    decreases tags, 0, |tags| - i
  {
    if i >= |tags| then Ok(acc)
    else match BuildTagSpec(tags[i])
      case Err(e) => Err(e)
      case Ok(b) => BuildPropsFrom(tags, SetProp(acc, PropertyKey(b.id), b), i + 1)
  }

  /** The document `buildNBTBuffer` fills: each root tag under its `id`. */
  function BuildRootSpec(root: Root): Result<LibNbt, BuildError>
  {
    match BuildPropsFrom(root, [], 0)
    case Ok(props) => Ok(LibNbt(props))
    case Err(e) => Err(e)
  }

  // --------------------------------------------------------------- methods

  /** `buildTag`: a switch on the type whose list case pushes built elements
      and whose compound case assigns built children by key. */
  method BuildTag(node: Tag) returns (r: Result<LibTag, BuildError>)
    ensures r == BuildTagSpec(node)
    decreases node
  {
    match node.value {
      case ListValue(ct, items) =>
        var built: seq<LibTag> := [];
        var i := 0;
        while i < |items|
          invariant 0 <= i <= |items|
          invariant BuiltItemsFrom(items, 0) == Prepend(built, BuiltItemsFrom(items, i))
        {
          var b := BuildTag(items[i]);
          if b.Err? {
            return Err(b.error);
          }
          PrependTwice(built, [b.value], BuiltItemsFrom(items, i + 1));
          built := built + [b.value];
          i := i + 1;
        }
        r := Ok(LibTag(node.key, LList(ct, built)));
      case CompoundValue(entries) =>
        var props: seq<Entry> := [];
        var i := 0;
        while i < |entries|
          invariant 0 <= i <= |entries|
          invariant BuildPropsFrom(entries, [], 0) == BuildPropsFrom(entries, props, i)
        {
          var b := BuildTag(entries[i]);
          if b.Err? {
            return Err(b.error);
          }
          props := SetProp(props, PropertyKey(b.value.id), b.value);
          i := i + 1;
        }
        r := Ok(LibTag(node.key, LCompound(props)));
      case _ =>
        r := BuildTagSpec(node);
    }
  }

  /** A library encoder: the bytes of a document, or its error message. */
  type BufferWriter = LibNbt -> Result<seq<bv8>, string>

  datatype SaveError =
    | Build(cause: BuildError)
    | EncodeFailed(message: string)
    | WriteFailed(message: string)
      /** Reading `openedInfo.filename` while no file is recorded. */
    | NoOpenedFile
    | Reload(loadError: LoadError)

  /** The outcome of `buildNBTBuffer`: the compressed encoder is used
      exactly when `compress` is set. */
  function BufferSpec(root: Root, compress: bool, writeToBuffer: BufferWriter,
                      writeToCompressedBuffer: BufferWriter): Result<(LibNbt, seq<bv8>), SaveError>
  {
    match BuildRootSpec(root)
    case Err(e) => Err(Build(e))
    case Ok(nbt) =>
      var encoded := if compress then writeToCompressedBuffer(nbt) else writeToBuffer(nbt);
      match encoded
      case Ok(bytes) => Ok((nbt, bytes))
      case Err(m) => Err(EncodeFailed(m))
  }

  /** `buildNBTBuffer`: fills a fresh document and encodes it. */
  method BuildNbtBuffer(root: Root, compress: bool, writeToBuffer: BufferWriter,
                        writeToCompressedBuffer: BufferWriter)
    returns (r: Result<(LibNbt, seq<bv8>), SaveError>)
    ensures r == BufferSpec(root, compress, writeToBuffer, writeToCompressedBuffer)
  {
    var props: seq<Entry> := [];
    var i := 0;
    while i < |root|
      invariant 0 <= i <= |root|
      invariant BuildPropsFrom(root, [], 0) == BuildPropsFrom(root, props, i)
    {
      var tag := BuildTag(root[i]);
      if tag.Err? {
        return Err(Build(tag.error));
      }
      props := SetProp(props, PropertyKey(tag.value.id), tag.value);
      i := i + 1;
    }
    var nbt := LibNbt(props);
    var encoded;
    if !compress {
      encoded := writeToBuffer(nbt);
    } else {
      encoded := writeToCompressedBuffer(nbt);
    }
    if encoded.Err? {
      return Err(EncodeFailed(encoded.error));
    }
    r := Ok((nbt, encoded.value));
  }

  /** The outcome of the save dialog. */
  datatype SaveDialog = SaveCanceled | SaveChosen(filePath: string)

  /** `fs.writeFile`: None on success, else the error message. */
  type FileWriter = (string, seq<bv8>) -> Option<string>

  datatype SaveReply = CanceledSave | Saved(filename: string, root: Root)

  /** The file a save writes to. */
  function SaveTarget(info: NbtInfo, saveAs: bool, dialog: SaveDialog): string
  {
    if saveAs && dialog.SaveChosen? then dialog.filePath else info.filename
  }

  /** The main process's record of the opened file. */
  class MainBus {
    var openedInfo: Option<NbtInfo>

    /** Nothing is recorded when the main process starts. */
    constructor()
      ensures openedInfo == None
    {
      openedInfo := None;
    }

    /** `handle` of the save request. */
    method SaveHandle(root: Root, saveAs: bool, dialog: SaveDialog, writeToBuffer: BufferWriter,
                      writeToCompressedBuffer: BufferWriter, writeFile: FileWriter)
      returns (r: Result<SaveReply, SaveError>)
      modifies this
      ensures old(openedInfo).None? ==> r == Err(NoOpenedFile) && openedInfo == old(openedInfo)
      ensures old(openedInfo).Some? && saveAs && dialog.SaveCanceled? ==>
        r == Ok(CanceledSave) && openedInfo == old(openedInfo)
      ensures old(openedInfo).Some? && !(saveAs && dialog.SaveCanceled?) ==>
        var info := old(openedInfo).value;
        var target := SaveTarget(info, saveAs, dialog);
        match BufferSpec(root, info.compressed, writeToBuffer, writeToCompressedBuffer)
        case Err(e) => r == Err(e) && openedInfo == old(openedInfo)
        case Ok(built) =>
          if writeFile(target, built.1).Some? then
            r == Err(WriteFailed(writeFile(target, built.1).value)) && openedInfo == old(openedInfo)
          else
            && openedInfo == Some(NbtInfo(target, info.compressed, built.0))
            && r == (match ToStructedRoot(built.0)
                     case Ok(reloaded) => Ok(Saved(target, reloaded))
                     case Err(le) => Err(Reload(le)))
    {
      if openedInfo.None? {
        return Err(NoOpenedFile);
      }
      var filename := openedInfo.value.filename;
      if saveAs {
        if dialog.SaveCanceled? {
          return Ok(CanceledSave);
        }
        filename := dialog.filePath;
      }
      var built := BuildNbtBuffer(root, openedInfo.value.compressed, writeToBuffer, writeToCompressedBuffer);
      if built.Err? {
        return Err(built.error);
      }
      var written := writeFile(filename, built.value.1);
      if written.Some? {
        return Err(WriteFailed(written.value));
      }
      openedInfo := Some(openedInfo.value.(filename := filename, nbt := built.value.0));
      var reloaded := NbtToStructedRoot(built.value.0);
      if reloaded.Err? {
        return Err(Reload(reloaded.error));
      }
      r := Ok(Saved(filename, reloaded.value));
    }
  }
}

=== FILE: saveprops.dfy ===
/** What saving guarantees, and what it does not: keys become library
    names, a compound's or the root's later tag wins a repeated key, the
    encoder follows the recorded compression flag, and reading a saved tree
    back gives the tree with long texts normalised, list element keys
    dropped and every list's declared child type lost. */
module SaveProperties {
  import opened Wrappers
  import opened JsText
  import opened StructedNbt
  import opened Mcnbt
  import opened Loader
  import opened SaveNbt

  /** No end tag and no long text that is not a decimal literal anywhere in `t`. */
  predicate Buildable(t: Tag)
    decreases t
  {
    match t.value
    case EndValue => false
    case LongValue(text) => IsDecimalLiteral(text)
    case ListValue(_, items) => forall i | 0 <= i < |items| :: Buildable(items[i])
    case CompoundValue(es) => forall i | 0 <= i < |es| :: Buildable(es[i])
    case _ => true
  }

  lemma {:induction false} BuiltItemsFacts(items: seq<Tag>, i: nat)
    requires i <= |items|
    ensures BuiltItemsFrom(items, i).Ok? <==> forall j | i <= j < |items| :: BuildTagSpec(items[j]).Ok?
    ensures BuiltItemsFrom(items, i).Ok? ==>
      && |BuiltItemsFrom(items, i).value| == |items| - i
      && forall j | i <= j < |items| :: BuiltItemsFrom(items, i).value[j - i] == BuildTagSpec(items[j]).value
    decreases |items| - i
  {
    if i < |items| {
      BuiltItemsFacts(items, i + 1);
    }
  }

  lemma {:induction false} BuildPropsOk(tags: seq<Tag>, acc: seq<Entry>, i: nat)
    requires i <= |tags|
    ensures BuildPropsFrom(tags, acc, i).Ok? <==> forall j | i <= j < |tags| :: BuildTagSpec(tags[j]).Ok?
    decreases |tags| - i
  {
    if i < |tags| && BuildTagSpec(tags[i]).Ok? {
      var b := BuildTagSpec(tags[i]).value;
      BuildPropsOk(tags, SetProp(acc, PropertyKey(b.id), b), i + 1);
    }
  }

  /** A built tag carries the node's key as its `id` and the type id of the
      node's variant. */
  lemma BuildKeepsKeyAndType(t: Tag)
    requires BuildTagSpec(t).Ok?
    ensures BuildTagSpec(t).value.id == t.key
    ensures TypeIdOf(BuildTagSpec(t).value.body) == TagNumberOf(t)
  {
  }

  /** Building succeeds exactly when the tree holds no end tag and only
      decimal long texts; an end tag fails with "Unknown tag type: end". */
  lemma {:induction false} BuildOkIffBuildable(t: Tag)
    ensures BuildTagSpec(t).Ok? <==> Buildable(t)
    ensures t.value.EndValue? ==> BuildTagSpec(t) == Err(BuildError.UnknownTagType("end"))
    decreases t
  {
    match t.value {
      case ListValue(_, items) =>
        BuiltItemsFacts(items, 0);
        forall j | 0 <= j < |items|
          ensures BuildTagSpec(items[j]).Ok? <==> Buildable(items[j])
        {
          BuildOkIffBuildable(items[j]);
        }
      case CompoundValue(es) =>
        BuildPropsOk(es, [], 0);
        forall j | 0 <= j < |es|
          ensures BuildTagSpec(es[j]).Ok? <==> Buildable(es[j])
        {
          BuildOkIffBuildable(es[j]);
        }
      case _ =>
    }
  }

  /** A built list keeps the declared child type verbatim and holds one
      built element per element, in order. */
  lemma ListBuild(t: Tag)
    requires t.value.ListValue? && BuildTagSpec(t).Ok?
    ensures var b := BuildTagSpec(t).value.body;
      && b.LList?
      && b.childType == t.value.childrenType
      && |b.items| == |t.value.items|
      && forall j | 0 <= j < |b.items| :: BuildTagSpec(t.value.items[j]) == Ok(b.items[j])
  {
    BuiltItemsFacts(t.value.items, 0);
  }

  /** The property name `n` after assigning built tags from position i on:
      the last tag whose key names `n` wins; with none, `acc` decides. */
  lemma {:induction false} PropsLookup(tags: seq<Tag>, acc: seq<Entry>, i: nat, n: string)
    requires i <= |tags| && BuildPropsFrom(tags, acc, i).Ok?
    ensures (forall k | i <= k < |tags| :: PropertyKey(tags[k].key) != n) ==>
      Lookup(BuildPropsFrom(tags, acc, i).value, n) == Lookup(acc, n)
    ensures forall j | i <= j < |tags| && PropertyKey(tags[j].key) == n
                     && (forall k | j < k < |tags| :: PropertyKey(tags[k].key) != n) ::
      BuildTagSpec(tags[j]).Ok? && Lookup(BuildPropsFrom(tags, acc, i).value, n) == Some(BuildTagSpec(tags[j]).value)
    decreases |tags| - i
  {
    if i < |tags| {
      var b := BuildTagSpec(tags[i]).value;
      var acc' := SetProp(acc, PropertyKey(b.id), b);
      PropsLookup(tags, acc', i + 1, n);
      SetPropLookup(acc, PropertyKey(b.id), b, n);
    }
  }

  /** In a built compound, the key of a child that no later child repeats
      reads as that child's built tag: a later child with the same key wins. */
  lemma LaterChildWins(t: Tag, j: nat)
    requires t.value.CompoundValue? && BuildTagSpec(t).Ok?
    requires j < |t.value.entries|
    requires forall k | j < k < |t.value.entries| ::
      PropertyKey(t.value.entries[k].key) != PropertyKey(t.value.entries[j].key)
    ensures BuildTagSpec(t.value.entries[j]).Ok?
    ensures BuildTagSpec(t).value.body.LCompound?
    ensures Lookup(BuildTagSpec(t).value.body.entries, PropertyKey(t.value.entries[j].key))
         == Some(BuildTagSpec(t.value.entries[j]).value)
  {
    PropsLookup(t.value.entries, [], 0, PropertyKey(t.value.entries[j].key));
  }

  /** In the built document, the key of a root tag that no later root tag
      repeats reads as that tag built: the last root tag with a key wins. */
  lemma LastRootTagWins(root: Root, j: nat)
    requires BuildRootSpec(root).Ok? && j < |root|
    requires forall k | j < k < |root| :: PropertyKey(root[k].key) != PropertyKey(root[j].key)
    ensures BuildTagSpec(root[j]).Ok?
    ensures Lookup(BuildRootSpec(root).value.root, PropertyKey(root[j].key)) == Some(BuildTagSpec(root[j]).value)
  {
    PropsLookup(root, [], 0, PropertyKey(root[j].key));
  }

  /** The recorded compression flag alone picks the encoder: the other
      encoder's behaviour never matters. */
  lemma EncoderFollowsFlag(root: Root, w: BufferWriter, z: BufferWriter, other: BufferWriter)
    ensures BufferSpec(root, false, w, z) == BufferSpec(root, false, w, other)
    ensures BufferSpec(root, true, w, z) == BufferSpec(root, true, other, z)
    ensures BuildRootSpec(root).Ok? ==>
      && (w(BuildRootSpec(root).value).Ok? ==> BufferSpec(root, false, w, z) == Ok((BuildRootSpec(root).value, w(BuildRootSpec(root).value).value)))
      && (z(BuildRootSpec(root).value).Ok? ==> BufferSpec(root, true, w, z) == Ok((BuildRootSpec(root).value, z(BuildRootSpec(root).value).value)))
  {
  }

  /** Properties assigned from recognised tags are recognised. */
  lemma {:induction false} PropsRecognised(tags: seq<Tag>, acc: seq<Entry>, i: nat)
    requires i <= |tags| && BuildPropsFrom(tags, acc, i).Ok?
    requires forall e | e in acc :: Recognised(e.tag)
    requires forall j | i <= j < |tags| :: BuildTagSpec(tags[j]).Ok? ==> Recognised(BuildTagSpec(tags[j]).value)
    ensures forall e | e in BuildPropsFrom(tags, acc, i).value :: Recognised(e.tag)
    decreases |tags| - i
  {
    if i < |tags| {
      var b := BuildTagSpec(tags[i]).value;
      SetPropEntries(acc, PropertyKey(b.id), b);
      PropsRecognised(tags, SetProp(acc, PropertyKey(b.id), b), i + 1);
    }
  }

  /** Every built tag converts back without error. */
  lemma {:induction false} BuiltRecognised(t: Tag)
    requires BuildTagSpec(t).Ok?
    ensures Recognised(BuildTagSpec(t).value)
    decreases t
  {
    match t.value {
      case ListValue(_, items) =>
        ListBuild(t);
        forall j | 0 <= j < |items| ensures Recognised(BuildTagSpec(items[j]).value) {
          BuiltRecognised(items[j]);
        }
      case CompoundValue(es) =>
        forall j | 0 <= j < |es| && BuildTagSpec(es[j]).Ok?
          ensures Recognised(BuildTagSpec(es[j]).value)
        {
          BuiltRecognised(es[j]);
        }
        PropsRecognised(es, [], 0);
        var props := BuildTagSpec(t).value.body.entries;
        assert forall k | 0 <= k < |props| :: props[k] in props;
      case _ =>
    }
  }

  /** Reading back a document that was built never fails, whatever the keys:
      the save request's reload error cannot occur. */
  lemma ReloadAfterBuildSucceeds(root: Root)
    requires BuildRootSpec(root).Ok?
    ensures ToStructedRoot(BuildRootSpec(root).value).Ok?
  {
    forall j | 0 <= j < |root| && BuildTagSpec(root[j]).Ok?
      ensures Recognised(BuildTagSpec(root[j]).value)
    {
      BuiltRecognised(root[j]);
    }
    PropsRecognised(root, [], 0);
    var props := BuildRootSpec(root).value.root;
    RootFromFacts(props, 0);
    forall k | 0 <= k < |props|
      ensures ToStructed(props[k].tag, Some(props[k].name)).Ok?
    {
      assert props[k] in props;
      ToStructedOkIffRecognised(props[k].tag, Some(props[k].name));
    }
  }

  // ------------------------------------------------------------ round trip

  predicate DistinctPropertyKeys(tags: seq<Tag>)
  {
    forall i, j | 0 <= i < j < |tags| :: PropertyKey(tags[i].key) != PropertyKey(tags[j].key)
  }

  /** Buildable, with no two children of any compound named alike. */
  predicate Saveable(t: Tag)
    decreases t
  {
    match t.value
    case EndValue => false
    case LongValue(text) => IsDecimalLiteral(text)
    case ListValue(_, items) => forall i | 0 <= i < |items| :: Saveable(items[i])
    case CompoundValue(es) => DistinctPropertyKeys(es) && forall i | 0 <= i < |es| :: Saveable(es[i])
    case _ => true
  }

  /** The structured tag one reads back, under `key`, after saving `t`. */
  function Reloaded(t: Tag, key: Option<string>): Tag
    decreases t
  {
    match t.value
    case LongValue(text) =>
      Tag(key, LongValue(if IsDecimalLiteral(text) then IntToString(DecimalValue(text)) else text))
    case ListValue(ct, items) =>
      Tag(key, ListValue(ListChildTypeName(ct),
        seq(|items|, i requires 0 <= i < |items| => Reloaded(items[i], None))))
    case CompoundValue(es) =>
      Tag(key, CompoundValue(
        seq(|es|, i requires 0 <= i < |es| => Reloaded(es[i], Some(PropertyKey(es[i].key))))))
    case _ => Tag(key, t.value)
  }

  /** The properties assigned from position i on when all keys differ. */
  function Appended(tags: seq<Tag>, i: nat): seq<Entry>
    requires i <= |tags| && forall j | i <= j < |tags| :: BuildTagSpec(tags[j]).Ok?
  {
    seq(|tags| - i, k requires 0 <= k < |tags| - i =>
      Entry(PropertyKey(tags[i + k].key), BuildTagSpec(tags[i + k]).value))
  }

  /** With pairwise different keys, each built tag becomes a new property,
      in order. */
  lemma {:induction false} PropsDistinct(tags: seq<Tag>, acc: seq<Entry>, i: nat)
    requires i <= |tags| && forall j | i <= j < |tags| :: BuildTagSpec(tags[j]).Ok?
    requires DistinctPropertyKeys(tags)
    requires forall j | i <= j < |tags| :: PropertyKey(tags[j].key) !in Names(acc)
    ensures BuildPropsFrom(tags, acc, i) == Ok(acc + Appended(tags, i))
    decreases |tags| - i
  {
    if i < |tags| {
      var b := BuildTagSpec(tags[i]).value;
      var name := PropertyKey(tags[i].key);
      assert b.id == tags[i].key;
      SetPropNew(acc, name, b);
      var acc' := acc + [Entry(name, b)];
      assert Names(acc') == Names(acc) + [name];
      PropsDistinct(tags, acc', i + 1);
      assert acc' + Appended(tags, i + 1) == acc + Appended(tags, i);
    } else {
      assert Appended(tags, i) == [];
      assert acc + [] == acc;
    }
  }

  lemma SaveableIsBuildable(t: Tag)
    requires Saveable(t)
    ensures BuildTagSpec(t).Ok?
  {
    SaveableBuildable(t);
    BuildOkIffBuildable(t);
  }

  lemma {:induction false} SaveableBuildable(t: Tag)
    requires Saveable(t)
    ensures Buildable(t)
    decreases t
  {
    match t.value {
      case ListValue(_, items) =>
        forall j | 0 <= j < |items| ensures Buildable(items[j]) { SaveableBuildable(items[j]); }
      case CompoundValue(es) =>
        forall j | 0 <= j < |es| ensures Buildable(es[j]) { SaveableBuildable(es[j]); }
      case _ =>
    }
  }

  /** Saving a tag and reading it back under any key gives `Reloaded`. */
  lemma {:induction false} SaveThenReload(t: Tag, key: Option<string>)
    requires Saveable(t)
    ensures BuildTagSpec(t).Ok?
    ensures ToStructed(BuildTagSpec(t).value, key) == Ok(Reloaded(t, key))
    decreases t
  {
    SaveableIsBuildable(t);
    match t.value {
      case ListValue(ct, items) =>
        forall j | 0 <= j < |items|
          ensures BuildTagSpec(items[j]).Ok? && ToStructed(BuildTagSpec(items[j]).value, None) == Ok(Reloaded(items[j], None))
        {
          SaveThenReload(items[j], None);
        }
        ListRoundTrip(t, key);
      case CompoundValue(es) =>
        forall j | 0 <= j < |es|
          ensures BuildTagSpec(es[j]).Ok?
          ensures ToStructed(BuildTagSpec(es[j]).value, Some(PropertyKey(es[j].key)))
               == Ok(Reloaded(es[j], Some(PropertyKey(es[j].key))))
        {
          SaveThenReload(es[j], Some(PropertyKey(es[j].key)));
        }
        CompoundRoundTrip(t, key);
      case _ =>
    }
  }

  /** The list step of `SaveThenReload`, given the round trip of each element. */
  lemma ListRoundTrip(t: Tag, key: Option<string>)
    requires t.value.ListValue? && BuildTagSpec(t).Ok?
    requires forall j | 0 <= j < |t.value.items| ::
      BuildTagSpec(t.value.items[j]).Ok?
      && ToStructed(BuildTagSpec(t.value.items[j]).value, None) == Ok(Reloaded(t.value.items[j], None))
    ensures ToStructed(BuildTagSpec(t).value, key) == Ok(Reloaded(t, key))
  {
    var items := t.value.items;
    var lib := BuildTagSpec(t).value;
    ListBuild(t);
    ItemsFromFacts(lib, 0);
    assert ItemsFrom(lib, 0).value == seq(|items|, i requires 0 <= i < |items| => Reloaded(items[i], None));
  }

  /** The compound step of `SaveThenReload`, given the round trip of each child. */
  lemma CompoundRoundTrip(t: Tag, key: Option<string>)
    requires t.value.CompoundValue? && DistinctPropertyKeys(t.value.entries)
    requires forall j | 0 <= j < |t.value.entries| ::
      var c := t.value.entries[j];
      BuildTagSpec(c).Ok? && ToStructed(BuildTagSpec(c).value, Some(PropertyKey(c.key))) == Ok(Reloaded(c, Some(PropertyKey(c.key))))
    ensures BuildTagSpec(t).Ok?
    ensures ToStructed(BuildTagSpec(t).value, key) == Ok(Reloaded(t, key))
  {
    var es := t.value.entries;
    CompoundBuilt(t);
    var lib := LibTag(t.key, LCompound(Appended(es, 0)));
    var want := seq(|es|, i requires 0 <= i < |es| => Reloaded(es[i], Some(PropertyKey(es[i].key))));
    AppendedReload(es);
    EntriesFromAll(lib, want);
    assert ToStructed(lib, key) == Ok(Tag(key, CompoundValue(want)));
  }

  /** With pairwise different keys, a compound builds to one property per
      child, in order. */
  lemma CompoundBuilt(t: Tag)
    requires t.value.CompoundValue? && DistinctPropertyKeys(t.value.entries)
    requires forall j | 0 <= j < |t.value.entries| :: BuildTagSpec(t.value.entries[j]).Ok?
    ensures BuildTagSpec(t) == Ok(LibTag(t.key, LCompound(Appended(t.value.entries, 0))))
  {
    PropsDistinct(t.value.entries, [], 0);
    assert [] + Appended(t.value.entries, 0) == Appended(t.value.entries, 0);
  }

  /** Each property the build appends reads back as its tag reloaded under
      the property's name. */
  lemma AppendedReload(tags: seq<Tag>)
    requires forall j | 0 <= j < |tags| ::
      BuildTagSpec(tags[j]).Ok?
      && ToStructed(BuildTagSpec(tags[j]).value, Some(PropertyKey(tags[j].key)))
         == Ok(Reloaded(tags[j], Some(PropertyKey(tags[j].key))))
    ensures var es := Appended(tags, 0);
      forall j | 0 <= j < |es| ::
        ToStructed(es[j].tag, Some(es[j].name)) == Ok(Reloaded(tags[j], Some(PropertyKey(tags[j].key))))
  {
    var es := Appended(tags, 0);
    forall j | 0 <= j < |es|
      ensures ToStructed(es[j].tag, Some(es[j].name)) == Ok(Reloaded(tags[j], Some(PropertyKey(tags[j].key))))
    {
      assert es[j] == Entry(PropertyKey(tags[j].key), BuildTagSpec(tags[j]).value);
    }
  }

  /** A compound whose every property converts to the matching tag converts
      to exactly those tags. */
  lemma EntriesFromAll(lib: LibTag, want: seq<Tag>)
    requires lib.body.LCompound? && |lib.body.entries| == |want|
    requires forall j | 0 <= j < |want| ::
      ToStructed(lib.body.entries[j].tag, Some(lib.body.entries[j].name)) == Ok(want[j])
    ensures EntriesFrom(lib, 0) == Ok(want)
  {
    EntriesFromFacts(lib, 0);
    assert EntriesFrom(lib, 0).value == want;
  }

  /** A root whose every property converts to the matching tag converts to
      exactly those tags. */
  lemma RootFromAll(es: seq<Entry>, want: seq<Tag>)
    requires |es| == |want|
    requires forall j | 0 <= j < |want| :: ToStructed(es[j].tag, Some(es[j].name)) == Ok(want[j])
    ensures RootFrom(es, 0) == Ok(want)
  {
    RootFromFacts(es, 0);
    assert RootFrom(es, 0).value == want;
  }

  /** Saving a root whose tags have pairwise different keys and reading the
      document back gives each tag reloaded under its own key, in order. */
  lemma SaveThenReloadRoot(root: Root)
    requires DistinctPropertyKeys(root)
    requires forall j | 0 <= j < |root| :: Saveable(root[j])
    ensures BuildRootSpec(root).Ok?
    ensures ToStructedRoot(BuildRootSpec(root).value)
         == Ok(seq(|root|, j requires 0 <= j < |root| => Reloaded(root[j], Some(PropertyKey(root[j].key)))))
  {
    forall j | 0 <= j < |root|
      ensures BuildTagSpec(root[j]).Ok?
      ensures ToStructed(BuildTagSpec(root[j]).value, Some(PropertyKey(root[j].key)))
           == Ok(Reloaded(root[j], Some(PropertyKey(root[j].key))))
    {
      SaveThenReload(root[j], Some(PropertyKey(root[j].key)));
    }
    PropsDistinct(root, [], 0);
    assert [] + Appended(root, 0) == Appended(root, 0);
    var es := Appended(root, 0);
    assert BuildRootSpec(root) == Ok(LibNbt(es));
    var want := seq(|root|, j requires 0 <= j < |root| => Reloaded(root[j], Some(PropertyKey(root[j].key))));
    AppendedReload(root);
    RootFromAll(es, want);
  }

  /** A list saved with any of the twelve declared child types reads back
      with a child type that is none of them. */
  lemma DeclaredChildTypeLost(ct: string)
    requires IsTypeName(ct)
    ensures !IsTypeName(ListChildTypeName(ct))
  {
    var r := ListChildTypeName(ct);
    if |ct| >= 8 {
      assert r[0] == LowerChar(ct[4]);
    }
  }
}

=== FILE: structed.dfy ===
/** The editor's structured NBT tree: a tagged union of twelve variants,
    each with a fixed tag number and type name, an optional key, and the
    root as an ordered sequence of tags. Lists and compounds hold ordered
    sequences of tags; a compound is not a map. */
module StructedNbt {
  import opened Wrappers

  datatype TagType =
    | End | Byte | Short | Int | Long | Float | Double
    | ByteArray | String | List | Compound | IntArray

  /** The `tag` field each variant carries. */
  function TagNumber(t: TagType): nat
  {
    match t
    case End => 0
    case Byte => 1
    case Short => 2
    case Int => 3
    case Long => 4
    case Float => 5
    case Double => 6
    case ByteArray => 7
    case String => 8
    case List => 9
    case Compound => 10
    case IntArray => 11
  }

  /** The variant a tag number stands for. */
  function TypeOfNumber(n: int): (t: Option<TagType>)
    ensures t.Some? <==> 0 <= n < 12
  {
    if n == 0 then Some(End)
    else if n == 1 then Some(Byte)
    else if n == 2 then Some(Short)
    else if n == 3 then Some(Int)
    else if n == 4 then Some(Long)
    else if n == 5 then Some(Float)
    else if n == 6 then Some(Double)
    else if n == 7 then Some(ByteArray)
    else if n == 8 then Some(String)
    else if n == 9 then Some(List)
    else if n == 10 then Some(Compound)
    else if n == 11 then Some(IntArray)
    else None
  }

  /** Tag numbers and variants are in one-to-one correspondence over 0..11. */
  lemma TagNumberBijective(t: TagType, n: int)
    ensures TagNumber(t) < 12
    ensures TypeOfNumber(TagNumber(t)) == Some(t)
    ensures TypeOfNumber(n) == Some(t) ==> TagNumber(t) == n
  {
  }

  /** The `type` field each variant carries. */
  function TypeName(t: TagType): string
  {
    match t
    case End => "end"
    case Byte => "byte"
    case Short => "short"
    case Int => "int"
    case Long => "long"
    case Float => "float"
    case Double => "double"
    case ByteArray => "byte_array"
    case String => "string"
    case List => "list"
    case Compound => "compound"
    case IntArray => "int_array"
  }

  /** The variant a type name stands for; None for any other string. */
  function TypeOfName(s: string): Option<TagType>
  {
    if s == "end" then Some(End)
    else if s == "byte" then Some(Byte)
    else if s == "short" then Some(Short)
    else if s == "int" then Some(Int)
    else if s == "long" then Some(Long)
    else if s == "float" then Some(Float)
    else if s == "double" then Some(Double)
    else if s == "byte_array" then Some(ByteArray)
    else if s == "string" then Some(String)
    else if s == "list" then Some(List)
    else if s == "compound" then Some(Compound)
    else if s == "int_array" then Some(IntArray)
    else None
  }

  /** Type names and variants are in one-to-one correspondence. */
  lemma TypeNameBijective(t: TagType, s: string)
    ensures TypeOfName(TypeName(t)) == Some(t)
    ensures TypeOfName(s) == Some(t) <==> s == TypeName(t)
  {
  }

  /** One of the twelve names a list's `childrenType` is drawn from. */
  predicate IsTypeName(s: string) { TypeOfName(s).Some? }

  /** A float or double, kept as the text the runtime prints for it;
      floating-point arithmetic and rounding are not modelled. */
  datatype Fp = Fp(text: string)

  datatype Tag = Tag(key: Option<string>, value: Value)

  datatype Value =
    | EndValue
    | ByteValue(n: int)
    | ShortValue(n: int)
    | IntValue(n: int)
    | LongValue(text: string)
    | FloatValue(f: Fp)
    | DoubleValue(f: Fp)
    | ByteArrayValue(elems: seq<int>)
    | StringValue(s: string)
    | ListValue(childrenType: string, items: seq<Tag>)
    | CompoundValue(entries: seq<Tag>)
    | IntArrayValue(elems: seq<int>)

  type Root = seq<Tag>

  function TypeOf(v: Value): TagType
  {
    match v
    case EndValue => End
    case ByteValue(_) => Byte
    case ShortValue(_) => Short
    case IntValue(_) => Int
    case LongValue(_) => Long
    case FloatValue(_) => Float
    case DoubleValue(_) => Double
    case ByteArrayValue(_) => ByteArray
    case StringValue(_) => String
    case ListValue(_, _) => List
    case CompoundValue(_) => Compound
    case IntArrayValue(_) => IntArray
  }

  /** The `tag` number of a structured tag. */
  function TagNumberOf(t: Tag): nat { TagNumber(TypeOf(t.value)) }

  /** The `type` name of a structured tag. */
  function TypeNameOf(t: Tag): string { TypeName(TypeOf(t.value)) }

  /** Every structured tag's `tag` number and `type` name agree with each other. */
  lemma TagFieldsAgree(t: Tag)
    ensures TypeOfNumber(TagNumberOf(t)) == TypeOfName(TypeNameOf(t))
    ensures TypeOfName(TypeNameOf(t)) == Some(TypeOf(t.value))
  {
  }

  predicate IsContainer(t: Tag) { t.value.ListValue? || t.value.CompoundValue? }

  /** The tags nested directly inside `t` (none for a non-container). */
  function Children(t: Tag): seq<Tag>
  {
    match t.value
    case ListValue(_, items) => items
    case CompoundValue(entries) => entries
    case _ => []
  }

  /** `t` with its nested tags replaced; key, type and list child type stay. */
  function WithChildren(t: Tag, kids: seq<Tag>): (u: Tag)
    ensures u.key == t.key && TypeOf(u.value) == TypeOf(t.value)
    ensures IsContainer(t) ==> Children(u) == kids
    ensures t.value.ListValue? ==> u.value.childrenType == t.value.childrenType
  {
    match t.value
    case ListValue(ct, _) => Tag(t.key, ListValue(ct, kids))
    case CompoundValue(_) => Tag(t.key, CompoundValue(kids))
    case _ => t
  }

  lemma WithOwnChildren(t: Tag)
    ensures WithChildren(t, Children(t)) == t
  {
  }

  // ------------------------------------------------------------------ paths
  // An edit the renderer makes in place on a shared tag object is modelled
  // as rewriting the root at that tag's path: a sequence of child indices.

  predicate ValidPath(tags: seq<Tag>, path: seq<nat>)
    decreases |path|
  {
    && |path| > 0
    && path[0] < |tags|
    && (|path| == 1 || ValidPath(Children(tags[path[0]]), path[1..]))
  }

  function TagAt(tags: seq<Tag>, path: seq<nat>): Tag
    requires ValidPath(tags, path)
    decreases |path|
  {
    if |path| == 1 then tags[path[0]] else TagAt(Children(tags[path[0]]), path[1..])
  }

  function ReplaceAt(tags: seq<Tag>, path: seq<nat>, t: Tag): (r: seq<Tag>)
    requires ValidPath(tags, path)
    ensures |r| == |tags|
    decreases |path|
  {
    if |path| == 1 then tags[path[0] := t]
    else
      var here := tags[path[0]];
      tags[path[0] := WithChildren(here, ReplaceAt(Children(here), path[1..], t))]
  }

  /** After a replacement, the path leads to the new tag. */
  lemma {:induction false} TagAtReplaceAt(tags: seq<Tag>, path: seq<nat>, t: Tag)
    requires ValidPath(tags, path)
    ensures ValidPath(ReplaceAt(tags, path, t), path)
    ensures TagAt(ReplaceAt(tags, path, t), path) == t
    decreases |path|
  {
    if |path| > 1 {
      var here := tags[path[0]];
      TagAtReplaceAt(Children(here), path[1..], t);
    }
  }

  /** Putting back the tag found at a path changes nothing. */
  lemma {:induction false} ReplaceAtSame(tags: seq<Tag>, path: seq<nat>)
    requires ValidPath(tags, path)
    ensures ReplaceAt(tags, path, TagAt(tags, path)) == tags
    decreases |path|
  {
    if |path| > 1 {
      var here := tags[path[0]];
      ReplaceAtSame(Children(here), path[1..]);
      WithOwnChildren(here);
    }
  }

  /** Neither path leads into the other: the tags they name are apart. */
  predicate Apart(p: seq<nat>, q: seq<nat>)
  {
    !(p <= q) && !(q <= p)
  }

  /** A replacement leaves every tag apart from the replaced one in place. */
  lemma {:induction false} ReplaceAtElsewhere(tags: seq<Tag>, path: seq<nat>, q: seq<nat>, t: Tag)
    requires ValidPath(tags, path) && ValidPath(tags, q) && Apart(path, q)
    ensures ValidPath(ReplaceAt(tags, path, t), q)
    ensures TagAt(ReplaceAt(tags, path, t), q) == TagAt(tags, q)
    decreases |path|
  {
    var r := ReplaceAt(tags, path, t);
    if path[0] != q[0] {
      assert r[q[0]] == tags[q[0]];
    } else {
      assert path == [path[0]] + path[1..] && q == [q[0]] + q[1..];
      assert Apart(path[1..], q[1..]);
      var here := tags[path[0]];
      ReplaceAtElsewhere(Children(here), path[1..], q[1..], t);
    }
  }

  /** The frame of a replacement over every path apart from the replaced one. */
  lemma ReplaceAtFrame(tags: seq<Tag>, path: seq<nat>, t: Tag)
    requires ValidPath(tags, path)
    ensures forall q | ValidPath(tags, q) && Apart(path, q) ::
      ValidPath(ReplaceAt(tags, path, t), q) && TagAt(ReplaceAt(tags, path, t), q) == TagAt(tags, q)
  {
    forall q | ValidPath(tags, q) && Apart(path, q)
      ensures ValidPath(ReplaceAt(tags, path, t), q) && TagAt(ReplaceAt(tags, path, t), q) == TagAt(tags, q)
    {
      ReplaceAtElsewhere(tags, path, q, t);
    }
  }

  /** The container a set of siblings lives in: the root for the empty path. */
  predicate ValidParent(tags: seq<Tag>, parent: seq<nat>)
  {
    parent == [] || (ValidPath(tags, parent) && IsContainer(TagAt(tags, parent)))
  }

  /** The siblings under `parent`. */
  function ChildrenAt(tags: seq<Tag>, parent: seq<nat>): seq<Tag>
    requires ValidParent(tags, parent)
  {
    if parent == [] then tags else Children(TagAt(tags, parent))
  }

  lemma {:induction false} ChildPathValid(tags: seq<Tag>, path: seq<nat>, i: nat)
    requires ValidPath(tags, path)
    requires i < |Children(TagAt(tags, path))|
    ensures ValidPath(tags, path + [i])
    ensures TagAt(tags, path + [i]) == Children(TagAt(tags, path))[i]
    decreases |path|
  {
    if |path| == 1 {
      assert (path + [i])[1..] == [i];
    } else {
      ChildPathValid(Children(tags[path[0]]), path[1..], i);
      assert (path + [i])[1..] == path[1..] + [i];
    }
  }

  lemma {:induction false} ReplaceChildAt(tags: seq<Tag>, path: seq<nat>, i: nat, t: Tag)
    requires ValidPath(tags, path)
    requires i < |Children(TagAt(tags, path))|
    ensures ValidPath(tags, path + [i])
    ensures ValidPath(ReplaceAt(tags, path + [i], t), path)
    ensures TagAt(ReplaceAt(tags, path + [i], t), path)
         == WithChildren(TagAt(tags, path), Children(TagAt(tags, path))[i := t])
    decreases |path|
  {
    ChildPathValid(tags, path, i);
    if |path| == 1 {
      assert (path + [i])[1..] == [i];
    } else {
      ReplaceChildAt(Children(tags[path[0]]), path[1..], i, t);
      assert (path + [i])[1..] == path[1..] + [i];
    }
  }

  /** Replacing the i-th sibling under a container changes exactly that
      sibling: the container keeps its place, key and type, every other
      sibling is unchanged, and so is every tag apart from the replaced one. */
  lemma ReplaceSibling(tags: seq<Tag>, parent: seq<nat>, i: nat, t: Tag)
    requires ValidParent(tags, parent)
    requires i < |ChildrenAt(tags, parent)|
    ensures ValidPath(tags, parent + [i])
    ensures TagAt(tags, parent + [i]) == ChildrenAt(tags, parent)[i]
    ensures ValidParent(ReplaceAt(tags, parent + [i], t), parent)
    ensures ChildrenAt(ReplaceAt(tags, parent + [i], t), parent) == ChildrenAt(tags, parent)[i := t]
    ensures forall q | ValidPath(tags, q) && Apart(parent + [i], q) ::
      ValidPath(ReplaceAt(tags, parent + [i], t), q) && TagAt(ReplaceAt(tags, parent + [i], t), q) == TagAt(tags, q)
  {
    if parent == [] {
      assert parent + [i] == [i];
    } else {
      ChildPathValid(tags, parent, i);
      ReplaceChildAt(tags, parent, i, t);
    }
    ReplaceAtFrame(tags, parent + [i], t);
  }
}

=== FILE: valueinputs.dfy ===
/** The value inputs of the scalar panels
    (src/renderer/Component/NodeDataPanel/MetaTypePanels.tsx): the integer
    ranges and tooltips per type, the integer formatter and parser, and the
    filters that keep a Long input a signed 64-bit decimal and a String
    input within 65535 UTF-8 bytes. */
module ValueInputs {
  import opened Wrappers
  import opened JsText

  /** The input a scalar panel shows for its value. */
  datatype InputKind =
    | IntegerInput(min: int, max: int)
    | FloatInput
    | PlainInput
    | LongText
    | StringText

  datatype PanelOptions = PanelOptions(input: InputKind, tooltip: string)

  const ByteMin: int := -128
  const ByteMax: int := 127
  const ShortMin: int := -32768
  const ShortMax: int := 32767
  const IntMin: int := -2147483648
  const IntMax: int := 2147483647
  const LongMin: int := -9223372036854775808
  const LongMax: int := 9223372036854775807

  /** `metaTypePanelOptions`: byte, short and int get a bounded integer
      input, float and double a number input, anything else a plain input
      without a tooltip. */
  function MetaTypePanelOptions(t: string): (o: PanelOptions)
    ensures t == "byte" ==> o.input == IntegerInput(ByteMin, ByteMax)
    ensures t == "short" ==> o.input == IntegerInput(ShortMin, ShortMax)
    ensures t == "int" ==> o.input == IntegerInput(IntMin, IntMax)
    ensures t == "float" || t == "double" <==> o.input == FloatInput
    ensures o.input.IntegerInput? <==> t in {"byte", "short", "int"}
    ensures t !in {"byte", "short", "int", "float", "double"} ==> o == PanelOptions(PlainInput, "")
  {
    if t == "byte" then
      PanelOptions(IntegerInput(ByteMin, ByteMax),
        "A signed integral type. Sometimes used for booleans. Between -128 and 127.")
    else if t == "short" then
      PanelOptions(IntegerInput(ShortMin, ShortMax), "A signed integral type. Between -32,768 and 32,767.")
    else if t == "int" then
      PanelOptions(IntegerInput(IntMin, IntMax),
        "A signed integral type. Between -2,147,483,648 and 2,147,483,647.")
    else if t == "double" then
      PanelOptions(FloatInput,
        "A signed floating point type.\tBetween -1.7976931348623157e+308 and 1.7976931348623157e+308.")
    else if t == "float" then
      PanelOptions(FloatInput,
        "A signed floating point type.\tBetween -3.4028234663852886e+38 and 3.4028234663852886e+38.")
    else PanelOptions(PlainInput, "")
  }

  const LongTooltip: string :=
    "A signed integral type. Between -9,223,372,036,854,775,808 and 9,223,372,036,854,775,807."
  const StringTooltip: string :=
    "A UTF-8 string. It has a size, rather than being null terminated.\t65,535 bytes interpretable as UTF-8."

  /** The table of scalar panels by value type: the five numeric types use
      `MetaTypePanelOptions`, long and string their own filtered text
      inputs; other types have no scalar panel. */
  function ScalarPanel(t: string): (o: Option<PanelOptions>)
    ensures o.Some? <==> t in {"byte", "short", "int", "long", "float", "double", "string"}
    ensures t == "long" ==> o == Some(PanelOptions(LongText, LongTooltip))
    ensures t == "string" ==> o == Some(PanelOptions(StringText, StringTooltip))
    ensures o.Some? ==> !o.value.input.PlainInput?
  {
    if t in {"byte", "short", "int", "float", "double"} then Some(MetaTypePanelOptions(t))
    else if t == "long" then Some(PanelOptions(LongText, LongTooltip))
    else if t == "string" then Some(PanelOptions(StringText, StringTooltip))
    else None
  }

  /** Each integer range is the signed range of its width in bits. */
  lemma IntegerRangesAreSigned()
    ensures ByteMin == -Pow2(7) && ByteMax == Pow2(7) - 1
    ensures ShortMin == -Pow2(15) && ShortMax == Pow2(15) - 1
    ensures IntMin == -Pow2(31) && IntMax == Pow2(31) - 1
    ensures LongMin == -Pow2(63) && LongMax == Pow2(63) - 1
  {
    Pow2Split(7, 8);
    Pow2Split(15, 16);
    Pow2Split(31, 32);
    Pow2Split(63, 0);
  }

  function Pow2(n: nat): int
  {
    if n == 0 then 1 else 2 * Pow2(n - 1)
  }

  lemma {:induction false} Pow2Split(a: nat, b: nat)
    ensures Pow2(a + b) == Pow2(a) * Pow2(b)
    decreases b
  {
    if b > 0 {
      Pow2Split(a, b - 1);
    }
  }

  // ------------------------------------------------ integer formatter/parser

  /** The integer input's `formatter`: `${value}` cut at the first '.'. */
  function FormatInteger(text: string): (r: string)
    ensures '.' !in text ==> r == text
  {
    CutFraction(text)
  }

  /** The integer input's `parser`: `parseInt(value, 10)`, None for NaN. */
  function ParseInteger(text: string): Option<int>
  {
    ParseInt(text)
  }

  /** Displaying an integer and parsing the display gives the integer back. */
  lemma FormatParseRoundTrip(n: int)
    ensures FormatInteger(IntToString(n)) == IntToString(n)
    ensures ParseInteger(FormatInteger(IntToString(n))) == Some(n)
  {
    IntToStringShape(n);
    assert '.' !in IntToString(n);
    ParseIntOfDecimalText(n);
  }

  /** A typed fraction is dropped from the display: the digits before the
      '.' are kept and the rest of the line goes. */
  lemma FormatDropsFraction(whole: string, fraction: string)
    requires '.' !in whole
    requires forall k | 0 <= k < |fraction| :: !IsLineTerminator(fraction[k])
    ensures FormatInteger(whole + "." + fraction) == whole
  {
    var s := whole + "." + fraction;
    IndexOfAfter(whole, '.', fraction);
    var j := LineEnd(s, |whole| + 1);
    assert s[..|whole|] == whole;
  }

  // ------------------------------------------------------------ Long filter

  /** What the Long input's `onChange` does with a new text. */
  datatype Verdict = Intermediate | Revert | Accept

  /** The text matches `^-?\d*$`. */
  predicate OptionalSignDigits(s: string)
  {
    AllDigits(s) || (|s| > 0 && s[0] == '-' && AllDigits(s[1..]))
  }

  /** The Long filter: "" and "-" are kept as unfinished input; anything
      that is not an optional '-' and digits, or whose value lies outside
      the signed 64-bit range, is reverted. */
  function LongVerdict(input: string): Verdict
  {
    if |input| == 0 then Intermediate
    else if input == "-" then Intermediate
    else if !OptionalSignDigits(input) then Revert
    else if DecimalValue(input) < LongMin || DecimalValue(input) > LongMax then Revert
    else Accept
  }

  /** The Long filter accepts exactly the decimal literals of signed 64-bit integers. */
  lemma LongVerdictAccepts(input: string)
    ensures LongVerdict(input) == Intermediate <==> input == "" || input == "-"
    ensures LongVerdict(input) == Accept <==>
      IsDecimalLiteral(input) && LongMin <= DecimalValue(input) <= LongMax
  {
    if input != "" && input != "-" && OptionalSignDigits(input) {
      assert IsDecimalLiteral(input);
    }
  }

  /** Every printed 64-bit integer passes the Long filter. */
  lemma LongVerdictOfPrinted(n: int)
    requires LongMin <= n <= LongMax
    ensures LongVerdict(IntToString(n)) == Accept
  {
    IntToStringRoundTrip(n);
    LongVerdictAccepts(IntToString(n));
  }

  /** The bounds themselves are accepted, one past them reverted. */
  lemma LongVerdictBounds()
    ensures LongVerdict(IntToString(LongMin)) == Accept && LongVerdict(IntToString(LongMax)) == Accept
    ensures LongVerdict(IntToString(LongMin - 1)) == Revert && LongVerdict(IntToString(LongMax + 1)) == Revert
  {
    LongVerdictOfPrinted(LongMin);
    LongVerdictOfPrinted(LongMax);
    IntToStringRoundTrip(LongMin - 1);
    IntToStringRoundTrip(LongMax + 1);
    LongVerdictAccepts(IntToString(LongMin - 1));
    LongVerdictAccepts(IntToString(LongMax + 1));
  }

  /** The Long value input: `accepted` is its `useState` text, `field` the
      form's `value` field, which the form sets to the typed text before
      the input's own `onChange` runs. */
  class LongInput {
    var accepted: string
    var field: string

    /** The field always holds a text the filter let through. */
    predicate Valid()
      reads this
    {
      field == accepted
    }

    /** The input as first rendered: its state starts empty and the effect
        then copies the field's value into it. */
    constructor(initial: string)
      ensures accepted == initial && field == initial && Valid()
    {
      accepted := initial;
      field := initial;
    }

    /** `onChange` with the newly typed text. */
    method OnChange(input: string)
      modifies this
      ensures LongVerdict(input) == Revert ==> accepted == old(accepted) && field == old(accepted)
      ensures LongVerdict(input) != Revert ==> accepted == input && field == input
      ensures Valid()
    {
      field := input;
      if |input| == 0 {
        accepted := "";
        return;
      }
      if input == "-" {
        accepted := "-";
        return;
      }
      if !OptionalSignDigits(input) {
        field := accepted;
        return;
      }
      var b := DecimalValue(input);
      if b < LongMin || b > LongMax {
        field := accepted;
        return;
      }
      accepted := input;
      field := input;
    }
  }

  // ---------------------------------------------------------- String filter

  const MaxStringBytes: nat := 65535

  /** The String value input, shaped as the Long one. */
  class StringInput {
    var accepted: string
    var field: string

    predicate Valid()
      reads this
    {
      field == accepted
    }

    constructor(initial: string)
      ensures accepted == initial && field == initial && Valid()
    {
      accepted := initial;
      field := initial;
    }

    /** `onChange`: a text over 65535 UTF-8 bytes is reverted. */
    method OnChange(input: string)
      modifies this
      ensures Utf8Length(input) > MaxStringBytes ==> accepted == old(accepted) && field == old(accepted)
      ensures Utf8Length(input) <= MaxStringBytes ==> accepted == input && field == input
      ensures Valid()
      ensures Utf8Length(old(accepted)) <= MaxStringBytes ==> Utf8Length(accepted) <= MaxStringBytes
    {
      field := input;
      var byteLength := Utf8Length(input);
      if byteLength > MaxStringBytes {
        field := accepted;
        return;
      }
      accepted := input;
      field := input;
    }
  }

  /** For ASCII text the limit is 65535 characters. */
  lemma AsciiStringLimit(s: string)
    requires IsAscii(s)
    ensures Utf8Length(s) <= MaxStringBytes <==> |s| <= 65535
  {
    Utf8LengthBounds(s);
  }

  /** Any text of at most 16383 characters fits, whatever they are. */
  lemma ShortStringsFit(s: string)
    requires |s| <= 16383
    ensures Utf8Length(s) <= MaxStringBytes
  {
    Utf8LengthBounds(s);
  }
}

=== FILE: wrappers.dfy ===
/** Failure-carrying results used across the model: the source's thrown
    errors and rejected promises become the Err side of a Result. */
module Wrappers {

  datatype Option<+T> = None | Some(value: T)

  datatype Result<+T, +E> = Ok(value: T) | Err(error: E)

  /** Puts `xs` in front of a successful sequence result; a failure passes through. */
  function Prepend<T, E>(xs: seq<T>, r: Result<seq<T>, E>): (p: Result<seq<T>, E>)
    ensures p.Ok? <==> r.Ok?
    ensures r.Ok? ==> p.value == xs + r.value
    ensures r.Err? ==> p == r
    ensures xs == [] ==> p == r
    ensures r == Ok([]) ==> p == Ok(xs)
  {
    match r
    case Ok(ys) =>
      assert [] + ys == ys && xs + [] == xs;
      Ok(xs + ys)
    case Err(e) => Err(e)
  }

  lemma PrependTwice<T, E>(xs: seq<T>, ys: seq<T>, r: Result<seq<T>, E>)
    ensures Prepend(xs, Prepend(ys, r)) == Prepend(xs + ys, r)
  {
    if r.Ok? {
      assert xs + (ys + r.value) == (xs + ys) + r.value;
    }
  }
}

=== FILE: xarraypanel.dfy ===
/** The byte and int array panel
    (src/renderer/Component/NodeDataPanel/XArrayPanel.tsx): the array is
    edited as text, one number per line, checked line by line against the
    element type's bounds and written back wholesale. */
module XArrayPanel {
  import opened Wrappers
  import opened JsText
  import opened StructedNbt
  import opened DataNodes
  import opened RendererBus
  import opened PanelNodes

  /** The inclusive element bounds per array type; any other type gets
      [0, 0] (and an error message, not modelled). */
  function ArrayBounds(valueType: string): (b: (int, int))
    ensures valueType == "byte_array" ==> b == (-128, 127)
    ensures valueType == "int_array" ==> b == (-2147483648, 2147483647)
    ensures valueType != "byte_array" && valueType != "int_array" ==> b == (0, 0)
  {
    if valueType == "byte_array" then (-128, 127)
    else if valueType == "int_array" then (-2147483648, 2147483647)
    else (0, 0)
  }

  function ElementTexts(es: seq<int>): (ts: seq<string>)
    ensures |ts| == |es| && forall j | 0 <= j < |es| :: ts[j] == IntToString(es[j])
  {
    seq(|es|, j requires 0 <= j < |es| => IntToString(es[j]))
  }

  /** The text the editor starts from: the numbers one per line, and a
      final line break. */
  function InitialText(es: seq<int>): string
  {
    Join(ElementTexts(es), '\n') + "\n"
  }

  /** The lines the validator and the parser read: the text with its end
      trimmed, split at '\n', each line trimmed. */
  function Lines(text: string): (ls: seq<string>)
    ensures |ls| >= 1
  {
    var parts := Split(TrimEnd(text), '\n');
    seq(|parts|, j requires 0 <= j < |parts| => Trim(parts[j]))
  }

  predicate LineOk(v: string, lo: int, hi: int)
  {
    IsDecimalLiteral(v) && lo <= DecimalValue(v) <= hi
  }

  /** The complaint about line `i` (0-based), if any. */
  function LineError(i: nat, v: string, lo: int, hi: int): (e: Option<string>)
    ensures e.None? <==> LineOk(v, lo, hi)
  {
    var at := "Invalid value at line " + IntToString(i + 1) + ": \"" + v + "\".";
    if !IsDecimalLiteral(v) then Some(at)
    else if DecimalValue(v) < lo || DecimalValue(v) > hi then
      Some(at + " (Should be between " + IntToString(lo) + " and " + IntToString(hi) + ".)")
    else None
  }

  /** The first complaint from line `from` on. */
  function FirstLineError(lines: seq<string>, from: nat, lo: int, hi: int): (e: Option<string>)
    requires from <= |lines|
    ensures e.None? <==> forall j | from <= j < |lines| :: LineOk(lines[j], lo, hi)
    ensures e.Some? ==> exists j | from <= j < |lines| :: e == LineError(j, lines[j], lo, hi)
    decreases |lines| - from
  {
    if from == |lines| then None
    else match LineError(from, lines[from], lo, hi)
      case Some(m) => Some(m)
      case None => FirstLineError(lines, from + 1, lo, hi)
  }

  /** The value validator. */
  method ValidateArrayText(text: string, lo: int, hi: int) returns (error: Option<string>)
    ensures error == FirstLineError(Lines(text), 0, lo, hi)
  {
    var lines := Lines(text);
    var i := 0;
    while i < |lines|
      invariant 0 <= i <= |lines|
      invariant FirstLineError(lines, 0, lo, hi) == FirstLineError(lines, i, lo, hi)
    {
      var v := lines[i];
      if !IsDecimalLiteral(v) {
        return Some("Invalid value at line " + IntToString(i + 1) + ": \"" + v + "\".");
      }
      var b := DecimalValue(v);
      if b < lo || b > hi {
        return Some("Invalid value at line " + IntToString(i + 1) + ": \"" + v + "\"."
          + " (Should be between " + IntToString(lo) + " and " + IntToString(hi) + ".)");
      }
      i := i + 1;
    }
    return None;
  }

  /** The submit parser: `Number` of every line. */
  function ParseArrayText(text: string): (es: seq<int>)
    requires forall j | 0 <= j < |Lines(text)| :: IsDecimalLiteral(Lines(text)[j])
    ensures |es| == |Lines(text)|
  {
    var lines := Lines(text);
    seq(|lines|, j requires 0 <= j < |lines| => DecimalValue(lines[j]))
  }

  /** Text that passes the validator parses to numbers within the bounds,
      one per line. */
  lemma ParsedWithinBounds(text: string, lo: int, hi: int)
    requires FirstLineError(Lines(text), 0, lo, hi).None?
    ensures forall j | 0 <= j < |Lines(text)| :: IsDecimalLiteral(Lines(text)[j])
    ensures forall j | 0 <= j < |ParseArrayText(text)| :: lo <= ParseArrayText(text)[j] <= hi
  {
  }

  /** The initial text of a non-empty array reads back, line by line, as its
      numbers: it passes the validator when they lie in the bounds, and the
      parser returns the same array. */
  lemma ArrayTextRoundTrip(es: seq<int>, lo: int, hi: int)
    requires |es| > 0
    ensures Lines(InitialText(es)) == ElementTexts(es)
    ensures (forall j | 0 <= j < |es| :: lo <= es[j] <= hi) ==> FirstLineError(Lines(InitialText(es)), 0, lo, hi).None?
    ensures forall j | 0 <= j < |Lines(InitialText(es))| :: IsDecimalLiteral(Lines(InitialText(es))[j])
    ensures ParseArrayText(InitialText(es)) == es
  {
    var parts := ElementTexts(es);
    var joined := Join(parts, '\n');
    var last := IntToString(es[|es| - 1]);
    IntToStringShape(es[|es| - 1]);
    JoinLast(parts, '\n');
    assert (joined + "\n")[..|joined|] == joined;
    assert TrimEnd(joined + "\n") == TrimEnd(joined);
    assert !IsJsWhitespace(joined[|joined| - 1]);
    assert TrimEnd(joined) == joined;
    forall j | 0 <= j < |parts|
      ensures '\n' !in parts[j]
      ensures Trim(parts[j]) == parts[j]
      ensures IsDecimalLiteral(parts[j]) && DecimalValue(parts[j]) == es[j]
    {
      IntToStringShape(es[j]);
      TrimOfDecimalText(es[j]);
      IntToStringRoundTrip(es[j]);
    }
    SplitJoin(parts, '\n');
  }

  /** An empty array's initial text is a single empty line, which the
      validator refuses: an empty array cannot be submitted unchanged. */
  lemma EmptyArrayRefused(lo: int, hi: int)
    ensures InitialText([]) == "\n"
    ensures FirstLineError(Lines(InitialText([])), 0, lo, hi) == Some("Invalid value at line 1: \"\".")
  {
    assert TrimEnd("\n") == TrimEnd("");
    assert Split("", '\n') == [""];
    assert Lines("\n") == [""];
    assert IntToString(1) == "1";
    assert !IsDecimalLiteral("");
    assert "Invalid value at line " + "1" + ": \"" + "" + "\"." == "Invalid value at line 1: \"\".";
    assert LineError(0, "", lo, hi) == Some("Invalid value at line 1: \"\".");
  }

  // ------------------------------------------------------------- the key

  const DisplayKeyExists: string := "Key already exists"

  /** Another node under the same display parent has the entered key. */
  predicate DisplayKeyClash(siblings: seq<DataNode>, ownKey: string, value: Key)
  {
    exists j | 0 <= j < |siblings| :: siblings[j].key != ownKey && siblings[j].keyInParent == value
  }

  /** The key validator: an index key always passes. */
  function KeyError(n: PanelNode, siblings: seq<DataNode>, ownKey: string, value: Key): Option<string>
  {
    if n.keyInParent.IdxKey? then None
    else if DisplayKeyClash(siblings, ownKey, value) then Some(DisplayKeyExists)
    else None
  }

  method ValidateKey(n: PanelNode, siblings: seq<DataNode>, ownKey: string, value: Key) returns (error: Option<string>)
    ensures error == KeyError(n, siblings, ownKey, value)
  {
    if n.keyInParent.IdxKey? {
      return None;
    }
    for j := 0 to |siblings|
      invariant forall m | 0 <= m < j :: siblings[m].key == ownKey || siblings[m].keyInParent != value
    {
      if siblings[j].key != ownKey && siblings[j].keyInParent == value {
        return Some(DisplayKeyExists);
      }
    }
    return None;
  }

  // ------------------------------------------------------------- submit

  /** What the form can hold: the node is an array tag, and its key input is
      disabled for an index key and otherwise yields text. */
  predicate FormFits(root: Root, n: PanelNode, formKey: Key)
  {
    && ValidNode(root, n) && n.own.Some? && IsNumberArray(OwnTag(root, n))
    && (formKey == n.keyInParent || (formKey.StrKey? && !n.keyInParent.IdxKey?))
  }

  function OwnBounds(root: Root, n: PanelNode): (int, int)
    requires ValidNode(root, n) && n.own.Some?
  {
    ArrayBounds(TypeNameOf(OwnTag(root, n)))
  }

  /** `modified`: the key or the text differs from the initial one. */
  predicate Modified(root: Root, n: PanelNode, formKey: Key, text: string)
    requires ValidNode(root, n) && n.own.Some?
  {
    formKey != n.keyInParent || text != InitialText(Elements(OwnTag(root, n)))
  }

  /** `submit`: the key field's complaint comes first, then the text's, then
      a rename onto a key a sibling holds; otherwise the tag is renamed if
      asked and, when the text changed, its numbers are replaced. The
      display parent's children stand in for `node.parentNode.children`. */
  function XArraySubmit(root: Root, n: PanelNode, siblings: seq<DataNode>, ownKey: string, formKey: Key, text: string): (r: (Outcome, Root))
    requires FormFits(root, n, formKey)
  {
    var (lo, hi) := OwnBounds(root, n);
    var keyError := KeyError(n, siblings, ownKey, formKey);
    var textError := FirstLineError(Lines(text), 0, lo, hi);
    if keyError.Some? then (Rejected(keyError.value), root)
    else if textError.Some? then (Rejected(textError.value), root)
    else if Renames(n, formKey) && KeyTaken(ParentTags(root, n), formKey.s) then
      (Rejected(AlreadyExists(formKey.s)), root)
    else
      var renamed := if Renames(n, formKey) then ReplaceOwn(root, n, Tag(Some(formKey.s), OwnTag(root, n).value)) else root;
      if text == InitialText(Elements(OwnTag(root, n))) then (Applied, renamed)
      else (Applied, ReplaceOwn(renamed, n, WithElements(OwnTag(renamed, n), ParseArrayText(text))))
  }

  method SubmitXArray(bus: Bus, n: PanelNode, siblings: seq<DataNode>, ownKey: string, formKey: Key, text: string)
    returns (outcome: Outcome)
    requires FormFits(bus.root, n, formKey)
    modifies bus
    ensures (outcome, bus.root) == XArraySubmit(old(bus.root), n, siblings, ownKey, formKey, text)
    ensures bus.currentModifyVersion == old(bus.currentModifyVersion) + (if outcome.Applied? then 1 else 0)
    ensures bus.currentFileUUID == old(bus.currentFileUUID) && bus.currentFilename == old(bus.currentFilename)
    ensures bus.selectedNode == old(bus.selectedNode)
  {
    var initText := InitialText(Elements(OwnTag(bus.root, n)));
    var (lo, hi) := OwnBounds(bus.root, n);
    var keyError := ValidateKey(n, siblings, ownKey, formKey);
    var textError := ValidateArrayText(text, lo, hi);
    if keyError.Some? {
      return Rejected(keyError.value);
    }
    if textError.Some? {
      return Rejected(textError.value);
    }
    if Renames(n, formKey) {
      var taken := ScanForKey(ParentTags(bus.root, n), formKey.s);
      if taken {
        return Rejected(AlreadyExists(formKey.s));
      }
      bus.root := ReplaceOwn(bus.root, n, Tag(Some(formKey.s), OwnTag(bus.root, n).value));
    }
    if text != initText {
      bus.root := ReplaceOwn(bus.root, n, WithElements(OwnTag(bus.root, n), ParseArrayText(text)));
    }
    bus.currentModifyVersion := bus.currentModifyVersion + 1;
    return Applied;
  }

  /** A refused submit names the first complaint and leaves the root. */
  lemma XArrayRejects(root: Root, n: PanelNode, siblings: seq<DataNode>, ownKey: string, formKey: Key, text: string)
    requires FormFits(root, n, formKey)
    ensures var r := XArraySubmit(root, n, siblings, ownKey, formKey, text);
      var (lo, hi) := OwnBounds(root, n);
      && (r.0.Rejected? <==>
           || KeyError(n, siblings, ownKey, formKey).Some?
           || FirstLineError(Lines(text), 0, lo, hi).Some?
           || (Renames(n, formKey) && KeyTaken(ParentTags(root, n), formKey.s)))
      && (r.0.Rejected? ==> r.1 == root)
      && (KeyError(n, siblings, ownKey, formKey).Some? ==> r.0 == Rejected(DisplayKeyExists))
  {
  }

  /** An applied submit replaces only the node's own tag: renamed if asked,
      holding the parsed numbers, each within the bounds, when the text
      changed, and its old numbers otherwise; every line of an applied text
      is a decimal literal. Unique keys stay unique. */
  lemma XArrayApplied(root: Root, n: PanelNode, siblings: seq<DataNode>, ownKey: string, formKey: Key, text: string)
    requires FormFits(root, n, formKey)
    requires XArraySubmit(root, n, siblings, ownKey, formKey, text).0.Applied?
    ensures var after := XArraySubmit(root, n, siblings, ownKey, formKey, text).1;
      var t := OwnTag(root, n);
      var (lo, hi) := OwnBounds(root, n);
      && ValidNode(after, n)
      && ChildrenAt(after, n.parent) == ChildrenAt(root, n.parent)[n.own.value := OwnTag(after, n)]
      && OwnTag(after, n).key == (if Renames(n, formKey) then Some(formKey.s) else t.key)
      && TypeOf(OwnTag(after, n).value) == TypeOf(t.value)
      && (text == InitialText(Elements(t)) ==> Elements(OwnTag(after, n)) == Elements(t))
      && (forall j | 0 <= j < |Lines(text)| :: IsDecimalLiteral(Lines(text)[j]))
      && (text != InitialText(Elements(t)) ==>
            && Elements(OwnTag(after, n)) == ParseArrayText(text)
            && |Elements(OwnTag(after, n))| == |Lines(text)|
            && forall j | 0 <= j < |Lines(text)| :: lo <= Elements(OwnTag(after, n))[j] <= hi)
      && (UniqueKeys(ChildrenAt(root, n.parent)) ==> UniqueKeys(ChildrenAt(after, n.parent)))
      && (forall q | ValidPath(root, q) && Apart(n.parent + [n.own.value], q) ::
            ValidPath(after, q) && TagAt(after, q) == TagAt(root, q))
  {
    var t := OwnTag(root, n);
    var i := n.own.value;
    var tags := ChildrenAt(root, n.parent);
    var (lo, hi) := OwnBounds(root, n);
    ParsedWithinBounds(text, lo, hi);
    var after := XArraySubmit(root, n, siblings, ownKey, formKey, text).1;
    var u := OwnTag(after, n);
    assert ChildrenAt(after, n.parent) == tags[i := u];
    if Renames(n, formKey) {
      ChecksFreeKey(tags, i, formKey.s);
    }
    if UniqueKeys(tags) {
      RenameKeepsUnique(tags, i, u);
    }
  }

  /** Submitting an unmodified, non-empty array whose numbers lie in the
      bounds applies and leaves the root as it was. */
  lemma XArrayUnmodified(root: Root, n: PanelNode, siblings: seq<DataNode>, ownKey: string, formKey: Key, text: string)
    requires FormFits(root, n, formKey) && !Modified(root, n, formKey, text)
    requires KeyError(n, siblings, ownKey, formKey).None?
    requires |Elements(OwnTag(root, n))| > 0
    requires forall j | 0 <= j < |Elements(OwnTag(root, n))| ::
      OwnBounds(root, n).0 <= Elements(OwnTag(root, n))[j] <= OwnBounds(root, n).1
    ensures XArraySubmit(root, n, siblings, ownKey, formKey, text) == (Applied, root)
  {
    var (lo, hi) := OwnBounds(root, n);
    ArrayTextRoundTrip(Elements(OwnTag(root, n)), lo, hi);
  }
}
